=== FILE: README.md ===
# ThrottleBot controller core in Dafny

ThrottleBot searches a containerised cluster for the Most Impactful Resource
(MIMR). A "machine resource" (MR) is a service paired with a resource kind:
CPU-CORE, CPU-QUOTA, DISK or NET. In each iteration the controller does
four things:

- It stresses every MR its policy names at each configured stress weight.
- It ranks the MRs in Redis sorted sets by their mean measured performance.
- It walks the candidates `get_top_n_mimr` returns for the strongest stress,
  `min(stress_weights)`, with n = 10. When optimising for lowest these are the
  n lowest-scored, highest first; otherwise the n+1 lowest-scored, ascending.
- It gives the first candidate that still fits on its hosts back the amount it
  was stressed by, and records a summary of the step.

A capacity and consumption ledger per host guards every improvement. After
at most ten committed iterations the loop stops. It also stops early when no
candidate fits.

This project models that core as pure Dafny functions over immutable data:

| module | models |
|---|---|
| `Types` | MRs, instances (host, container), resource names, errors |
| `RedisStore` | The Redis commands used: hashes, sorted sets as score-ordered sequences, and lists |
| `Datastore` | `redis_client.py`: key naming, results, rankings, top-N, summaries, the placement index |
| `Ledger` | The capacity ledger in `run_throttlebot.py`: seeding, the viability check, consumption updates |
| `Config` | In `run_throttlebot.py`: the conversion dispatch, the resource check, `filter_mr`, `improve_mr_by`, the default allocation |
| `Controller` | `run`: start-up, the stress round, MIMR selection, the commit, and the bounded loop with its summary record |
| `Actuator` | `modify_resources.py`: unit conversion, the `docker update`, OVS and cgroup commands, and the command-line guards |
| `Wrappers`, `Seqs`, `Text` | Result/Option types, sequence helpers, and decimal text with split/join |

Some inputs become parameters rather than being modelled:

- the performance probe: what each measurement returns, per trial;
- the stress policy;
- `MR.to_string`;
- the four `weighting_to_*` conversions;
- the error output of remote commands.

## Model

| member | source | states |
|---|---|---|
| Config.ConvertPercentToRaw | src/run_throttlebot.py:59-70 | Succeeds exactly for the four known resource names. Any other name is the invalid-resource exit. |
| Config.DispatchIsolated | src/run_throttlebot.py:59-70 | Each resource consults its own conversion only. Swapping one conversion changes the result for that resource alone. |
| Config.ValidateResources | src/run_throttlebot.py:388-392 | The reported names are exactly the listed names outside the stressable list. Nothing is rejected. |
| Config.AcceptedResourcesConvertible | src/run_throttlebot.py:388-392 | Every listed name the resource check lets pass, other than `*`, is one the conversion dispatch accepts. |
| Config.ImprovementReversesStrongestStress | src/run_throttlebot.py:241-252 | With `min(stress_weights)` as the weight, the improvement is the negation of one tried weight, and at least the negation of every tried weight. |
| Config.FilterMr | src/run_throttlebot.py:405-425 | An MR survives iff its service is not a platform service, its service is listed (or `*`), and its resource is listed. Under `*`, CPU-CORE is dropped in favour of quota. Survivors keep their allocation. |
| Config.FilterMrIdempotent | src/run_throttlebot.py:405-425 | Filtering a filtered allocation again removes nothing. |
| Config.FilterMrIgnoresMachines | src/run_throttlebot.py:418-419 | The machines argument never changes the result. |
| Config.FilterMrNeverCoresWithWildcard | src/run_throttlebot.py:412-415 | Under the resource wildcard no CPU-CORE MR survives. |
| Config.MaxServicesPerVm | src/run_throttlebot.py:361-364 | The result bounds every VM's service count and equals one of them, or is 0. |
| Config.ParseResourceConfig | src/run_throttlebot.py:346-373 | Given config: the result is empty. No config: every cluster MR gets the same negative share, so no VM exceeds 50 percent and the busiest VM reaches exactly 50. No VM hosts a service: division by zero. |
| Config.DefaultShareBounds | src/run_throttlebot.py:361-368 | `-(50 / max)` is negative, keeps every VM at or under 50 percent, and brings the busiest VM to 50. |
| Ledger.InitClusterCapacities | src/run_throttlebot.py:104-119 | Every VM gets the full instance spec as capacity and `overhead/100` of it as consumption. No other host is recorded. |
| Ledger.InitWithinCapacity | src/run_throttlebot.py:104-119 | With overhead in 0..100 and non-negative specs, the seeded ledger is within capacity and leaves exactly `(100 - overhead)` percent free. |
| Ledger.CheckImproveMrViability | src/run_throttlebot.py:138-149 | True iff every instance host can take the amount. False iff the first host that cannot records the resource. KeyError naming the resource iff that host does not record it. In both cases every earlier host fits. |
| Ledger.NoInstancesAlwaysViable | src/run_throttlebot.py:142-149 | An MR without instances is always viable. |
| Ledger.FullHostRejectsGrowth | src/run_throttlebot.py:147-148 | A host at capacity rejects any positive amount. |
| Ledger.ShrinkAlwaysViable | src/run_throttlebot.py:138-149 | Within capacity, a non-positive amount always passes when all hosts are recorded. |
| Ledger.UpdateMachineConsumption | src/run_throttlebot.py:152-160 | Succeeds iff every instance host records the resource, else KeyError naming the resource. Capacities and the table's shape are unchanged. |
| Ledger.UpdateMachineConsumptionEffect | src/run_throttlebot.py:152-160 | Each entry moves by `new - old` once per instance on that host, for that resource only. Every other entry stays. |
| Ledger.EntryMoves | src/run_throttlebot.py:152-160 | On distinct hosts an entry moves by exactly `new - old` when it is an instance host's entry for the resource, and otherwise stays. |
| Ledger.CommitStaysWithinCapacity | src/run_throttlebot.py:138-160 | A viable change over distinct hosts leaves every instance host within capacity and keeps a bounded ledger bounded. |
| Ledger.SharedHostOvercommits | src/run_throttlebot.py:138-160 | With two instances on one host, the viability check passes while the update charges the host twice, past its capacity. |
| Datastore.HashKeySplit | src/redis_client.py:12-15 | Splitting a hash key on commas gives back iteration, service, resource and metric. |
| Datastore.HashKeyInjective | src/redis_client.py:12-15 | For comma-free parts, equal hash keys mean the same iteration, MR and metric. |
| Datastore.OrderedPerformanceKeyInjective | src/redis_client.py:23-24 | Equal ranking-set names mean the same iteration, metric and stress weight. |
| Datastore.SummaryKeyNotHashKey | src/redis_client.py:88-96 | Summary hashes never collide with result hashes. |
| Datastore.SummaryKeyInjective | src/redis_client.py:89-96 | Different iterations have different summary hashes. |
| Datastore.GenerateMrFromHashKey | src/redis_client.py:18-21 | Succeeds iff the key has four comma-separated parts. The MR's instances are the placement index entry of its service. |
| Datastore.HashKeyRoundTrip | src/redis_client.py:12-21 | Decoding a generated key recovers the MR's service and resource, with the instances the index holds. |
| Datastore.WriteServiceLocations | src/redis_client.py:115-120 | Hosts and containers are pushed onto the service's two lists, reversed, ahead of what was there. No other list, hash or set changes. |
| Datastore.PlacementKeysDistinct | src/redis_client.py:116-117 | The ip list and id list names of services never clash. |
| Datastore.PlacementRoundTrip | src/redis_client.py:115-128 | Reading after a write gives the locations reversed, each host with its own container, followed by the earlier index. |
| Datastore.PlacementFreshWrite | src/redis_client.py:115-128 | On an empty index a write reads back as exactly the reversed locations. |
| Datastore.PlacementIsolated | src/redis_client.py:115-128 | Writing one service's placement leaves every other service's placement as it was. |
| Datastore.ResultFields | src/redis_client.py:33-35 | One field per stress weight, named by the weight, holding that weight's samples of the metric. |
| Datastore.WriteRedisResults | src/redis_client.py:28-41 | Fails iff some weight lacks the metric. On success, each weight's field holds its samples. The overwritten weights are exactly the pre-existing fields. No other hash changes. |
| Datastore.ResultsRoundTrip | src/redis_client.py:28-47 | On a fresh key the read returns exactly one field per weight with its samples, and nothing is overwritten. |
| Datastore.ResultsIsolated | src/redis_client.py:28-47 | A result write never changes another (iteration, MR, metric)'s results. |
| Datastore.RankingReplacesScore | src/redis_client.py:51-57 | After ZADD the MR's key is in the set once, with the new score. Other members are kept. No other set, hash or list changes. |
| Datastore.DecodeRanking | src/redis_client.py:76-82 | Each returned pair is the decoded MR of the entry at the same position, with its score. |
| Datastore.GetTopNMimr | src/redis_client.py:61-82 | Fails the empty-reply assertion iff the queried range is empty. Otherwise it returns the decoded range in order. |
| Datastore.TopNAscending | src/redis_client.py:67-68 | Not optimising for lowest: the n+1 lowest-scored entries (all when fewer), ascending. |
| Datastore.TopNLowestDescending | src/redis_client.py:69-71 | Optimising for lowest with n >= 1: the n lowest-scored entries, highest score first. |
| Datastore.TopNEmptyIffNoRanking | src/redis_client.py:61-72 | In either mode the query fails iff the ranking set is empty. |
| Datastore.WriteSummaryRedis | src/redis_client.py:88-93 | Only the iteration's summary hash changes. No set or list changes. |
| Datastore.SummaryRoundTrip | src/redis_client.py:88-100 | Reading back gives (mimr, action_taken, perf_improvement) as written, in that order. |
| Datastore.SummaryIsolated | src/redis_client.py:88-100 | Writing one iteration's summary leaves every other iteration's summary as it was. |
| RedisStore.ZRangeFromLowest | src/redis_client.py:68 | `zrange(key, 0, n)` is the first n+1 entries of the score order. |
| RedisStore.ZRevRangeLowest | src/redis_client.py:70-71 | `zrange(key, -n, -1, desc=True)` is the n lowest entries, reversed. |
| Controller.Mean | src/run_throttlebot.py:230 | Fails iff the metric is missing (KeyError) or has no samples (division by zero). Otherwise mean times count equals the sum. |
| Controller.MeanOfConstant | src/run_throttlebot.py:230 | Samples that all agree have that value as their mean. |
| Controller.InitServicePlacement | src/run_throttlebot.py:79-86 | Start-up placement touches only lists. |
| Controller.SeenServicesUntouched | src/run_throttlebot.py:80-86 | A service already seen is not written again. |
| Controller.PlacementAfterInit | src/run_throttlebot.py:79-86 | The first MR of each service has its instances in the index, reversed, ahead of what was there. Later MRs of that service add nothing. |
| Controller.InitEntry | src/run_throttlebot.py:93-101 | One entry: the conversion of the configured percentage against the spec becomes the MR's allocation, and only that allocation changes. Each host's consumption of the MR's resource grows by that allocation once per instance on it (old allocation 0); every other entry and the ledger's shape stay. It fails exactly when the resource is missing from the spec, is unknown, or is unrecorded on an instance's host. A missing or unrecorded resource is a KeyError of the resource; an unknown one is an invalid resource. |
| Controller.InitResourceConfig | src/run_throttlebot.py:90-101 | On success, every entry's resource is in the spec and convertible. The allocated MRs are the old ones plus the configured ones, and unconfigured MRs keep their allocation. Store, capacities and ledger shape stay. Every consumption entry grows by the sum over all configured entries of their converted allocation times their instances on that host (`Charges`), repeated entries included. |
| Controller.InitResourceConfigValues | src/run_throttlebot.py:90-101 | Each configured MR ends with the conversion of its last configured percentage. |
| Controller.ChargesStep | src/run_throttlebot.py:93-101 | The first entry's charge followed by the rest's charges is the charge of the whole configuration. |
| Controller.StressWeights | src/run_throttlebot.py:224-235 | Succeeds iff there are no weights, or the resource is convertible and every weight's measurement has a mean. Only sorted sets change. |
| Controller.StressWeightsRanks | src/run_throttlebot.py:224-231 | No ranked member is dropped, and the MR is ranked under every weight it was stressed at. |
| Controller.StressMr | src/run_throttlebot.py:219-238 | Fails iff the MR has no stored allocation or a weight fails. It never changes allocations, the ledger, lists or summaries. |
| Controller.StressMrResults | src/run_throttlebot.py:221-238 | The MR's result hash holds, under each weight, that weight's samples of the metric. |
| Controller.StressAll | src/run_throttlebot.py:216-238 | The stress round writes only rankings and result hashes: allocations, ledger, lists and summaries stay. Success implies every policy MR was allocated. |
| Controller.StressAllRanks | src/run_throttlebot.py:216-238 | Every policy MR is ranked under every stress weight, and no ranked member is dropped. |
| Controller.Proposal | src/run_throttlebot.py:252-254 | An offer exists iff the MR has a stored allocation and a convertible resource. |
| Controller.Commit | src/run_throttlebot.py:257-262 | The MR's allocation becomes the new one and every other allocation stays. Store, capacities and ledger shape stay. Each host's consumption of the MR's resource moves by new minus old allocation once per instance on it; every other consumption entry stays. |
| Controller.CommitKeepsBounded | src/run_throttlebot.py:257-262 | A viable commit over distinct hosts keeps the ledger within capacity. |
| Controller.SelectMimr | src/run_throttlebot.py:247-267 | No choice leaves the state unchanged. A choice is the candidate's offer, its amount is `new - current`, it passed the viability check, and the state is that commit. |
| Controller.SelectMimrNoneIffNoneViable | src/run_throttlebot.py:250-271 | No MIMR is chosen iff every candidate is judged not viable. |
| Controller.SelectMimrFirstViable | src/run_throttlebot.py:250-265 | The chosen MIMR is the first viable candidate, and every earlier one was not viable. |
| Controller.SelectMimrFirstError | src/run_throttlebot.py:250-257 | A raised error comes from the first candidate whose check raises, and every earlier one was not viable. |
| Controller.SelectionKeepsBounded | src/run_throttlebot.py:250-265 | With every candidate on distinct hosts, selection keeps a bounded ledger bounded. |
| Controller.UpdateMrConfig | src/run_throttlebot.py:163-167 | Succeeds iff every MR in play has a stored allocation. It returns exactly those MRs with their stored allocations, and otherwise raises KeyError. |
| Controller.GainsTelescope | src/run_throttlebot.py:276-282 | Each gain is measured against the previous measurement, so the gains sum to the last mean minus the baseline mean. |
| Controller.Choose | src/run_throttlebot.py:214-267 | Stressing keeps allocations, ledger, lists and summaries. No choice changes nothing more. A choice passed the viability check on the stressed state and is committed. |
| Controller.ChooseSelectsFromRanking | src/run_throttlebot.py:240-257 | Selection runs over the top-N ranking read for `min(stress_weights)` after the stress round. |
| Controller.Conclude | src/run_throttlebot.py:269-286 | The round stops for want of a viable MIMR iff selection succeeded without a choice. A halt writes no summary. A commit measures, takes the gain against `prev`, and writes that iteration's summary of MIMR, gain and action. |
| Controller.PlayRound | src/run_throttlebot.py:214-286 | A round never ends as exhausted. A halt that is not a failure keeps allocation and ledger. No round changes the allocated MRs, capacities or placement lists. |
| Controller.RoundHaltsNoViable | src/run_throttlebot.py:240-271 | A round stops for want of a viable MIMR iff the stress round and ranking succeed and every ranked candidate is judged not viable. |
| Controller.RoundKeepsBounded | src/run_throttlebot.py:250-265 | When the placement index has every service on distinct hosts, a round keeps a bounded ledger bounded. |
| Controller.ChosenSpread | src/run_throttlebot.py:240-257 | When the placement index has every service on distinct hosts, the MIMR a round chooses has its instances on distinct hosts. |
| Controller.RoundSummaryFrame | src/run_throttlebot.py:269-286 | A halted round changes no summary, and a committed round changes only its own iteration's. |
| Controller.RoundSummaryWritten | src/run_throttlebot.py:273-285 | A committed round's summary reads back as its step, with the gain measured against the previous measurement. |
| Controller.StartUp | src/run_throttlebot.py:198-212 | On a flushed store the allocated MRs are exactly the configured ones, capacities are as seeded, no summary exists, and each service's placement reads back. Each configured MR holds the conversion of its last configured percentage. Each VM's consumption is the overhead share of the spec plus what the configured instances on it were charged. When every configured MR has distinct hosts, so does every service in the placement index. |
| Controller.InitPlacementSpread | src/run_throttlebot.py:79-86 | Writing each service once into empty lists keeps every service's recorded instances on distinct hosts. |
| Controller.RoundKeepsRecord | src/run_throttlebot.py:214-286 | Every round keeps the loop record. |
| Controller.Iterate | src/run_throttlebot.py:214-286 | One loop pass keeps the record. A halt keeps the count, and a commit raises it by one and re-reads the allocation. It stops for want of a viable MIMR iff no ranked candidate is viable. It keeps the spread of the placement index and, with it, a bounded ledger bounded. |
| Controller.Run | src/run_throttlebot.py:183-294 | At most ten iterations, exhausted iff exactly ten. One summary per iteration, each gain against the previous measurement, none beyond. Without a failure, the allocated MRs, the capacities and the placement stay as at start-up, and the reported allocation is the final one. A stop for want of a viable MIMR means no ranked candidate of the last round was viable. With every configured MR on distinct hosts, a ledger within capacity after start-up stays within capacity. |
| Actuator.Trunc | src/modify_resources.py:101 | Python's `int()` of a float truncates toward zero. |
| Actuator.ConvertToKib | src/modify_resources.py:164-169 | KiB, MiB and GiB multiply by 1, 1024 and 1048576. Any other unit is a KeyError. |
| Actuator.SetCpuQuota | src/modify_resources.py:100-114 | Throttles exactly the one container. |
| Actuator.SetCpuQuotaCarriesValues | src/modify_resources.py:100-114 | The command reads back as `docker update` with the period, the truncated quota, and the container. |
| Actuator.CpuQuotaWithinPeriod | src/modify_resources.py:101 | A percentage in 0..100 gives a quota in 0..period. |
| Actuator.SetCpuCoresPinsFirstCores | src/modify_resources.py:126-131 | The command pins cores `0` to `int(n) - 1`, with memory node 0, on the container. |
| Actuator.SetEgressNetworkBandwidth | src/modify_resources.py:35-57 | Sends two commands. Fails with the network-set error iff the rate command printed errors, and otherwise returns 1. |
| Actuator.NetworkCommandsCarryRate | src/modify_resources.py:40-51 | The rate command carries `int(bandwidth / 1000)` and the burst command carries 0. The outcome ignores the burst command's errors. |
| Actuator.ResetEgressNetworkBandwidth | src/modify_resources.py:59-73 | Sends one command. Fails iff it printed errors, and otherwise returns 1. |
| Actuator.ResetCarriesZero | src/modify_resources.py:62-63 | The reset command carries a policing rate of 0. |
| Actuator.ChangeContainerBlkio | src/modify_resources.py:146-157 | Sends two commands, each echoing the given rate. The first goes to the write throttle file of the container, the second to the read throttle file. |
| Actuator.Flatten | src/modify_resources.py:244-255 | An actuation is performed exactly when its stage's guard holds it, and the actuations come in stage order. |
| Actuator.BlkioCommandRate | src/modify_resources.py:150-151 | Each command echoes device 202:0 at the given rate. |
| Actuator.BlkioSameRateBothWays | src/modify_resources.py:146-157 | The write throttle command comes first and the read throttle command second, and both read back the same rate. |
| Actuator.MainActions | src/modify_resources.py:244-255 | Quota is set iff `0 < quota <= period`, with the period and the quota as given. Blkio is set iff the rate is in `1..70000000`, at that rate. Network is set iff its option is non-zero, at that bandwidth. The actions come in the order quota, quota reset, blkio, blkio reset, network, network reset, each at most once. |
| Actuator.MainActionsResets | src/modify_resources.py:246-255 | Each of the three resets runs iff its flag is given. |
| Actuator.QuotaGuardAdmitsOverPeriod | src/modify_resources.py:244-245 | A quota of 50000 in a 100000 period passes the guard and sends a quota of 50000000. |
| Actuator.MainActionsCorrected | src/modify_resources.py:244-245 | The guard is unchanged, and the quota sent equals the quota asked for, within the period. |
| Actuator.QuotaPercentExact | src/modify_resources.py:101 | Turning a quota into its percentage of the period and back is exact. |

## Left out

- Remote execution is not modelled: ssh, `docker`, OVS and the cgroup files. Commands are modelled as the strings sent, and error output is a parameter.
- `set_mr_provision` is not modelled. The stress round therefore neither applies nor reverts a stressed allocation; the source computes a "revert" value at `run` line 234 and never applies it.
- `get_container_veth` is not modelled. The interface name is a parameter.
- The `weighting_to_*` conversions are not modelled. They are defined outside these files and are parameters of `Config.ConvertPercentToRaw`.
- Measurement is not modelled: `measure_runtime`, `measure_baseline` and the workload. Each measurement is a parameter indexed by what is being measured.
- `generate_mr_from_policy` and the stress scheduler are not modelled. The policy is a parameter.
- The resource datastore (`read_mr_alloc`, `write_mr_alloc`, machine consumption and capacity) is not part of this model. It is represented as a map of allocations and a host-to-resource ledger. A missing allocation raises KeyError.
- `get_instance_specs`, `get_actual_vms`, `get_vm_to_service` and `get_quilt_services` are not part of this model. Their results are parameters.
- Floating point is modelled as exact reals. This covers Python's float arithmetic and the order of operations in `update_machine_consumption` (`prior + new - old`, summed exactly).
- Redis stores values as strings. The model stores typed values and does not model stringification or the WRONGTYPE error.
- Redis breaks score ties by member order. The model follows that, not insertion order.
- Writes made before an exception are not modelled. Where the source raises part-way, the model returns the error without the earlier writes. Examples: a weight missing the metric in `write_redis_results`, or an unrecorded host in `update_machine_consumption`.
- Config parsing is not modelled: `parse_config_file`, `resolve_config_wildcards` and `validate_ip`. `parse_resource_config_file` is modelled only in its default branch; the given-config branch is a placeholder that returns an empty map.
- `print_all_steps` and the final printing of the allocation are not modelled. `Controller.Run` returns the allocation as last re-read.
- `reset_cpu_quota`, `reset_cpu_cores` and `remove_all_network_manipulation` are not modelled. The command-line entry point's resets appear only as actions. The last is marked unused.
- The IP helpers, `initialize_machine`, `install_deps` and `get_num_cores` are not modelled: they are I/O.
- Actuator.NetworkCommandsCarryRate: `bandwidth / 10**3` is floor division on a Python 2 integer. The model truncates the quotient instead, which agrees for non-negative bandwidths only.
- Datastore.TopNAscending: the comment at `src/redis_client.py:65-66` says that when higher is better, increased performance should be the MIMR. The call at line 68 asks for indices 0..n ascending, i.e. the n+1 lowest scores. The model follows the call.
- Config.ValidateResources: unknown resource names are only reported, as in the code; they are not rejected before the loop starts.
- Controller.Run: start-up charges every configured allocation to its hosts without a viability check (`src/run_throttlebot.py:101`). So the ledger being within capacity after start-up is a hypothesis of the boundedness clause, not a promise.
- `read_machine_consumption` and `read_machine_capacity` are not part of this model. A host they have no entry for is taken to read as an empty table, so that the subscript by the resource raises KeyError of the resource, as it does for a recorded host lacking the resource.
- Ledger.CommitStaysWithinCapacity: stated for MRs whose instances sit on distinct hosts, the placement index's stated assumption. `Ledger.SharedHostOvercommits` shows what happens otherwise.

## Findings

| source | as written | input that shows it | evidently intended | confidence | as-written member | corrected member |
|---|---|---|---|---|---|---|
| src/modify_resources.py:244-245 | The entry point's guard checks `0 < cpu_quota <= cpu_period` as for a raw quota, then passes `cpu_quota` to `set_cpu_quota`, which reads it as a percentage of the period. | `--cpu_quota 50000 --cpu_period 100000` sends `--cpu-quota=50000000`, 500 times the period. | The quota sent equals the raw quota the guard admitted. | not executed | Actuator.QuotaGuardAdmitsOverPeriod | Actuator.MainActionsCorrected |

=== FILE: actuator.dfy ===
/**
 * Unit conversions and the command strings the actuator sends to a host:
 * CPU quota and core pinning through `docker update`, egress policing through
 * OVS, and block-I/O throttling through the cgroup files. Running the
 * commands is left to the caller; their error streams are parameters.
 */
module Actuator {
  import opened Wrappers
  import opened Text
  import opened Types

  /** Python's `int(x)` of a float: truncation toward zero. */
  function Trunc(x: real): (r: int)
    ensures x >= 0.0 ==> r >= 0 && r as real <= x < r as real + 1.0
    ensures x < 0.0 ==> r <= 0 && r as real - 1.0 < x <= r as real
  {
    if x >= 0.0 then x.Floor else -((-x).Floor)
  }

  // ------------------------------------------------------------------- units

  /** Multipliers from each memory unit to KiB. */
  const CONVERSION: map<string, int> := map["KiB" := 1, "MiB" := 1024, "GiB" := 1024 * 1024]

  /** `convert_to_kib((size, unit))`; an unknown unit is a KeyError. */
  function ConvertToKib(size: int, unit: string): (r: Result<int, Error>)
    ensures r.Success? <==> unit == "KiB" || unit == "MiB" || unit == "GiB"
    ensures unit == "KiB" ==> r == Success(size)
    ensures unit == "MiB" ==> r == Success(size * 1024)
    ensures unit == "GiB" ==> r == Success(size * 1048576)
    ensures r.Failure? ==> r.error == KeyError(unit)
  {
    if unit in CONVERSION then Success(size * CONVERSION[unit]) else Failure(KeyError(unit))
  }

  // --------------------------------------------------------- command words

  /** The characters before the first `c` (all of them when there is none). */
  function TakeUntil(s: string, c: char): (r: string)
    ensures |r| <= |s| && r == s[..|r|]
  {
    if |s| == 0 || s[0] == c then [] else [s[0]] + TakeUntil(s[1..], c)
  }

  lemma {:induction false} TakeUntilPrefix(a: string, c: char, b: string)
    requires c !in a
    ensures TakeUntil(a + [c] + b, c) == a
    decreases |a|
  {
    if |a| > 0 {
      assert (a + [c] + b)[1..] == a[1..] + [c] + b;
      TakeUntilPrefix(a[1..], c, b);
      assert [a[0]] + a[1..] == a;
    }
  }

  lemma {:induction false} TakeUntilWhole(a: string, c: char)
    requires c !in a
    ensures TakeUntil(a, c) == a
    decreases |a|
  {
    if |a| > 0 {
      TakeUntilWhole(a[1..], c);
      assert [a[0]] + a[1..] == a;
    }
  }

  /** The option name of a command word: the part before '='. */
  function KeyOf(word: string): string {
    TakeUntil(word, '=')
  }

  /** The value a command gives `flag`: the first word `flag=<int>`, read back as an integer. */
  function FlagValue(words: seq<string>, flag: string): Option<int> {
    if |words| == 0 then None
    else if KeyOf(words[0]) == flag && |words[0]| > |flag| then ParseInt(words[0][|flag| + 1..])
    else FlagValue(words[1..], flag)
  }

  /** A word `flag=<v>` names the flag and reads back as `v`. */
  lemma FlagWordValue(flag: string, v: int)
    requires '=' !in flag
    ensures var w := flag + "=" + IntToString(v);
            KeyOf(w) == flag && |w| > |flag| && ParseInt(w[|flag| + 1..]) == Some(v)
  {
    var w := flag + "=" + IntToString(v);
    TakeUntilPrefix(flag, '=', IntToString(v));
    assert w[|flag| + 1..] == IntToString(v);
    IntToStringRoundTrip(v);
  }

  /** A word without '=' names itself. */
  lemma PlainWord(w: string)
    requires '=' !in w
    ensures KeyOf(w) == w
  {
    TakeUntilWhole(w, '=');
  }

  /** The command word `flag=<v>`. */
  function Setting(flag: string, v: int): string {
    flag + "=" + IntToString(v)
  }

  lemma SettingSpaceFree(flag: string, v: int)
    requires ' ' !in flag
    ensures ' ' !in Setting(flag, v)
  {
    IntToStringAvoids(v, ' ');
  }

  /** Another flag's setting is passed over. */
  lemma OtherFlagSkips(flag: string, v: int, other: string)
    requires '=' !in flag && flag != other
    ensures Skips(Setting(flag, v), other)
  {
    FlagWordValue(flag, v);
  }

  /** A word that does not name `flag` is passed over by the lookup. */
  predicate Skips(word: string, flag: string) {
    KeyOf(word) != flag || |word| <= |flag|
  }

  /** The lookup finds `flag=<v>` at position k when every earlier word is passed over. */
  lemma {:induction false} FlagAfter(words: seq<string>, flag: string, k: nat, v: int)
    requires '=' !in flag && k < |words|
    requires forall i :: 0 <= i < k ==> Skips(words[i], flag)
    requires words[k] == Setting(flag, v)
    ensures FlagValue(words, flag) == Some(v)
    decreases k
  {
    if k == 0 {
      FlagWordValue(flag, v);
    } else {
      assert Skips(words[0], flag);
      FlagAfter(words[1..], flag, k - 1, v);
    }
  }

  /** A word without '=' is passed over by every flag lookup. */
  lemma PlainSkips(w: string, flag: string)
    requires '=' !in w
    ensures Skips(w, flag)
  {
    PlainWord(w);
  }

  predicate SpaceFree(s: string) {
    ' ' !in s
  }

  predicate AllSpaceFree(words: seq<string>) {
    forall i :: 0 <= i < |words| ==> ' ' !in words[i]
  }

  /** A command line of space-free words splits back into its words. */
  lemma CommandWords(words: seq<string>)
    requires |words| > 0 && AllSpaceFree(words)
    ensures Split(Join(words, ' '), ' ') == words
  {
    SplitJoin(words, ' ');
  }

  // ------------------------------------------------------------------- CPU

  /** The quota `set_cpu_quota` derives: `int(percent / 100 * period)`. */
  function CpuQuota(period: int, percent: real): int {
    Trunc(percent / 100.0 * period as real)
  }

  /** A percentage between 0 and 100 of a non-negative period gives a quota within the period. */
  lemma CpuQuotaWithinPeriod(period: int, percent: real)
    requires period >= 0 && 0.0 <= percent <= 100.0
    ensures 0 <= CpuQuota(period, percent) <= period
  {
    var f := percent / 100.0;
    var p := period as real;
    var q := CpuQuota(period, percent);
    assert q == Trunc(f * p);
    assert 0.0 <= f <= 1.0;
    assert 0.0 <= f * p by {
      MulNonNegative(f, p);
    }
    assert f * p <= p by {
      MulNonNegative(1.0 - f, p);
      assert (1.0 - f) * p == p - f * p;
    }
    assert q as real <= f * p;
    assert q as real <= period as real;
  }

  lemma MulNonNegative(a: real, b: real)
    requires a >= 0.0 && b >= 0.0
    ensures a * b >= 0.0
  {
  }

  /** The result of `set_cpu_quota`: the command sent, and the containers it throttled. */
  datatype QuotaUpdate = QuotaUpdate(command: string, throttled: seq<string>)

  function QuotaWords(containerId: string, period: int, percent: real): seq<string> {
    ["docker", "update", Setting("--cpu-period", period),
     Setting("--cpu-quota", CpuQuota(period, percent)), containerId]
  }

  /** `docker update --cpu-period=P --cpu-quota=Q ID`, throttling exactly the one container. */
  function SetCpuQuota(containerId: string, period: int, percent: real): (r: QuotaUpdate)
    ensures r.throttled == [containerId]
  {
    QuotaUpdate(Join(QuotaWords(containerId, period, percent), ' '), [containerId])
  }

  /** Reading the command back gives the period and the truncated quota, for the one container. */
  lemma SetCpuQuotaCarriesValues(containerId: string, period: int, percent: real)
    requires SpaceFree(containerId) && '=' !in containerId
    ensures var words := Split(SetCpuQuota(containerId, period, percent).command, ' ');
            && |words| == 5
            && words[0] == "docker" && words[1] == "update"
            && words[4] == containerId
            && FlagValue(words, "--cpu-period") == Some(period)
            && FlagValue(words, "--cpu-quota") == Some(CpuQuota(period, percent))
  {
    var q := CpuQuota(period, percent);
    var words := QuotaWords(containerId, period, percent);
    QuotaWordsShape(containerId, period, q, percent);
    QuotaWordsSkip(containerId, period, percent);
    CommandWords(words);
    FlagAfter(words, "--cpu-period", 2, period);
    FlagAfter(words, "--cpu-quota", 3, q);
  }

  lemma QuotaWordsShape(containerId: string, period: int, q: int, percent: real)
    requires SpaceFree(containerId) && q == CpuQuota(period, percent)
    ensures AllSpaceFree(QuotaWords(containerId, period, percent))
  {
    SettingSpaceFree("--cpu-period", period);
    SettingSpaceFree("--cpu-quota", q);
  }

  lemma QuotaWordsSkip(containerId: string, period: int, percent: real)
    ensures forall i :: 0 <= i < 2 ==> Skips(QuotaWords(containerId, period, percent)[i], "--cpu-period")
    ensures forall i :: 0 <= i < 3 ==> Skips(QuotaWords(containerId, period, percent)[i], "--cpu-quota")
  {
    DockerUpdateSkips("--cpu-period");
    DockerUpdateSkips("--cpu-quota");
    OtherFlagSkips("--cpu-period", period, "--cpu-quota");
  }

  lemma DockerUpdateSkips(flag: string)
    ensures Skips("docker", flag) && Skips("update", flag)
  {
    PlainSkips("docker", flag);
    PlainSkips("update", flag);
  }

  /** The cpuset `set_cpu_cores` pins: `0-(int(cores) - 1)`. */
  function CoreRange(cores: real): string {
    "0-" + IntToString(Trunc(cores) - 1)
  }

  function CoreWords(containerId: string, cores: real): seq<string> {
    ["docker", "update", "--cpuset-cpus=" + CoreRange(cores), "--cpuset-mems=0", containerId]
  }

  /** `docker update --cpuset-cpus=0-(n-1) --cpuset-mems=0 ID`. */
  function SetCpuCores(containerId: string, cores: real): string {
    Join(CoreWords(containerId, cores), ' ')
  }

  /**
   * The pinned range starts at core 0 and its last core is `int(n) - 1`, so
   * for n >= 1 it names exactly `int(n)` cores; memory stays on node 0.
   */
  lemma SetCpuCoresPinsFirstCores(containerId: string, cores: real)
    requires SpaceFree(containerId)
    ensures var words := Split(SetCpuCores(containerId, cores), ' ');
            && |words| == 5
            && words[0] == "docker" && words[1] == "update"
            && |words[2]| >= 16 && words[2][..16] == "--cpuset-cpus=0-"
            && ParseInt(words[2][16..]) == Some(Trunc(cores) - 1)
            && words[3] == "--cpuset-mems=0"
            && words[4] == containerId
  {
    var words := CoreWords(containerId, cores);
    IntToStringAvoids(Trunc(cores) - 1, ' ');
    CommandWords(words);
    assert words[2][16..] == IntToString(Trunc(cores) - 1);
    IntToStringRoundTrip(Trunc(cores) - 1);
  }

  // ---------------------------------------------------------------- network

  /** What a network actuation sent, and what it returned or raised. */
  datatype NetResult = NetResult(commands: seq<string>, outcome: Result<int, Error>)

  function OvsWords(interfaceName: string, setting: string): seq<string> {
    ["docker", "exec", "ovs-vswitchd", "ovs-vsctl", "set", "interface", interfaceName, setting]
  }

  /** `docker exec ovs-vswitchd ovs-vsctl set interface IFACE SETTING`. */
  function OvsSet(interfaceName: string, setting: string): string {
    Join(OvsWords(interfaceName, setting), ' ')
  }

  /** The policing rate for a bandwidth in bits per second: `int(bandwidth / 1000)` kbps. */
  function PolicingRate(bandwidth: real): int {
    Trunc(bandwidth / 1000.0)
  }

  /**
   * Sets the policing rate and a zero burst on the container's interface.
   * Both commands are sent; only the rate command's error stream is looked
   * at, and any output on it raises SystemError. Otherwise the result is 1.
   */
  function SetEgressNetworkBandwidth(interfaceName: string, bandwidth: real,
                                     rateErr: seq<string>, burstErr: seq<string>): (r: NetResult)
    ensures r.outcome.Failure? <==> |rateErr| != 0
    ensures r.outcome.Failure? ==> r.outcome.error == NetworkSetError
    ensures r.outcome.Success? ==> r.outcome.value == 1
    ensures |r.commands| == 2
  {
    var rateCmd := OvsSet(interfaceName, Setting("ingress_policing_rate", PolicingRate(bandwidth)));
    var burstCmd := OvsSet(interfaceName, Setting("ingress_policing_burst", 0));
    NetResult([rateCmd, burstCmd], if |rateErr| != 0 then Failure(NetworkSetError) else Success(1))
  }

  /** Resets the policing rate to 0 (no limit); any error output raises SystemError. */
  function ResetEgressNetworkBandwidth(interfaceName: string, rateErr: seq<string>): (r: NetResult)
    ensures r.outcome.Failure? <==> |rateErr| != 0
    ensures r.outcome.Failure? ==> r.outcome.error == NetworkSetError
    ensures r.outcome.Success? ==> r.outcome.value == 1
    ensures |r.commands| == 1
  {
    var cmd := OvsSet(interfaceName, Setting("ingress_policing_rate", 0));
    NetResult([cmd], if |rateErr| != 0 then Failure(NetworkSetError) else Success(1))
  }

  /**
   * The rate command carries `int(bandwidth / 1000)` and the burst command
   * carries 0, and the outcome does not depend on the burst command's errors.
   */
  lemma NetworkCommandsCarryRate(interfaceName: string, bandwidth: real, rateErr: seq<string>,
                                 burstErr: seq<string>, otherBurstErr: seq<string>)
    requires SpaceFree(interfaceName) && '=' !in interfaceName
    ensures var r := SetEgressNetworkBandwidth(interfaceName, bandwidth, rateErr, burstErr);
            && FlagValue(Split(r.commands[0], ' '), "ingress_policing_rate") == Some(PolicingRate(bandwidth))
            && FlagValue(Split(r.commands[1], ' '), "ingress_policing_burst") == Some(0)
            && r.outcome == SetEgressNetworkBandwidth(interfaceName, bandwidth, rateErr, otherBurstErr).outcome
  {
    OvsCarries(interfaceName, "ingress_policing_rate", PolicingRate(bandwidth));
    OvsCarries(interfaceName, "ingress_policing_burst", 0);
  }

  /** The reset command carries a policing rate of 0. */
  lemma ResetCarriesZero(interfaceName: string, rateErr: seq<string>)
    requires SpaceFree(interfaceName) && '=' !in interfaceName
    ensures FlagValue(Split(ResetEgressNetworkBandwidth(interfaceName, rateErr).commands[0], ' '),
                      "ingress_policing_rate") == Some(0)
  {
    OvsCarries(interfaceName, "ingress_policing_rate", 0);
  }

  lemma OvsCarries(interfaceName: string, flag: string, v: int)
    requires SpaceFree(interfaceName) && '=' !in interfaceName
    requires flag == "ingress_policing_rate" || flag == "ingress_policing_burst"
    ensures FlagValue(Split(OvsSet(interfaceName, Setting(flag, v)), ' '), flag) == Some(v)
  {
    var setting := Setting(flag, v);
    var words := OvsWords(interfaceName, setting);
    IntToStringAvoids(v, ' ');
    OvsWordsShape(interfaceName, setting, flag);
    CommandWords(words);
    FlagAfter(words, flag, 7, v);
  }

  lemma OvsWordsShape(interfaceName: string, setting: string, flag: string)
    requires SpaceFree(interfaceName) && '=' !in interfaceName && SpaceFree(setting)
    requires |flag| >= 12
    ensures AllSpaceFree(OvsWords(interfaceName, setting))
    ensures forall i :: 0 <= i < 7 ==> Skips(OvsWords(interfaceName, setting)[i], flag)
  {
    PlainSkips(interfaceName, flag);
  }

  // -------------------------------------------------------------------- disk

  const ECHO_DEVICE := "echo \"202:0 "

  /** The tee into the container's cgroup throttle file for one direction. */
  function TeeSuffix(containerId: string, direction: string): string {
    " | sudo tee /sys/fs/cgroup/blkio/docker/" + containerId + "*/blkio.throttle." + direction + "_bps_device"
  }

  /** Echoes `202:0 RATE` into the write or read throttle file of the container. */
  function BlkioCommand(containerId: string, rate: int, direction: string): string {
    ECHO_DEVICE + IntToString(rate) + "\"" + TeeSuffix(containerId, direction)
  }

  /** `change_container_blkio`: the write throttle, then the read throttle; rate 0 resets both. */
  function ChangeContainerBlkio(containerId: string, rate: int): (cmds: seq<string>)
    ensures |cmds| == 2
    ensures EchoedRate(cmds[0]) == Some(rate) && EchoedRate(cmds[1]) == Some(rate)
    ensures EndsWith(cmds[0], TeeSuffix(containerId, "write"))
    ensures EndsWith(cmds[1], TeeSuffix(containerId, "read"))
  {
    BlkioCommandRate(containerId, rate, "write");
    BlkioCommandRate(containerId, rate, "read");
    BlkioTarget(containerId, rate, "write");
    BlkioTarget(containerId, rate, "read");
    [BlkioCommand(containerId, rate, "write"), BlkioCommand(containerId, rate, "read")]
  }

  /** `t` is the tail of `s`. */
  predicate EndsWith(s: string, t: string) {
    |t| <= |s| && s[|s| - |t|..] == t
  }

  /** A throttle command writes into the throttle file of its direction. */
  lemma BlkioTarget(containerId: string, rate: int, direction: string)
    ensures EndsWith(BlkioCommand(containerId, rate, direction), TeeSuffix(containerId, direction))
  {
    var head := ECHO_DEVICE + IntToString(rate) + "\"";
    var tail := TeeSuffix(containerId, direction);
    assert BlkioCommand(containerId, rate, direction) == head + tail;
  }

  /** The rate echoed for device 202:0: the digits after the device up to the closing quote. */
  function EchoedRate(cmd: string): Option<int> {
    if |cmd| < |ECHO_DEVICE| || cmd[..|ECHO_DEVICE|] != ECHO_DEVICE then None
    else ParseInt(TakeUntil(cmd[|ECHO_DEVICE|..], '"'))
  }

  lemma BlkioCommandRate(containerId: string, rate: int, direction: string)
    ensures EchoedRate(BlkioCommand(containerId, rate, direction)) == Some(rate)
  {
    var digits := IntToString(rate);
    var tail := TeeSuffix(containerId, direction);
    var cmd := BlkioCommand(containerId, rate, direction);
    assert cmd == ECHO_DEVICE + (digits + ['"'] + tail);
    assert cmd[..|ECHO_DEVICE|] == ECHO_DEVICE;
    assert cmd[|ECHO_DEVICE|..] == digits + ['"'] + tail;
    IntToStringAvoids(rate, '"');
    TakeUntilPrefix(digits, '"', tail);
    IntToStringRoundTrip(rate);
  }

  /** Both throttle files receive device 202:0 at the same rate, the write file first. */
  lemma BlkioSameRateBothWays(containerId: string, rate: int)
    ensures var cmds := ChangeContainerBlkio(containerId, rate);
            && EchoedRate(cmds[0]) == Some(rate) && EchoedRate(cmds[1]) == Some(rate)
            && cmds[0] == BlkioCommand(containerId, rate, "write")
            && cmds[1] == BlkioCommand(containerId, rate, "read")
  {
    BlkioCommandRate(containerId, rate, "write");
    BlkioCommandRate(containerId, rate, "read");
  }

  // ------------------------------------------------------- command-line guards

  /** The options of the module's command-line entry point. */
  datatype MainArgs = MainArgs(cpuQuota: int, cpuPeriod: int, rstCpuQuota: bool,
                               setBlkio: int, rstBlkio: bool, setNetwork: int, rstNetwork: bool)

  /** One actuation the entry point performs. */
  datatype Action =
    | SetQuota(period: int, percent: real)
    | ResetQuota
    | SetBlkio(rate: int)
    | ResetBlkio
    | SetNetwork(bandwidth: int)
    | ResetNetwork

  /** Python truthiness of an integer option. */
  predicate Truthy(x: int) {
    x != 0
  }

  /** The quota guard as the entry point writes it; the quota option is then handed over as a percentage. */
  predicate QuotaGuard(a: MainArgs) {
    Truthy(a.cpuQuota) && Truthy(a.cpuPeriod) && a.cpuQuota >= 0 && a.cpuQuota <= a.cpuPeriod
  }

  predicate BlkioGuard(a: MainArgs) {
    Truthy(a.setBlkio) && a.setBlkio >= 0 && a.setBlkio <= 70000000
  }

  /** The position of each kind of actuation in the entry point's sequence of guards. */
  function Stage(act: Action): nat {
    match act
    case SetQuota(_, _) => 0
    case ResetQuota => 1
    case SetBlkio(_) => 2
    case ResetBlkio => 3
    case SetNetwork(_) => 4
    case ResetNetwork => 5
  }

  /**
   * The actuations of the entry point, in the order it performs them: each
   * guarded option at most once, with the option's own value.
   */
  function MainActions(a: MainArgs): (acts: seq<Action>)
    ensures (exists p, q :: SetQuota(p, q) in acts) <==> 0 < a.cpuQuota <= a.cpuPeriod
    ensures SetBlkio(a.setBlkio) in acts <==> 0 < a.setBlkio <= 70000000
    ensures (exists n :: SetNetwork(n) in acts) <==> a.setNetwork != 0
    ensures forall act :: act in acts && act.SetQuota? ==> act == SetQuota(a.cpuPeriod, a.cpuQuota as real)
    ensures forall act :: act in acts && act.SetBlkio? ==> act.rate == a.setBlkio
    ensures forall act :: act in acts && act.SetNetwork? ==> act.bandwidth == a.setNetwork
    ensures forall i, j :: 0 <= i < j < |acts| ==> Stage(acts[i]) < Stage(acts[j])
  {
    Flatten(Slots(a), 0)
  }

  /** Each reset flag of the entry point performs its reset, and nothing else does. */
  lemma MainActionsResets(a: MainArgs)
    ensures ResetQuota in MainActions(a) <==> a.rstCpuQuota
    ensures ResetBlkio in MainActions(a) <==> a.rstBlkio
    ensures ResetNetwork in MainActions(a) <==> a.rstNetwork
  {
  }

  /** The outcome of each guard of the entry point, by stage: the actuation it performs, if any. */
  function Slots(a: MainArgs): (slots: seq<Option<Action>>)
    ensures |slots| == 6
    ensures forall k :: 0 <= k < |slots| && slots[k].Some? ==> Stage(slots[k].value) == k
  {
    [ if QuotaGuard(a) then Some(SetQuota(a.cpuPeriod, a.cpuQuota as real)) else None
    , if a.rstCpuQuota then Some(ResetQuota) else None
    , if BlkioGuard(a) then Some(SetBlkio(a.setBlkio)) else None
    , if a.rstBlkio then Some(ResetBlkio) else None
    , if Truthy(a.setNetwork) then Some(SetNetwork(a.setNetwork)) else None
    , if a.rstNetwork then Some(ResetNetwork) else None ]
  }

  /** Stages strictly increase along `acts`. */
  predicate InStageOrder(acts: seq<Action>) {
    forall i, j :: 0 <= i < j < |acts| ==> Stage(acts[i]) < Stage(acts[j])
  }

  /**
   * The actuations of the slots that hold one, in slot order, where slot `k`
   * belongs to stage `base + k`: an actuation is performed exactly when its
   * stage's slot holds it.
   */
  function Flatten(slots: seq<Option<Action>>, base: nat): (acts: seq<Action>)
    requires Staged(slots, base)
    ensures forall k :: 0 <= k < |slots| && slots[k].Some? ==> slots[k].value in acts
    ensures forall x :: x in acts <==> InSlot(slots, base, x)
    ensures forall i :: 0 <= i < |acts| ==> base <= Stage(acts[i])
    ensures InStageOrder(acts)
    decreases |slots|
  {
    if |slots| == 0 then []
    else
      StagedTail(slots, base);
      var rest := Flatten(slots[1..], base + 1);
      InSlotTail(slots, base, rest);
      match slots[0]
      case None => rest
      case Some(x) =>
        ConsInStageOrder(x, rest);
        [x] + rest
  }

  /** `x` is held by the slot of its stage. */
  predicate InSlot(slots: seq<Option<Action>>, base: nat, x: Action) {
    base <= Stage(x) < base + |slots| && slots[Stage(x) - base] == Some(x)
  }

  lemma InSlotTail(slots: seq<Option<Action>>, base: nat, rest: seq<Action>)
    requires |slots| > 0
    requires forall y :: y in rest ==> InSlot(slots[1..], base + 1, y)
    ensures forall y :: y in rest ==> InSlot(slots, base, y) && base < Stage(y)
  {
    forall y | y in rest
      ensures InSlot(slots, base, y) && base < Stage(y)
    {
      assert slots[1..][Stage(y) - (base + 1)] == slots[Stage(y) - base];
    }
  }

  /** Slot `k` of `slots`, when it holds an actuation, holds one of stage `base + k`. */
  predicate Staged(slots: seq<Option<Action>>, base: nat) {
    forall k :: 0 <= k < |slots| && slots[k].Some? ==> Stage(slots[k].value) == base + k
  }

  lemma StagedTail(slots: seq<Option<Action>>, base: nat)
    requires |slots| > 0 && Staged(slots, base)
    ensures Staged(slots[1..], base + 1)
    ensures forall k :: 1 <= k < |slots| ==> slots[k] == slots[1..][k - 1]
  {
  }

  lemma ConsInStageOrder(x: Action, rest: seq<Action>)
    requires InStageOrder(rest)
    requires forall i :: 0 <= i < |rest| ==> Stage(x) < Stage(rest[i])
    ensures InStageOrder([x] + rest)
    ensures forall y :: y in [x] + rest <==> y == x || y in rest
  {
    forall i, j | 0 <= i < j < |[x] + rest|
      ensures Stage(([x] + rest)[i]) < Stage(([x] + rest)[j])
    {
      assert ([x] + rest)[j] == rest[j - 1];
      if i > 0 {
        assert ([x] + rest)[i] == rest[i - 1];
      }
    }
  }

  /**
   * The quota guard checks `quota <= period`, but the quota is then used as a
   * percentage of the period: asking for a quota of 50000 in a 100000 period
   * passes the guard and sends a quota 500 times the period.
   */
  lemma QuotaGuardAdmitsOverPeriod()
    ensures var a := MainArgs(50000, 100000, false, 0, false, 0, false);
            && MainActions(a) == [SetQuota(100000, 50000.0)]
            && CpuQuota(100000, 50000.0) == 50000000
            && CpuQuota(100000, 50000.0) > 100000
  {
  }

  /**
   * The entry point with the quota handed over as the percentage of the
   * period it stands for, so that docker receives the quota that was asked for.
   */
  function MainActionsCorrected(a: MainArgs): (acts: seq<Action>)
    ensures (exists p, q :: SetQuota(p, q) in acts) <==> 0 < a.cpuQuota <= a.cpuPeriod
    ensures forall act :: act in acts && act.SetQuota? ==>
              act.period == a.cpuPeriod && 0 < CpuQuota(act.period, act.percent) <= act.period
              && CpuQuota(act.period, act.percent) == a.cpuQuota
  {
    var quota := if QuotaGuard(a) then
                   QuotaPercentExact(a.cpuQuota, a.cpuPeriod);
                   [SetQuota(a.cpuPeriod, a.cpuQuota as real * 100.0 / a.cpuPeriod as real)]
                 else [];
    quota
    + (if a.rstCpuQuota then [ResetQuota] else [])
    + (if BlkioGuard(a) then [SetBlkio(a.setBlkio)] else [])
    + (if a.rstBlkio then [ResetBlkio] else [])
    + (if Truthy(a.setNetwork) then [SetNetwork(a.setNetwork)] else [])
    + (if a.rstNetwork then [ResetNetwork] else [])
  }

  /** Turning a quota into its percentage of the period and back is exact. */
  lemma QuotaPercentExact(quota: int, period: int)
    requires period > 0
    ensures CpuQuota(period, quota as real * 100.0 / period as real) == quota
  {
    var p := period as real;
    assert (quota as real * 100.0 / p) / 100.0 * p == quota as real;
  }
}

=== FILE: config.dfy ===
/**
 * The controller's configuration-time logic: dispatch from a resource name to
 * its conversion, the resource-name check, the MR filter, the improvement
 * heuristic, and the default allocation used when no resource configuration
 * is given.
 */
module Config {
  import opened Wrappers
  import opened Seqs
  import opened Types

  // ------------------------------------------------------------- conversions

  /**
   * The four `weighting_to_*` conversions, each taking (weight change, current
   * allocation) to a raw allocation. Their definitions are not part of this
   * model: they are parameters.
   */
  datatype Conversions = Conversions(
    cpuCores: (real, real) -> real,
    cpuQuota: (real, real) -> real,
    blkio: (real, real) -> real,
    netBandwidth: (real, real) -> real)

  /** The resource names the conversion dispatch and the actuators know. */
  predicate Convertible(resource: string) {
    resource == CPU_CORE || resource == CPU_QUOTA || resource == DISK || resource == NET
  }

  /**
   * `convert_percent_to_raw`: each known resource goes to its own conversion;
   * any other name prints an error and exits the program.
   */
  function ConvertPercentToRaw(conv: Conversions, resource: string, current: real, weight: real): (r: Result<real, Error>)
    ensures r.Success? <==> Convertible(resource)
    ensures r.Failure? ==> r.error == InvalidResource(resource)
  {
    if resource == CPU_CORE then Success(conv.cpuCores(weight, current))
    else if resource == CPU_QUOTA then Success(conv.cpuQuota(weight, current))
    else if resource == DISK then Success(conv.blkio(weight, current))
    else if resource == NET then Success(conv.netBandwidth(weight, current))
    else Failure(InvalidResource(resource))
  }

  /**
   * Each resource consults its own conversion and no other: replacing one
   * conversion changes the result for its resource only, and that result is
   * the new conversion's value.
   */
  lemma DispatchIsolated(conv: Conversions, f: (real, real) -> real, resource: string, current: real, weight: real)
    ensures var r := ConvertPercentToRaw(conv.(cpuCores := f), resource, current, weight);
            r == if resource == CPU_CORE then Success(f(weight, current))
                 else ConvertPercentToRaw(conv, resource, current, weight)
    ensures var r := ConvertPercentToRaw(conv.(cpuQuota := f), resource, current, weight);
            r == if resource == CPU_QUOTA then Success(f(weight, current))
                 else ConvertPercentToRaw(conv, resource, current, weight)
    ensures var r := ConvertPercentToRaw(conv.(blkio := f), resource, current, weight);
            r == if resource == DISK then Success(f(weight, current))
                 else ConvertPercentToRaw(conv, resource, current, weight)
    ensures var r := ConvertPercentToRaw(conv.(netBandwidth := f), resource, current, weight);
            r == if resource == NET then Success(f(weight, current))
                 else ConvertPercentToRaw(conv, resource, current, weight)
  {
  }

  // ------------------------------------------------------ resource names

  /**
   * The resource check of `validate_configs`: the names outside the
   * stressable list, in order. Each is only reported; nothing is rejected.
   */
  function ValidateResources(resources: seq<string>): (rejected: seq<string>)
    ensures forall x :: x in rejected <==> x in resources && x !in STRESSABLE
    ensures |rejected| <= |resources|
  {
    if |resources| == 0 then []
    else
      var rest := ValidateResources(resources[1..]);
      assert forall x :: x in resources <==> x == resources[0] || x in resources[1..];
      if resources[0] in STRESSABLE then rest else [resources[0]] + rest
  }

  /**
   * A listed resource that passes the check is the wildcard or a name the
   * conversion dispatch accepts; so the check and the dispatch agree.
   */
  lemma AcceptedResourcesConvertible(resources: seq<string>, x: string)
    requires x in resources && x !in ValidateResources(resources)
    ensures x != "*" ==> forall conv, c, w :: ConvertPercentToRaw(conv, x, c, w).Success?
  {
  }

  // ------------------------------------------------------------- heuristic

  /** `improve_mr_by`: improve by the amount the MR was stressed, with the sign turned. */
  function ImproveMrBy(weightStressed: int): int {
    -weightStressed
  }

  /**
   * With the weight the loop passes, `min(stress_weights)`, the improvement
   * reverses the strongest stress that was tried: it is at least the reversal
   * of every weight, and exactly the reversal of one of them.
   */
  lemma ImprovementReversesStrongestStress(weights: seq<int>)
    requires |weights| > 0
    ensures forall i :: 0 <= i < |weights| ==> ImproveMrBy(MinOf(weights)) >= ImproveMrBy(weights[i])
    ensures exists i :: 0 <= i < |weights| && ImproveMrBy(MinOf(weights)) + weights[i] == 0
  {
    var m := MinOf(weights);
    var i :| 0 <= i < |weights| && weights[i] == m;
  }

  // --------------------------------------------------------------- filtering

  /** Whether `filter_mr` queues an MR for deletion, checked in the source's order. */
  predicate Dropped(k: MRKey, resources: seq<string>, services: seq<string>, platform: set<string>) {
    if k.service in platform then true
    else if "*" !in services && k.service !in services then true
    else if "*" in resources && k.resource == CPU_CORE then true
    else if "*" !in resources && k.resource !in resources then true
    else false
  }

  /**
   * `filter_mr`: drops platform services, unlisted services, CPU-CORE under
   * the resource wildcard (quota is preferred), and unlisted resources. The
   * machines argument is not consulted.
   */
  function FilterMr(alloc: map<MRKey, real>, resources: seq<string>, services: seq<string>,
                    machines: seq<string>, platform: set<string>): (r: map<MRKey, real>)
    ensures r.Keys <= alloc.Keys
    ensures forall k :: k in r ==> r[k] == alloc[k]
    ensures forall k :: k in alloc ==>
              (k in r <==>
                 && k.service !in platform
                 && ("*" in services || k.service in services)
                 && (if "*" in resources then k.resource != CPU_CORE else k.resource in resources))
  {
    map k | k in alloc && !Dropped(k, resources, services, platform) :: alloc[k]
  }

  /** Filtering twice with the same arguments removes nothing more. */
  lemma FilterMrIdempotent(alloc: map<MRKey, real>, resources: seq<string>, services: seq<string>,
                           machines: seq<string>, platform: set<string>)
    ensures var once := FilterMr(alloc, resources, services, machines, platform);
            FilterMr(once, resources, services, machines, platform) == once
  {
  }

  /** The machines argument never changes the outcome. */
  lemma FilterMrIgnoresMachines(alloc: map<MRKey, real>, resources: seq<string>, services: seq<string>,
                                machines: seq<string>, otherMachines: seq<string>, platform: set<string>)
    ensures FilterMr(alloc, resources, services, machines, platform) ==
            FilterMr(alloc, resources, services, otherMachines, platform)
  {
  }

  /** Under the resource wildcard no CPU-CORE MR survives, so cores and quota are never both stressed. */
  lemma FilterMrNeverCoresWithWildcard(alloc: map<MRKey, real>, resources: seq<string>, services: seq<string>,
                                       machines: seq<string>, platform: set<string>)
    requires "*" in resources
    ensures forall k :: k in FilterMr(alloc, resources, services, machines, platform) ==> k.resource != CPU_CORE
  {
  }

  // ------------------------------------------------------ default allocation

  /** The largest number of services placed on any one VM (0 when there is none). */
  method MaxServicesPerVm(vmToService: map<string, seq<string>>) returns (m: nat)
    ensures forall vm :: vm in vmToService ==> |vmToService[vm]| <= m
    ensures m == 0 || exists vm :: vm in vmToService && |vmToService[vm]| == m
  {
    m := 0;
    var todo := vmToService.Keys;
    while todo != {}
      invariant todo <= vmToService.Keys
      invariant forall vm :: vm in vmToService && vm !in todo ==> |vmToService[vm]| <= m
      invariant m == 0 || exists vm :: vm in vmToService && |vmToService[vm]| == m
      decreases todo
    {
      var vm :| vm in todo;
      if |vmToService[vm]| > m {
        m := |vmToService[vm]|;
      }
      todo := todo - {vm};
    }
  }

  /**
   * The allocation `parse_resource_config_file` returns. With no resource
   * configuration every MR of the cluster gets the same share, minus
   * `50 / (most services on one VM)` percent, so that even the busiest VM
   * hands out at most half of each resource; when no VM hosts a service the
   * division fails. A given configuration is not read yet: the result is empty.
   */
  method ParseResourceConfig(resourceConfig: Option<string>, vmToService: map<string, seq<string>>,
                             mrs: seq<MRKey>) returns (r: Result<map<MRKey, real>, Error>)
    ensures resourceConfig.Some? ==> r == Success(map[])
    ensures resourceConfig.None? ==>
              (r.Failure? <==> forall vm :: vm in vmToService ==> |vmToService[vm]| == 0)
    ensures r.Failure? ==> r.error == ZeroDivision
    ensures resourceConfig.None? && r.Success? ==> r.value.Keys == set i | 0 <= i < |mrs| :: mrs[i]
    ensures resourceConfig.None? && r.Success? ==>
              forall a, b :: a in r.value && b in r.value ==> r.value[a] == r.value[b]
    ensures resourceConfig.None? && r.Success? ==>
              forall k, vm :: k in r.value && vm in vmToService ==>
                r.value[k] < 0.0 && -r.value[k] * (|vmToService[vm]| as real) <= 50.0
    ensures resourceConfig.None? && r.Success? ==>
              forall k :: k in r.value ==>
                exists vm :: vm in vmToService && -r.value[k] * (|vmToService[vm]| as real) == 50.0
  {
    if resourceConfig.Some? {
      return Success(map[]);
    }
    var maxServices := MaxServicesPerVm(vmToService);
    if maxServices == 0 {
      return Failure(ZeroDivision);
    }
    var share := 50.0 / maxServices as real;
    DefaultShareBounds(vmToService, maxServices, share);
    r := Success(DefaultAllocation(mrs, -1.0 * share));
  }

  /** Every MR of the cluster mapped to the same allocation. */
  function DefaultAllocation(mrs: seq<MRKey>, v: real): (alloc: map<MRKey, real>)
    ensures alloc.Keys == set i | 0 <= i < |mrs| :: mrs[i]
    ensures forall k :: k in alloc ==> alloc[k] == v
  {
    var keys := set i | 0 <= i < |mrs| :: mrs[i];
    map k | k in keys :: v
  }

  /**
   * The default share is positive, keeps every VM within 50 percent, and
   * brings the busiest VM to exactly 50 percent.
   */
  lemma DefaultShareBounds(vmToService: map<string, seq<string>>, m: nat, share: real)
    requires m > 0 && share == 50.0 / m as real
    requires forall vm :: vm in vmToService ==> |vmToService[vm]| <= m
    requires exists vm :: vm in vmToService && |vmToService[vm]| == m
    ensures -1.0 * share < 0.0
    ensures forall vm :: vm in vmToService ==> -(-1.0 * share) * (|vmToService[vm]| as real) <= 50.0
    ensures exists vm :: vm in vmToService && -(-1.0 * share) * (|vmToService[vm]| as real) == 50.0
  {
    forall vm | vm in vmToService
      ensures share * (|vmToService[vm]| as real) <= 50.0
    {
      assert (|vmToService[vm]| as real) <= m as real;
      assert share * (|vmToService[vm]| as real) <= share * (m as real);
    }
    var busiest :| busiest in vmToService && |vmToService[busiest]| == m;
    assert share * (m as real) == 50.0;
  }
}

=== FILE: controller.dfy ===
/**
 * The tuning controller of `run`: start-up (ledger, placement index and
 * initial allocations), the stress round, MIMR selection by first fit over
 * the ranking, the commit, and the bounded improvement loop.
 */
module Controller {
  import opened Wrappers
  import opened Seqs
  import opened Text
  import opened RedisStore
  import opened Types
  import opened Datastore
  import opened Ledger
  import opened Config

  /** The loop stops after this many committed improvements. */
  const MAX_ITERATIONS: nat := 10

  /** How many ranked candidates the loop asks for (`num_results_returned`). */
  const TOP_N: int := 10

  /** What one `measure_runtime` call measures. */
  datatype Trial =
    | Baseline                                          // before any improvement
    | Stressed(iteration: nat, mr: MRKey, weight: int)  // one MR stressed at one weight
    | Improved(iteration: nat)                          // after the iteration's commit

  /** One measurement: metric name -> samples. */
  type Results = map<string, seq<real>>

  /**
   * Everything the loop consults but this model does not define: the
   * conversions, the measurement probe, the stress policy (the MRs to stress
   * in each iteration), `MR.to_string`, and the workload settings.
   */
  datatype Env = Env(
    conv: Conversions,
    probe: Trial -> Results,
    policy: nat -> seq<MR>,
    render: MR -> string,
    metric: string,
    lowest: bool,
    weights: seq<int>)

  /** The datastore, the capacity ledger and the stored allocation of every MR. */
  datatype State = State(store: Store, ledger: Ledger, alloc: map<MRKey, real>)

  // ------------------------------------------------------------------- means

  /** `sum(samples) / len(samples)` of the metric; a missing metric or no samples raise. */
  function Mean(results: Results, metric: string): (r: Result<real, Error>)
    ensures r.Failure? <==> metric !in results || |results[metric]| == 0
    ensures r.Failure? ==> r.error == (if metric !in results then KeyError(metric) else ZeroDivision)
    ensures r.Success? ==> r.value * (|results[metric]| as real) == Sum(results[metric])
  {
    if metric !in results then Failure(KeyError(metric))
    else if |results[metric]| == 0 then Failure(ZeroDivision)
    else Success(Sum(results[metric]) / (|results[metric]| as real))
  }

  lemma {:induction false} SumConstant(xs: seq<real>, c: real)
    requires forall i :: 0 <= i < |xs| ==> xs[i] == c
    ensures Sum(xs) == (|xs| as real) * c
    decreases |xs|
  {
    if |xs| > 0 {
      SumConstant(xs[1..], c);
    }
  }

  /** Samples that all agree have that value as their mean. */
  lemma MeanOfConstant(results: Results, metric: string, c: real)
    requires metric in results && |results[metric]| > 0
    requires forall i :: 0 <= i < |results[metric]| ==> results[metric][i] == c
    ensures Mean(results, metric) == Success(c)
  {
    var n := |results[metric]| as real;
    SumConstant(results[metric], c);
    assert Sum(results[metric]) / n == c by {
      assert Sum(results[metric]) == n * c;
      assert (n * c) / n == c;
    }
  }

  // ---------------------------------------------------------------- start-up

  /** No MR before position i belongs to the same service as the one at i. */
  predicate FirstOfService(mrs: seq<MR>, i: int)
    requires 0 <= i < |mrs|
  {
    forall j :: 0 <= j < i ==> mrs[j].service != mrs[i].service
  }

  /** The ip list and the id list of a service have the same length. */
  predicate Balanced(st: Store, service: string) {
    |LRange(st, IpKey(service))| == |LRange(st, IdKey(service))|
  }

  /**
   * `init_service_placement_r`: the placement of each service is written
   * once, from the first MR of that service; `seen` holds the services
   * already written.
   */
  function InitServicePlacement(st: Store, mrs: seq<MR>, seen: set<string>): (r: Store)
    ensures r.hashes == st.hashes && r.zsets == st.zsets
    decreases |mrs|
  {
    if |mrs| == 0 then st
    else if mrs[0].service in seen then InitServicePlacement(st, mrs[1..], seen)
    else InitServicePlacement(WriteServiceLocations(st, mrs[0].service, mrs[0].instances), mrs[1..],
                              seen + {mrs[0].service})
  }

  /** Writing one service's placement leaves the other services' lists as they were. */
  lemma OtherServiceUntouched(st: Store, service: string, locations: seq<Instance>, other: string)
    requires other != service
    ensures var r := WriteServiceLocations(st, service, locations);
            && LRange(r, IpKey(other)) == LRange(st, IpKey(other))
            && LRange(r, IdKey(other)) == LRange(st, IdKey(other))
  {
    PlacementKeysDistinct(other, service);
    PlacementKeysDistinct(service, other);
  }

  /** A service already written is not written again. */
  lemma {:induction false} SeenServicesUntouched(st: Store, mrs: seq<MR>, seen: set<string>, s: string)
    requires s in seen
    ensures var r := InitServicePlacement(st, mrs, seen);
            LRange(r, IpKey(s)) == LRange(st, IpKey(s)) && LRange(r, IdKey(s)) == LRange(st, IdKey(s))
    decreases |mrs|
  {
    if |mrs| > 0 {
      if mrs[0].service in seen {
        SeenServicesUntouched(st, mrs[1..], seen, s);
      } else {
        var st1 := WriteServiceLocations(st, mrs[0].service, mrs[0].instances);
        OtherServiceUntouched(st, mrs[0].service, mrs[0].instances, s);
        SeenServicesUntouched(st1, mrs[1..], seen + {mrs[0].service}, s);
      }
    }
  }

  /**
   * After start-up, the first MR of each service not yet written has its
   * instances in the index in reverse order (the lists are prepended to),
   * ahead of what was there; later MRs of the same service add nothing.
   */
  lemma PlacementAfterInit(st: Store, mrs: seq<MR>, seen: set<string>, i: int)
    requires 0 <= i < |mrs| && FirstOfService(mrs, i) && mrs[i].service !in seen
    requires Balanced(st, mrs[i].service)
    ensures ReadServiceLocations(InitServicePlacement(st, mrs, seen), mrs[i].service) ==
            Reverse(mrs[i].instances) + ReadServiceLocations(st, mrs[i].service)
  {
    var s := mrs[i].service;
    ListsAfterInit(st, mrs, seen, i);
    PlacementRoundTrip(st, s, mrs[i].instances);
  }

  /** A service's two lists after start-up are those of the single write made for its first MR. */
  lemma {:induction false} ListsAfterInit(st: Store, mrs: seq<MR>, seen: set<string>, i: int)
    requires 0 <= i < |mrs| && FirstOfService(mrs, i) && mrs[i].service !in seen
    ensures var s := mrs[i].service;
            var r := InitServicePlacement(st, mrs, seen);
            var w := WriteServiceLocations(st, s, mrs[i].instances);
            LRange(r, IpKey(s)) == LRange(w, IpKey(s)) && LRange(r, IdKey(s)) == LRange(w, IdKey(s))
    decreases |mrs|
  {
    var s := mrs[i].service;
    if i == 0 {
      var st1 := WriteServiceLocations(st, s, mrs[0].instances);
      SeenServicesUntouched(st1, mrs[1..], seen + {s}, s);
    } else {
      assert mrs[0].service != s;
      assert FirstOfService(mrs[1..], i - 1) by {
        forall j | 0 <= j < i - 1
          ensures mrs[1..][j].service != mrs[1..][i - 1].service
        {
          assert mrs[1..][j] == mrs[j + 1];
        }
      }
      assert mrs[1..][i - 1] == mrs[i];
      if mrs[0].service in seen {
        ListsAfterInit(st, mrs[1..], seen, i - 1);
      } else {
        var st1 := WriteServiceLocations(st, mrs[0].service, mrs[0].instances);
        OtherServiceUntouched(st, mrs[0].service, mrs[0].instances, s);
        ListsAfterInit(st1, mrs[1..], seen + {mrs[0].service}, i - 1);
      }
    }
  }

  /** No later entry of the configuration has the same MR key as entry i. */
  predicate LastOfKey(entries: seq<(MR, real)>, i: int)
    requires 0 <= i < |entries|
  {
    forall j :: i < j < |entries| ==> entries[j].0.Key() != entries[i].0.Key()
  }

  /** The MR keys a configuration names. */
  function ConfigKeys(entries: seq<(MR, real)>): set<MRKey> {
    set e | e in entries :: e.0.Key()
  }

  /**
   * `init_resource_config`: each configured percentage is converted against
   * the instance spec of its resource and stored as the MR's allocation,
   * and each instance host's consumption grows by it (old allocation 0). No
   * viability check is made. A resource missing from the spec raises
   * KeyError; an unknown resource exits.
   */
  function InitResourceConfig(conv: Conversions, s: State, entries: seq<(MR, real)>, spec: map<string, real>): (r: Result<State, Error>)
    ensures r.Success? ==> r.value.store == s.store && r.value.ledger.capacity == s.ledger.capacity
    ensures r.Success? ==> r.value.alloc.Keys == s.alloc.Keys + ConfigKeys(entries)
    ensures r.Success? ==> forall i :: 0 <= i < |entries| ==>
              entries[i].0.resource in spec && Convertible(entries[i].0.resource)
    ensures r.Success? ==> forall k :: k in s.alloc && k !in ConfigKeys(entries) ==> r.value.alloc[k] == s.alloc[k]
    ensures r.Success? ==> Charged(conv, entries, spec, s.ledger.consumption, r.value.ledger.consumption)
    ensures r.Failure? ==> r.error.KeyError? || r.error.InvalidResource?
    decreases |entries|
  {
    if |entries| == 0 then Success(s)
    else
      var next := InitEntry(conv, s, entries[0].0, entries[0].1, spec);
      if next.Failure? then Failure(next.error)
      else
        EntriesStep(entries);
        var rest := InitResourceConfig(conv, next.value, entries[1..], spec);
        if rest.Failure? then rest
        else
          ChargesStep(conv, s, entries, spec, next.value, rest.value);
          rest
  }

  /**
   * `after` has the shape of `before`, and every entry of it has grown by
   * what the configured entries charge to it.
   */
  predicate Charged(conv: Conversions, entries: seq<(MR, real)>, spec: map<string, real>, before: Table, after: Table) {
    && SameShape(after, before)
    && forall h, q :: h in before && q in before[h] ==> after[h][q] == before[h][q] + Charges(conv, entries, spec, h, q)
  }

  /** Each MR configured last at entry i holds the conversion of that entry's percentage. */
  predicate Configured(conv: Conversions, entries: seq<(MR, real)>, spec: map<string, real>, alloc: map<MRKey, real>) {
    forall i :: 0 <= i < |entries| && LastOfKey(entries, i) ==>
      && entries[i].0.resource in spec && entries[i].0.Key() in alloc
      && ConvertPercentToRaw(conv, entries[i].0.resource, spec[entries[i].0.resource], entries[i].1)
           == Success(alloc[entries[i].0.Key()])
  }

  /** The head entry's charge followed by the tail's charges is the whole configuration's. */
  lemma ChargesStep(conv: Conversions, s: State, entries: seq<(MR, real)>, spec: map<string, real>, next: State, last: State)
    requires |entries| > 0
    requires InitEntry(conv, s, entries[0].0, entries[0].1, spec) == Success(next)
    requires Charged(conv, entries[1..], spec, next.ledger.consumption, last.ledger.consumption)
    ensures Charged(conv, entries, spec, s.ledger.consumption, last.ledger.consumption)
  {
    forall h, q | h in s.ledger.consumption && q in s.ledger.consumption[h]
      ensures last.ledger.consumption[h][q] == s.ledger.consumption[h][q] + Charges(conv, entries, spec, h, q)
    {
      assert h in next.ledger.consumption && q in next.ledger.consumption[h];
    }
  }

  /**
   * What the configured entries charge to the consumption of `resource` on
   * `host`: each entry whose percentage converts adds its raw allocation
   * once per instance it has on that host.
   */
  function Charges(conv: Conversions, entries: seq<(MR, real)>, spec: map<string, real>, host: string, resource: string): real
    decreases |entries|
  {
    if |entries| == 0 then 0.0
    else
      var mr := entries[0].0;
      var raw := if mr.resource in spec then ConvertPercentToRaw(conv, mr.resource, spec[mr.resource], entries[0].1)
                 else Failure(KeyError(mr.resource));
      (if raw.Success? then Shift(mr.instances, mr.resource, raw.value, host, resource) else 0.0)
        + Charges(conv, entries[1..], spec, host, resource)
  }

  /** One configured entry: its conversion becomes the MR's allocation and is charged to its hosts. */
  function InitEntry(conv: Conversions, s: State, mr: MR, percent: real, spec: map<string, real>): (r: Result<State, Error>)
    ensures r.Success? ==> mr.resource in spec && Convertible(mr.resource)
    ensures r.Success? ==> r.value.store == s.store && r.value.ledger.capacity == s.ledger.capacity
    ensures r.Success? ==> mr.Key() in r.value.alloc
    ensures r.Success? ==>
              ConvertPercentToRaw(conv, mr.resource, spec[mr.resource], percent) == Success(r.value.alloc[mr.Key()])
    ensures r.Success? ==> r.value.alloc == s.alloc[mr.Key() := r.value.alloc[mr.Key()]]
    ensures r.Success? ==> SameShape(r.value.ledger.consumption, s.ledger.consumption)
    ensures r.Success? ==> forall h, q :: h in s.ledger.consumption && q in s.ledger.consumption[h] ==>
              r.value.ledger.consumption[h][q]
                == s.ledger.consumption[h][q] + Shift(mr.instances, mr.resource, r.value.alloc[mr.Key()], h, q)
    ensures r.Failure? <==>
              mr.resource !in spec || !Convertible(mr.resource) || !ConsumptionRecorded(s.ledger, mr.instances, mr.resource)
    ensures r.Failure? && (mr.resource !in spec || Convertible(mr.resource)) ==> r.error == KeyError(mr.resource)
    ensures r.Failure? && mr.resource in spec && !Convertible(mr.resource) ==> r.error == InvalidResource(mr.resource)
  {
    if mr.resource !in spec then Failure(KeyError(mr.resource))
    else
      var raw := ConvertPercentToRaw(conv, mr.resource, spec[mr.resource], percent);
      if raw.Failure? then Failure(raw.error)
      else
        var led := UpdateMachineConsumption(s.ledger, mr.instances, mr.resource, raw.value, 0.0);
        if led.Failure? then Failure(led.error)
        else
          UpdateMachineConsumptionEffect(s.ledger, mr.instances, mr.resource, raw.value, 0.0);
          Success(State(s.store, led.value, s.alloc[mr.Key() := raw.value]))
  }

  /** A configuration is its first entry followed by the rest. */
  lemma EntriesStep(entries: seq<(MR, real)>)
    requires |entries| > 0
    ensures ConfigKeys(entries) == {entries[0].0.Key()} + ConfigKeys(entries[1..])
    ensures forall j :: 0 < j < |entries| ==> entries[j] == entries[1..][j - 1]
  {
    assert forall e :: e in entries <==> e == entries[0] || e in entries[1..];
  }

  /** Each configured MR ends with the allocation converted from its last configured percentage. */
  lemma {:induction false} InitResourceConfigValues(conv: Conversions, s: State, entries: seq<(MR, real)>,
                                                    spec: map<string, real>, i: int)
    requires 0 <= i < |entries| && LastOfKey(entries, i)
    requires InitResourceConfig(conv, s, entries, spec).Success?
    ensures var mr := entries[i].0;
            var r := InitResourceConfig(conv, s, entries, spec).value;
            && mr.resource in spec && mr.Key() in r.alloc
            && ConvertPercentToRaw(conv, mr.resource, spec[mr.resource], entries[i].1) == Success(r.alloc[mr.Key()])
    decreases |entries|
  {
    var mr := entries[0].0;
    var next := InitEntry(conv, s, mr, entries[0].1, spec).value;
    var r := InitResourceConfig(conv, s, entries, spec);
    assert r == InitResourceConfig(conv, next, entries[1..], spec);
    if i == 0 {
      LastAtHead(entries);
      assert r.value.alloc[mr.Key()] == next.alloc[mr.Key()];
    } else {
      LastInTail(entries, i);
      InitResourceConfigValues(conv, next, entries[1..], spec, i - 1);
    }
  }

  /** The head entry, when last of its key, has no later entry with that key. */
  lemma LastAtHead(entries: seq<(MR, real)>)
    requires |entries| > 0 && LastOfKey(entries, 0)
    ensures entries[0].0.Key() !in ConfigKeys(entries[1..])
  {
    forall e | e in entries[1..]
      ensures e.0.Key() != entries[0].0.Key()
    {
      var j :| 0 <= j < |entries[1..]| && entries[1..][j] == e;
      assert entries[j + 1] == e;
    }
  }

  /** A later entry that is last of its key stays so once the head is dropped. */
  lemma LastInTail(entries: seq<(MR, real)>, i: int)
    requires 0 < i < |entries| && LastOfKey(entries, i)
    ensures LastOfKey(entries[1..], i - 1) && entries[1..][i - 1] == entries[i]
  {
    forall j | i - 1 < j < |entries[1..]|
      ensures entries[1..][j].0.Key() != entries[1..][i - 1].0.Key()
    {
      assert entries[1..][j] == entries[j + 1];
    }
  }

  // ------------------------------------------------------------ stress round

  /**
   * Stresses one MR at each weight in turn: the conversion is evaluated (an
   * unknown resource exits), the workload is measured, and the mean is
   * ranked under (iteration, metric, weight). The stressed allocation is
   * never reverted, and nothing but the rankings is written.
   */
  function StressWeights(env: Env, st: Store, iteration: nat, mr: MR, current: real, ws: seq<int>): (r: Result<Store, Error>)
    requires WellFormed(st)
    ensures r.Success? <==>
              |ws| == 0 || (Convertible(mr.resource) &&
                            forall i :: 0 <= i < |ws| ==> Mean(env.probe(Stressed(iteration, mr.Key(), ws[i])), env.metric).Success?)
    ensures r.Failure? ==> r.error.InvalidResource? || r.error == KeyError(env.metric) || r.error == ZeroDivision
    ensures r.Success? ==> WellFormed(r.value) && r.value.hashes == st.hashes && r.value.lists == st.lists
    decreases |ws|
  {
    if |ws| == 0 then Success(st)
    else
      var w := ws[0];
      var raw := ConvertPercentToRaw(env.conv, mr.resource, current, w as real);
      if raw.Failure? then Failure(raw.error)
      else
        var results := env.probe(Stressed(iteration, mr.Key(), w));
        var mean := Mean(results, env.metric);
        if mean.Failure? then Failure(mean.error)
        else
          var st1 := WriteRedisRanking(st, iteration, env.metric, mean.value, mr, w);
          assert forall i :: 0 < i < |ws| ==> ws[i] == ws[1..][i - 1];
          StressWeights(env, st1, iteration, mr, current, ws[1..])
  }

  /** `increment_to_performance`: the measurement taken at each stress weight. */
  function IncrementResults(env: Env, iteration: nat, key: MRKey, ws: seq<int>): map<int, Results> {
    map w | w in ws :: env.probe(Stressed(iteration, key, w))
  }

  /** When every weight's measurement has a mean, every measurement holds the metric. */
  lemma IncrementHasMetric(env: Env, iteration: nat, key: MRKey, ws: seq<int>)
    requires forall i :: 0 <= i < |ws| ==> Mean(env.probe(Stressed(iteration, key, ws[i])), env.metric).Success?
    ensures var inc := IncrementResults(env, iteration, key, ws);
            forall w :: w in inc ==> env.metric in inc[w]
  {
    var inc := IncrementResults(env, iteration, key, ws);
    forall w | w in inc
      ensures env.metric in inc[w]
    {
      var i :| 0 <= i < |ws| && ws[i] == w;
    }
  }

  /**
   * Stressing never drops a ranked member, and after it the MR is ranked
   * under every weight it was stressed at.
   */
  lemma {:induction false} StressWeightsRanks(env: Env, st: Store, iteration: nat, mr: MR, current: real, ws: seq<int>)
    requires WellFormed(st)
    requires StressWeights(env, st, iteration, mr, current, ws).Success?
    ensures var st' := StressWeights(env, st, iteration, mr, current, ws).value;
            && (forall k :: Members(ZSetOf(st, k)) <= Members(ZSetOf(st', k)))
            && (forall w :: w in ws ==>
                  GenerateHashKey(iteration, mr, env.metric) in
                    Members(ZSetOf(st', GenerateOrderedPerformanceKey(iteration, env.metric, w))))
    decreases |ws|
  {
    if |ws| > 0 {
      var w := ws[0];
      var mean := Mean(env.probe(Stressed(iteration, mr.Key(), w)), env.metric);
      var st1 := WriteRedisRanking(st, iteration, env.metric, mean.value, mr, w);
      RankingReplacesScore(st, iteration, env.metric, mean.value, mr, w);
      StressWeightsRanks(env, st1, iteration, mr, current, ws[1..]);
      assert forall x :: x in ws <==> x == w || x in ws[1..];
    }
  }

  /**
   * One MR of the stress round: its stored allocation is read (KeyError when
   * absent), it is stressed at every weight, and its results are written
   * under (iteration, MR, metric).
   */
  function StressMr(env: Env, s: State, iteration: nat, mr: MR): (r: Result<State, Error>)
    requires WellFormed(s.store)
    ensures r.Success? <==>
              mr.Key() in s.alloc &&
              (|env.weights| == 0 || (Convertible(mr.resource) &&
                 forall i :: 0 <= i < |env.weights| ==>
                   Mean(env.probe(Stressed(iteration, mr.Key(), env.weights[i])), env.metric).Success?))
    ensures r.Success? ==> r.value.alloc == s.alloc && r.value.ledger == s.ledger
    ensures r.Success? ==> WellFormed(r.value.store) && r.value.store.lists == s.store.lists
    ensures r.Success? ==> forall k :: CommaFree(k) ==> HGetAll(r.value.store, k) == HGetAll(s.store, k)
  {
    if mr.Key() !in s.alloc then Failure(KeyError(mr.service))
    else
      var sw := StressWeights(env, s.store, iteration, mr, s.alloc[mr.Key()], env.weights);
      if sw.Failure? then Failure(sw.error)
      else
        var st1 := sw.value;
        var inc := IncrementResults(env, iteration, mr.Key(), env.weights);
        IncrementHasMetric(env, iteration, mr.Key(), env.weights);
        var wr := WriteRedisResults(st1, mr, inc, iteration, env.metric);
        KeyShapes(0, iteration, mr, env.metric);
        Success(s.(store := wr.value.store))
  }

  /** An MR's stress drops no ranked member and ranks the MR under every weight. */
  lemma StressMrRanks(env: Env, s: State, iteration: nat, mr: MR)
    requires WellFormed(s.store)
    requires StressMr(env, s, iteration, mr).Success?
    ensures var st' := StressMr(env, s, iteration, mr).value.store;
            && (forall k :: Members(ZSetOf(s.store, k)) <= Members(ZSetOf(st', k)))
            && (forall w :: w in env.weights ==>
                  GenerateHashKey(iteration, mr, env.metric) in
                    Members(ZSetOf(st', GenerateOrderedPerformanceKey(iteration, env.metric, w))))
  {
    StressWeightsRanks(env, s.store, iteration, mr, s.alloc[mr.Key()], env.weights);
  }

  /**
   * After an MR's stress, its result hash holds, under each weight, the
   * samples of the metric measured at that weight.
   */
  lemma StressMrResults(env: Env, s: State, iteration: nat, mr: MR)
    requires WellFormed(s.store)
    requires StressMr(env, s, iteration, mr).Success?
    ensures forall w :: w in env.weights ==>
              && env.metric in env.probe(Stressed(iteration, mr.Key(), w))
              && HGet(StressMr(env, s, iteration, mr).value.store, GenerateHashKey(iteration, mr, env.metric), IntToString(w)) ==
                 Some(Samples(env.probe(Stressed(iteration, mr.Key(), w))[env.metric]))
  {
    forall w | w in env.weights
      ensures env.metric in env.probe(Stressed(iteration, mr.Key(), w))
    {
      var i :| 0 <= i < |env.weights| && env.weights[i] == w;
    }
  }

  /**
   * The stress round over the policy's MRs, in order. It writes rankings and
   * result hashes only: the stored allocations, the ledger, the summaries and
   * the placement index are left as they were.
   */
  function StressAll(env: Env, s: State, iteration: nat, mrs: seq<MR>): (r: Result<State, Error>)
    requires WellFormed(s.store)
    ensures r.Success? ==> r.value.alloc == s.alloc && r.value.ledger == s.ledger
    ensures r.Success? ==> WellFormed(r.value.store) && r.value.store.lists == s.store.lists
    ensures r.Success? ==> forall k :: CommaFree(k) ==> HGetAll(r.value.store, k) == HGetAll(s.store, k)
    ensures r.Success? ==> forall i :: 0 <= i < |mrs| ==> mrs[i].Key() in s.alloc
    decreases |mrs|
  {
    if |mrs| == 0 then Success(s)
    else
      var one := StressMr(env, s, iteration, mrs[0]);
      if one.Failure? then Failure(one.error)
      else
        var rest := StressAll(env, one.value, iteration, mrs[1..]);
        assert forall i :: 0 < i < |mrs| ==> mrs[i] == mrs[1..][i - 1];
        rest
  }

  /**
   * The stress round drops no ranked member, and ranks every MR of the policy
   * under every stress weight.
   */
  lemma {:induction false} StressAllRanks(env: Env, s: State, iteration: nat, mrs: seq<MR>)
    requires WellFormed(s.store)
    requires StressAll(env, s, iteration, mrs).Success?
    ensures var st' := StressAll(env, s, iteration, mrs).value.store;
            && (forall k :: Members(ZSetOf(s.store, k)) <= Members(ZSetOf(st', k)))
            && (forall i, w :: 0 <= i < |mrs| && w in env.weights ==>
                  GenerateHashKey(iteration, mrs[i], env.metric) in
                    Members(ZSetOf(st', GenerateOrderedPerformanceKey(iteration, env.metric, w))))
    decreases |mrs|
  {
    if |mrs| > 0 {
      var one := StressMr(env, s, iteration, mrs[0]).value;
      StressMrRanks(env, s, iteration, mrs[0]);
      StressAllRanks(env, one, iteration, mrs[1..]);
      assert forall i :: 0 < i < |mrs| ==> mrs[i] == mrs[1..][i - 1];
    }
  }

  // --------------------------------------------------------------- selection

  /**
   * The allocation a candidate is offered: `convert_percent_to_raw` of its
   * current allocation for `improve_mr_by(max_stress_weight)` percent. A
   * candidate with no stored allocation raises.
   */
  function Proposal(env: Env, alloc: map<MRKey, real>, mr: MR, maxWeight: int): (r: Result<real, Error>)
    ensures r.Success? <==> mr.Key() in alloc && Convertible(mr.resource)
  {
    if mr.Key() !in alloc then Failure(KeyError(mr.service))
    else ConvertPercentToRaw(env.conv, mr.resource, alloc[mr.Key()], ImproveMrBy(maxWeight) as real)
  }

  /** The viability verdict the loop reaches for one candidate: the offered change checked against the ledger. */
  function Viability(env: Env, s: State, mr: MR, maxWeight: int): Result<bool, Error> {
    var offered := Proposal(env, s.alloc, mr, maxWeight);
    if offered.Failure? then Failure(offered.error)
    else CheckImproveMrViability(s.ledger, mr.instances, mr.resource, offered.value - s.alloc[mr.Key()])
  }

  /** A committed change: the MIMR, its new allocation, and the amount it moved by (`action_taken`). */
  datatype Change = Change(mr: MR, newAlloc: real, amount: real)

  /** The state after selection, and the change committed, if any. */
  datatype Selection = Selection(state: State, chosen: Option<Change>)

  /**
   * Commits a viable change: `write_mr_alloc` of the new allocation, then
   * `update_machine_consumption` from the old to the new allocation.
   */
  function Commit(s: State, mr: MR, newAlloc: real): (r: State)
    requires mr.Key() in s.alloc
    requires CheckImproveMrViability(s.ledger, mr.instances, mr.resource, newAlloc - s.alloc[mr.Key()]) == Success(true)
    ensures r.store == s.store
    ensures r.alloc.Keys == s.alloc.Keys
    ensures r.alloc[mr.Key()] == newAlloc
    ensures forall k :: k in s.alloc && k != mr.Key() ==> r.alloc[k] == s.alloc[k]
    ensures r.ledger.capacity == s.ledger.capacity
    ensures SameShape(r.ledger.consumption, s.ledger.consumption)
    ensures forall h, q :: h in s.ledger.consumption && q in s.ledger.consumption[h] ==>
              r.ledger.consumption[h][q]
                == s.ledger.consumption[h][q] + Shift(mr.instances, mr.resource, newAlloc - s.alloc[mr.Key()], h, q)
  {
    var prior := s.alloc[mr.Key()];
    assert ConsumptionRecorded(s.ledger, mr.instances, mr.resource);
    UpdateMachineConsumptionEffect(s.ledger, mr.instances, mr.resource, newAlloc, prior);
    var led := UpdateMachineConsumption(s.ledger, mr.instances, mr.resource, newAlloc, prior).value;
    State(s.store, led, s.alloc[mr.Key() := newAlloc])
  }

  /**
   * With the MR's instances on distinct hosts, a commit keeps a bounded
   * ledger bounded (see `Ledger.SharedHostOvercommits` for shared hosts).
   */
  lemma CommitKeepsBounded(s: State, mr: MR, newAlloc: real)
    requires mr.Key() in s.alloc
    requires CheckImproveMrViability(s.ledger, mr.instances, mr.resource, newAlloc - s.alloc[mr.Key()]) == Success(true)
    requires DistinctHosts(mr.instances)
    requires Bounded(s.ledger)
    ensures Bounded(Commit(s, mr, newAlloc).ledger)
  {
    CommitStaysWithinCapacity(s.ledger, mr.instances, mr.resource, newAlloc, s.alloc[mr.Key()]);
  }

  /**
   * Walks the ranked candidates and commits the first viable one. When none
   * is viable nothing changes; the first candidate whose check raises ends
   * the walk with that error.
   */
  function SelectMimr(env: Env, s: State, ranked: seq<(MR, real)>, maxWeight: int): (r: Result<Selection, Error>)
    ensures r.Success? && r.value.chosen.None? ==> r.value.state == s
    ensures r.Success? && r.value.chosen.Some? ==>
              var ch := r.value.chosen.value;
              && Proposal(env, s.alloc, ch.mr, maxWeight) == Success(ch.newAlloc)
              && ch.mr.Key() in s.alloc
              && ch.amount == ch.newAlloc - s.alloc[ch.mr.Key()]
              && CheckImproveMrViability(s.ledger, ch.mr.instances, ch.mr.resource, ch.amount) == Success(true)
              && r.value.state == Commit(s, ch.mr, ch.newAlloc)
    decreases |ranked|
  {
    if |ranked| == 0 then Success(Selection(s, None))
    else
      var mr := ranked[0].0;
      var v := Viability(env, s, mr, maxWeight);
      if v.Failure? then Failure(v.error)
      else if v.value then
        var newAlloc := Proposal(env, s.alloc, mr, maxWeight).value;
        Success(Selection(Commit(s, mr, newAlloc), Some(Change(mr, newAlloc, newAlloc - s.alloc[mr.Key()]))))
      else
        var rest := SelectMimr(env, s, ranked[1..], maxWeight);
        assert forall k :: 0 < k < |ranked| ==> ranked[k] == ranked[1..][k - 1];
        rest
  }

  /** Selection changes nothing exactly when every candidate is judged not viable. */
  lemma {:induction false} SelectMimrNoneIffNoneViable(env: Env, s: State, ranked: seq<(MR, real)>, maxWeight: int)
    ensures SelectMimr(env, s, ranked, maxWeight) == Success(Selection(s, None)) <==>
              forall k :: 0 <= k < |ranked| ==> Viability(env, s, ranked[k].0, maxWeight) == Success(false)
    decreases |ranked|
  {
    if |ranked| > 0 {
      if Viability(env, s, ranked[0].0, maxWeight) == Success(false) {
        SelectMimrNoneIffNoneViable(env, s, ranked[1..], maxWeight);
        assert forall k :: 0 < k < |ranked| ==> ranked[k] == ranked[1..][k - 1];
      }
    }
  }

  /** A chosen MIMR is the first candidate judged viable; every candidate before it was judged not viable. */
  lemma {:induction false} SelectMimrFirstViable(env: Env, s: State, ranked: seq<(MR, real)>, maxWeight: int)
    requires SelectMimr(env, s, ranked, maxWeight).Success?
    requires SelectMimr(env, s, ranked, maxWeight).value.chosen.Some?
    ensures exists k :: 0 <= k < |ranked| && ranked[k].0 == SelectMimr(env, s, ranked, maxWeight).value.chosen.value.mr
              && Viability(env, s, ranked[k].0, maxWeight) == Success(true)
              && forall j :: 0 <= j < k ==> Viability(env, s, ranked[j].0, maxWeight) == Success(false)
    decreases |ranked|
  {
    var chosen := SelectMimr(env, s, ranked, maxWeight).value.chosen.value.mr;
    if Viability(env, s, ranked[0].0, maxWeight) == Success(false) {
      var tail := ranked[1..];
      assert SelectMimr(env, s, tail, maxWeight).value.chosen.value.mr == chosen;
      SelectMimrFirstViable(env, s, tail, maxWeight);
      var k :| 0 <= k < |tail| && tail[k].0 == chosen
            && Viability(env, s, tail[k].0, maxWeight) == Success(true)
            && forall j :: 0 <= j < k ==> Viability(env, s, tail[j].0, maxWeight) == Success(false);
      assert ranked[k + 1] == tail[k];
      assert forall j :: 0 <= j < k + 1 ==> Viability(env, s, ranked[j].0, maxWeight) == Success(false) by {
        assert forall j :: 0 < j <= k ==> ranked[j] == tail[j - 1];
      }
    } else {
      assert ranked[0].0 == chosen;
    }
  }

  /** A raised error is that of the first candidate whose check raises; every candidate before it was judged not viable. */
  lemma {:induction false} SelectMimrFirstError(env: Env, s: State, ranked: seq<(MR, real)>, maxWeight: int)
    requires SelectMimr(env, s, ranked, maxWeight).Failure?
    ensures exists k :: 0 <= k < |ranked| && Viability(env, s, ranked[k].0, maxWeight).Failure?
              && Viability(env, s, ranked[k].0, maxWeight).error == SelectMimr(env, s, ranked, maxWeight).error
              && forall j :: 0 <= j < k ==> Viability(env, s, ranked[j].0, maxWeight) == Success(false)
    decreases |ranked|
  {
    if Viability(env, s, ranked[0].0, maxWeight) == Success(false) {
      var tail := ranked[1..];
      SelectMimrFirstError(env, s, tail, maxWeight);
      var k :| 0 <= k < |tail| && Viability(env, s, tail[k].0, maxWeight).Failure?
            && Viability(env, s, tail[k].0, maxWeight).error == SelectMimr(env, s, tail, maxWeight).error
            && forall j :: 0 <= j < k ==> Viability(env, s, tail[j].0, maxWeight) == Success(false);
      assert forall j :: 0 < j <= k ==> ranked[j] == tail[j - 1];
    }
  }

  /**
   * Selection keeps the ledger invariant: when every candidate's instances
   * sit on distinct hosts, a bounded ledger is still bounded afterwards.
   */
  lemma SelectionKeepsBounded(env: Env, s: State, ranked: seq<(MR, real)>, maxWeight: int)
    requires Bounded(s.ledger)
    requires forall k :: 0 <= k < |ranked| ==> DistinctHosts(ranked[k].0.instances)
    requires SelectMimr(env, s, ranked, maxWeight).Success?
    ensures Bounded(SelectMimr(env, s, ranked, maxWeight).value.state.ledger)
  {
    var sel := SelectMimr(env, s, ranked, maxWeight).value;
    if sel.chosen.Some? {
      var ch := sel.chosen.value;
      SelectMimrFirstViable(env, s, ranked, maxWeight);
      var k :| 0 <= k < |ranked| && ranked[k].0 == ch.mr;
      CommitKeepsBounded(s, ch.mr, ch.newAlloc);
    }
  }

  /** `update_mr_config`: re-reads the stored allocation of every MR in play. */
  function UpdateMrConfig(alloc: map<MRKey, real>, inPlay: map<MRKey, real>): (r: Result<map<MRKey, real>, Error>)
    ensures r.Success? <==> inPlay.Keys <= alloc.Keys
    ensures r.Failure? ==> r.error.KeyError?
    ensures r.Success? ==> r.value.Keys == inPlay.Keys && forall k :: k in r.value ==> r.value[k] == alloc[k]
  {
    if inPlay.Keys <= alloc.Keys then Success(map k | k in inPlay :: alloc[k])
    else Failure(KeyError("mr_alloc"))
  }

  // -------------------------------------------------------------------- loop

  /** One committed iteration: the MIMR, the change it received, and the measured gain. */
  datatype Step = Step(mimr: MR, action: real, gain: real)

  /** How the loop ended. */
  datatype Status = Exhausted | NoViable | Failed(error: Error)

  /** The measurement the i-th gain is taken against: the baseline, then each iteration's result. */
  function Measured(env: Env, i: nat): Results {
    if i == 0 then env.probe(Baseline) else env.probe(Improved(i - 1))
  }

  /** The summary an iteration writes. */
  function SummaryOf(env: Env, step: Step): Summary {
    Summary(Some(Str(env.render(step.mimr))), Some(Num(step.action)), Some(Num(step.gain)))
  }

  function Gains(steps: seq<Step>): (gs: seq<real>)
    ensures |gs| == |steps|
    ensures forall i :: 0 <= i < |steps| ==> gs[i] == steps[i].gain
  {
    seq(|steps|, i requires 0 <= i < |steps| => steps[i].gain)
  }

  /** The i-th gain is the mean after iteration i minus the mean it was measured against. */
  predicate GainMeasured(env: Env, step: Step, i: nat) {
    && Mean(Measured(env, i), env.metric).Success?
    && Mean(Measured(env, i + 1), env.metric).Success?
    && step.gain == Mean(Measured(env, i + 1), env.metric).value - Mean(Measured(env, i), env.metric).value
  }

  /** Sums of differences of consecutive values telescope. */
  lemma {:induction false} Telescope(gains: seq<real>, means: seq<real>)
    requires |means| == |gains| + 1
    requires forall i :: 0 <= i < |gains| ==> gains[i] == means[i + 1] - means[i]
    ensures Sum(gains) == means[|gains|] - means[0]
    decreases |gains|
  {
    if |gains| > 0 {
      Telescope(gains[1..], means[1..]);
    }
  }

  /** The mean of the i-th measurement, or zero where it cannot be taken. */
  function MeanOrZero(env: Env, i: nat): real {
    var m := Mean(Measured(env, i), env.metric);
    if m.Success? then m.value else 0.0
  }

  /**
   * The recorded gains add up to the overall change: the last measurement's
   * mean minus the baseline's.
   */
  lemma GainsTelescope(env: Env, steps: seq<Step>)
    requires |steps| > 0
    requires forall i :: 0 <= i < |steps| ==> GainMeasured(env, steps[i], i)
    ensures Mean(Measured(env, |steps|), env.metric).Success? && Mean(Measured(env, 0), env.metric).Success?
    ensures Sum(Gains(steps)) ==
            Mean(Measured(env, |steps|), env.metric).value - Mean(Measured(env, 0), env.metric).value
  {
    assert GainMeasured(env, steps[|steps| - 1], |steps| - 1);
    assert GainMeasured(env, steps[0], 0);
    var means := seq(|steps| + 1, i requires 0 <= i <= |steps| => MeanOrZero(env, i));
    forall i | 0 <= i < |steps|
      ensures Gains(steps)[i] == means[i + 1] - means[i]
    {
      assert GainMeasured(env, steps[i], i);
    }
    Telescope(Gains(steps), means);
  }

  /** A store change that keeps every comma-free hash keeps every summary. */
  lemma SummariesSurvive(a: Store, b: Store)
    requires forall k :: CommaFree(k) ==> HGetAll(b, k) == HGetAll(a, k)
    ensures forall i :: HGetAll(b, SummaryKey(i)) == HGetAll(a, SummaryKey(i))
    ensures forall i :: ReadSummaryRedis(b, i) == ReadSummaryRedis(a, i)
  {
    forall i
      ensures HGetAll(b, SummaryKey(i)) == HGetAll(a, SummaryKey(i))
    {
      KeyShapes(i, 0, MR("", "", []), "");
    }
  }

  /** Writing iteration n's summary leaves every other iteration's summary hash alone. */
  lemma SummaryWriteFrame(st: Store, n: int, text: string, gain: real, action: real)
    ensures forall i :: i != n ==>
              HGetAll(WriteSummaryRedis(st, n, text, gain, action), SummaryKey(i)) == HGetAll(st, SummaryKey(i))
  {
    forall i | i != n
      ensures HGetAll(WriteSummaryRedis(st, n, text, gain, action), SummaryKey(i)) == HGetAll(st, SummaryKey(i))
    {
      SummaryKeyInjective(i, n);
    }
  }

  /** How one round of the loop ended: a committed step, or a stop with the state reached. */
  datatype Round = Committed(state: State, step: Step, measured: Results) | Halted(status: Status, state: State)

  /** The state after the stress round, and what selection made of it. */
  datatype Choice = Choice(stressed: State, outcome: Result<Selection, Error>)

  /**
   * The first half of a round: stress the policy's MRs at every weight,
   * rank them for `min(stress_weights)`, and select. Stressing writes only
   * rankings and results: the allocation, the consumption, the lists and
   * every summary stay as they were. A fruitless selection changes nothing
   * more; a successful one commits its MIMR's change.
   */
  function Choose(env: Env, s: State, count: nat): (c: Choice)
    requires WellFormed(s.store)
    ensures WellFormed(c.stressed.store)
    ensures c.stressed.alloc == s.alloc && c.stressed.ledger == s.ledger
    ensures c.stressed.store.lists == s.store.lists
    ensures forall i :: HGetAll(c.stressed.store, SummaryKey(i)) == HGetAll(s.store, SummaryKey(i))
    ensures c.outcome.Success? && c.outcome.value.chosen.None? ==> c.outcome.value.state == c.stressed
    ensures c.outcome.Success? && c.outcome.value.chosen.Some? ==>
              var ch := c.outcome.value.chosen.value;
              && ch.mr.Key() in c.stressed.alloc
              && CheckImproveMrViability(c.stressed.ledger, ch.mr.instances, ch.mr.resource,
                                         ch.newAlloc - c.stressed.alloc[ch.mr.Key()]) == Success(true)
              && c.outcome.value.state == Commit(c.stressed, ch.mr, ch.newAlloc)
  {
    var stressed := StressAll(env, s, count, env.policy(count));
    if stressed.Failure? then Choice(s, Failure(stressed.error))
    else
      var st := stressed.value;
      SummariesSurvive(s.store, st.store);
      if |env.weights| == 0 then Choice(st, Failure(EmptyWeights))
      else
        var maxWeight := MinOf(env.weights);
        var ranked := GetTopNMimr(st.store, count, env.metric, maxWeight, env.lowest, TOP_N);
        if ranked.Failure? then Choice(st, Failure(ranked.error))
        else Choice(st, SelectMimr(env, st, ranked.value, maxWeight))
  }

  /**
   * The selection of a round is `SelectMimr` over the ranking read for
   * `min(stress_weights)` after the stress round; so a chosen MIMR is the
   * first viable candidate of that ranking.
   */
  lemma ChooseSelectsFromRanking(env: Env, s: State, count: nat)
    requires WellFormed(s.store)
    requires Choose(env, s, count).outcome.Success?
    ensures |env.weights| > 0
    ensures StressAll(env, s, count, env.policy(count)) == Success(Choose(env, s, count).stressed)
    ensures var st := Choose(env, s, count).stressed;
            var ranked := GetTopNMimr(st.store, count, env.metric, MinOf(env.weights), env.lowest, TOP_N);
            ranked.Success? && SelectMimr(env, st, ranked.value, MinOf(env.weights)) == Choose(env, s, count).outcome
  {
  }

  /**
   * The second half of a round: with an MIMR committed, measure, take the
   * gain against `prev`, and write iteration `count`'s summary; otherwise
   * stop with the state reached.
   */
  function Conclude(env: Env, c: Choice, count: nat, prev: Results): (round: Round)
    requires c.outcome.Success? && c.outcome.value.chosen.None? ==> c.outcome.value.state == c.stressed
    ensures round.Halted? ==> round.status != Exhausted
    ensures (round.Halted? && round.status == NoViable) <==> (c.outcome.Success? && c.outcome.value.chosen.None?)
    ensures round.Halted? && !round.status.Failed? ==> round.state == c.stressed
    ensures c.outcome.Success? ==> round.state.alloc == c.outcome.value.state.alloc
    ensures c.outcome.Success? ==> round.state.ledger == c.outcome.value.state.ledger
    ensures c.outcome.Success? ==> round.state.store.zsets == c.outcome.value.state.store.zsets
    ensures c.outcome.Success? ==> round.state.store.lists == c.outcome.value.state.store.lists
    ensures round.Halted? && round.status.Failed? && c.outcome.Success? ==> round.state == c.outcome.value.state
    ensures round.Halted? && c.outcome.Failure? ==> round.state == c.stressed
    ensures round.Committed? ==>
              && c.outcome.Success? && c.outcome.value.chosen.Some?
              && c.outcome.value.chosen.value.mr == round.step.mimr
              && c.outcome.value.chosen.value.amount == round.step.action
              && round.measured == env.probe(Improved(count))
              && Mean(prev, env.metric).Success? && Mean(round.measured, env.metric).Success?
              && round.step.gain == Mean(round.measured, env.metric).value - Mean(prev, env.metric).value
              && round.state.store == WriteSummaryRedis(c.outcome.value.state.store, count,
                                                        env.render(round.step.mimr), round.step.gain, round.step.action)
  {
    if c.outcome.Failure? then Halted(Failed(c.outcome.error), c.stressed)
    else if c.outcome.value.chosen.None? then Halted(NoViable, c.stressed)
    else
      var mr := c.outcome.value.chosen.value.mr;
      var amount := c.outcome.value.chosen.value.amount;
      var committed := c.outcome.value.state;
      var improved := env.probe(Improved(count));
      var improvedMean := Mean(improved, env.metric);
      if improvedMean.Failure? then Halted(Failed(improvedMean.error), committed)
      else
        var baselineMean := Mean(prev, env.metric);
        if baselineMean.Failure? then Halted(Failed(baselineMean.error), committed)
        else
          var gain := improvedMean.value - baselineMean.value;
          var written := WriteSummaryRedis(committed.store, count, env.render(mr), gain, amount);
          Committed(committed.(store := written), Step(mr, amount, gain), improved)
  }

  /**
   * One round of the loop (iteration `count`), against the previous
   * measurement `prev`. Stressing and a fruitless selection never touch the
   * allocation or the consumption; no round changes the MRs allocated, the
   * capacities or the placement lists.
   */
  function PlayRound(env: Env, s: State, count: nat, prev: Results): (round: Round)
    requires WellFormed(s.store)
    ensures round.Halted? ==> round.status != Exhausted
    ensures round.Halted? && !round.status.Failed? ==> round.state.alloc == s.alloc && round.state.ledger == s.ledger
    ensures WellFormed(round.state.store)
    ensures round.state.alloc.Keys == s.alloc.Keys
    ensures round.state.ledger.capacity == s.ledger.capacity
    ensures round.state.store.lists == s.store.lists
  {
    Conclude(env, Choose(env, s, count), count, prev)
  }

  /** A round changes no summary but its own: a halted round none, a committed one only iteration `count`'s. */
  lemma RoundSummaryFrame(env: Env, s: State, count: nat, prev: Results)
    requires WellFormed(s.store)
    ensures var round := PlayRound(env, s, count, prev);
            forall i :: (round.Halted? || i != count) ==>
              ReadSummaryRedis(round.state.store, i) == ReadSummaryRedis(s.store, i)
    ensures var round := PlayRound(env, s, count, prev);
            forall i :: (round.Halted? || i != count) ==>
              HGetAll(round.state.store, SummaryKey(i)) == HGetAll(s.store, SummaryKey(i))
  {
    var c := Choose(env, s, count);
    var round := Conclude(env, c, count, prev);
    if c.outcome.Success? {
      assert c.outcome.value.state.store == c.stressed.store;
    }
    if round.Committed? {
      var step := round.step;
      SummaryWriteFrame(c.outcome.value.state.store, count, env.render(step.mimr), step.gain, step.action);
    }
    forall i | round.Halted? || i != count
      ensures ReadSummaryRedis(round.state.store, i) == ReadSummaryRedis(s.store, i)
    {
      SummaryFollowsHash(round.state.store, s.store, i);
    }
  }

  /** A summary is read from its hash alone. */
  lemma SummaryFollowsHash(a: Store, b: Store, i: int)
    requires HGetAll(a, SummaryKey(i)) == HGetAll(b, SummaryKey(i))
    ensures ReadSummaryRedis(a, i) == ReadSummaryRedis(b, i)
  {
  }

  /**
   * A committed round's summary reads back as the step taken, and its gain
   * is measured against `prev`.
   */
  lemma RoundSummaryWritten(env: Env, s: State, count: nat, prev: Results)
    requires WellFormed(s.store)
    requires PlayRound(env, s, count, prev).Committed?
    ensures var round := PlayRound(env, s, count, prev);
            && ReadSummaryRedis(round.state.store, count) == SummaryOf(env, round.step)
            && round.measured == env.probe(Improved(count))
            && (prev == Measured(env, count) ==> GainMeasured(env, round.step, count))
  {
    var c := Choose(env, s, count);
    var round := Conclude(env, c, count, prev);
    var step := round.step;
    SummaryRoundTrip(c.outcome.value.state.store, count, env.render(step.mimr), step.gain, step.action);
  }

  /**
   * No candidate is viable in iteration `count`: the stress round and the
   * ranking succeed, and every ranked candidate is judged not viable.
   */
  predicate NoneViable(env: Env, s: State, count: nat) {
    && WellFormed(s.store)
    && var stressed := StressAll(env, s, count, env.policy(count));
       && stressed.Success? && |env.weights| > 0
       && var maxWeight := MinOf(env.weights);
          var ranked := GetTopNMimr(stressed.value.store, count, env.metric, maxWeight, env.lowest, TOP_N);
          && ranked.Success?
          && forall k :: 0 <= k < |ranked.value| ==>
               Viability(env, stressed.value, ranked.value[k].0, maxWeight) == Success(false)
  }

  /** A round stops for want of a viable candidate exactly when none of the ranked candidates is viable. */
  lemma RoundHaltsNoViable(env: Env, s: State, count: nat, prev: Results)
    requires WellFormed(s.store)
    ensures var round := PlayRound(env, s, count, prev);
            (round.Halted? && round.status == NoViable) <==> NoneViable(env, s, count)
  {
    var stressed := StressAll(env, s, count, env.policy(count));
    if stressed.Success? && |env.weights| > 0 {
      var maxWeight := MinOf(env.weights);
      var ranked := GetTopNMimr(stressed.value.store, count, env.metric, maxWeight, env.lowest, TOP_N);
      if ranked.Success? {
        SelectMimrNoneIffNoneViable(env, stressed.value, ranked.value, maxWeight);
      }
    }
  }

  /**
   * A round keeps the ledger invariant when the placement index has every
   * service on distinct hosts: the MIMR's instances are read back from the
   * index, so its commit charges each host once.
   */
  lemma RoundKeepsBounded(env: Env, s: State, count: nat, prev: Results)
    requires WellFormed(s.store) && IndexSpread(s.store) && Bounded(s.ledger)
    ensures Bounded(PlayRound(env, s, count, prev).state.ledger)
  {
    var c := Choose(env, s, count);
    if c.outcome.Success? && c.outcome.value.chosen.Some? {
      var ch := c.outcome.value.chosen.value;
      ChosenSpread(env, s, count);
      CommitKeepsBounded(c.stressed, ch.mr, ch.newAlloc);
    }
  }

  /** With the index spread, the MIMR a round chooses has its instances on distinct hosts. */
  lemma ChosenSpread(env: Env, s: State, count: nat)
    requires WellFormed(s.store) && IndexSpread(s.store)
    requires Choose(env, s, count).outcome.Success? && Choose(env, s, count).outcome.value.chosen.Some?
    ensures DistinctHosts(Choose(env, s, count).outcome.value.chosen.value.mr.instances)
  {
    var c := Choose(env, s, count);
    var ch := c.outcome.value.chosen.value;
    ChooseSelectsFromRanking(env, s, count);
    var st := c.stressed;
    var maxWeight := MinOf(env.weights);
    var ranked := GetTopNMimr(st.store, count, env.metric, maxWeight, env.lowest, TOP_N);
    SelectMimrFirstViable(env, st, ranked.value, maxWeight);
    var k :| 0 <= k < |ranked.value| && ranked.value[k].0 == ch.mr;
    RankedFromIndex(st.store, count, env.metric, maxWeight, env.lowest, k);
    IndexFollowsLists(s.store, st.store);
  }

  /** A ranked candidate carries the instances the placement index records for its service. */
  lemma RankedFromIndex(st: Store, iteration: int, metric: string, stressWeight: int, lowest: bool, k: int)
    requires GetTopNMimr(st, iteration, metric, stressWeight, lowest, TOP_N).Success?
    requires 0 <= k < |GetTopNMimr(st, iteration, metric, stressWeight, lowest, TOP_N).value|
    ensures var mr := GetTopNMimr(st, iteration, metric, stressWeight, lowest, TOP_N).value[k].0;
            mr.instances == ReadServiceLocations(st, mr.service)
  {
    var es := TopEntries(ZSetOf(st, GenerateOrderedPerformanceKey(iteration, metric, stressWeight)), lowest, TOP_N);
    assert GenerateMrFromHashKey(st, es[k].member).Success?;
  }

  /**
   * The start-up of `run` on a flushed store: capacities, then placement,
   * then the resource configuration. It fails only where
   * `init_resource_config` does.
   */
  method StartUp(env: Env, spec: map<string, real>, vms: seq<string>, overhead: int, config: seq<(MR, real)>)
    returns (r: Result<State, Error>)
    ensures r.Success? ==>
              && WellFormed(r.value.store)
              && r.value.alloc.Keys == ConfigKeys(config)
              && r.value.ledger.capacity == InitClusterCapacities(spec, vms, overhead).capacity
              && (forall i :: HGetAll(r.value.store, SummaryKey(i)) == map[])
    ensures r.Success? ==> Placed(r.value.store, config)
    ensures r.Success? && SpreadOut(config) ==> IndexSpread(r.value.store)
    ensures r.Success? ==> Configured(env.conv, config, spec, r.value.alloc)
    ensures r.Success? ==>
              Charged(env.conv, config, spec, InitClusterCapacities(spec, vms, overhead).consumption, r.value.ledger.consumption)
  {
    var led0 := InitClusterCapacities(spec, vms, overhead);
    var store0 := InitServicePlacement(Empty, Mrs(config), {});
    if SpreadOut(config) {
      assert forall service :: ReadServiceLocations(Empty, service) == [];
      InitPlacementSpread(Empty, Mrs(config), {});
    }
    r := InitResourceConfig(env.conv, State(store0, led0, map[]), config, spec);
    if r.Success? {
      forall i | 0 <= i < |config| && FirstOfService(Mrs(config), i)
        ensures ReadServiceLocations(r.value.store, config[i].0.service) == Reverse(config[i].0.instances)
      {
        PlacementAfterInit(Empty, Mrs(config), {}, i);
      }
      forall i | 0 <= i < |config| && LastOfKey(config, i)
        ensures config[i].0.resource in spec && config[i].0.Key() in r.value.alloc
        ensures ConvertPercentToRaw(env.conv, config[i].0.resource, spec[config[i].0.resource], config[i].1)
                  == Success(r.value.alloc[config[i].0.Key()])
      {
        InitResourceConfigValues(env.conv, State(store0, led0, map[]), config, spec, i);
      }
    }
  }

  /** Each configured service's placement reads back as written at start-up. */
  predicate Placed(st: Store, config: seq<(MR, real)>) {
    forall i :: 0 <= i < |config| && FirstOfService(Mrs(config), i) ==>
      ReadServiceLocations(st, config[i].0.service) == Reverse(config[i].0.instances)
  }

  /** Placement is read from the lists alone. */
  lemma PlacedFollowsLists(a: Store, b: Store, config: seq<(MR, real)>)
    requires Placed(a, config) && b.lists == a.lists
    ensures Placed(b, config)
  {
    forall i | 0 <= i < |config| && FirstOfService(Mrs(config), i)
      ensures ReadServiceLocations(b, config[i].0.service) == Reverse(config[i].0.instances)
    {
      var service := config[i].0.service;
      assert LRange(b, IpKey(service)) == LRange(a, IpKey(service));
      assert LRange(b, IdKey(service)) == LRange(a, IdKey(service));
    }
  }

  /** Every MR of the configuration has its instances on distinct hosts. */
  predicate SpreadOut(config: seq<(MR, real)>) {
    forall i :: 0 <= i < |config| ==> DistinctHosts(config[i].0.instances)
  }

  /** The placement index records every service's instances on distinct hosts. */
  ghost predicate IndexSpread(st: Store) {
    forall service :: DistinctHosts(ReadServiceLocations(st, service))
  }

  /** The index is read from the lists alone. */
  lemma IndexFollowsLists(a: Store, b: Store)
    requires IndexSpread(a) && b.lists == a.lists
    ensures IndexSpread(b)
  {
    forall service
      ensures ReadServiceLocations(b, service) == ReadServiceLocations(a, service)
    {
      assert LRange(b, IpKey(service)) == LRange(a, IpKey(service));
      assert LRange(b, IdKey(service)) == LRange(a, IdKey(service));
    }
  }

  /** Reversal keeps the hosts distinct. */
  lemma ReverseDistinctHosts(instances: seq<Instance>)
    requires DistinctHosts(instances)
    ensures DistinctHosts(Reverse(instances))
  {
    var n := |instances|;
    forall i, j | 0 <= i < j < n
      ensures Hosts(Reverse(instances))[i] != Hosts(Reverse(instances))[j]
    {
      assert Hosts(instances)[n - 1 - i] != Hosts(instances)[n - 1 - j];
    }
  }

  /**
   * Start-up writes each service once, into lists still empty: when every
   * MR has its instances on distinct hosts, so does every entry of the index.
   */
  lemma {:induction false} InitPlacementSpread(st: Store, mrs: seq<MR>, seen: set<string>)
    requires forall i :: 0 <= i < |mrs| ==> DistinctHosts(mrs[i].instances)
    requires forall s :: s !in seen ==> LRange(st, IpKey(s)) == [] && LRange(st, IdKey(s)) == []
    requires IndexSpread(st)
    ensures IndexSpread(InitServicePlacement(st, mrs, seen))
    decreases |mrs|
  {
    if |mrs| > 0 {
      assert forall i :: 0 < i < |mrs| ==> mrs[i] == mrs[1..][i - 1];
      var t := mrs[0].service;
      if t in seen {
        InitPlacementSpread(st, mrs[1..], seen);
      } else {
        var st1 := WriteServiceLocations(st, t, mrs[0].instances);
        PlacementRoundTrip(st, t, mrs[0].instances);
        assert ReadServiceLocations(st, t) == [];
        ReverseDistinctHosts(mrs[0].instances);
        assert ReadServiceLocations(st1, t) == Reverse(mrs[0].instances);
        forall other | other != t
          ensures ReadServiceLocations(st1, other) == ReadServiceLocations(st, other)
          ensures LRange(st1, IpKey(other)) == LRange(st, IpKey(other))
          ensures LRange(st1, IdKey(other)) == LRange(st, IdKey(other))
        {
          OtherServiceUntouched(st, t, mrs[0].instances, other);
        }
        InitPlacementSpread(st1, mrs[1..], seen + {t});
      }
    }
  }

  /** The loop's position: iterations done, the state, the steps taken, and the latest measurement. */
  datatype Progress = Progress(count: nat, state: State, steps: seq<Step>, prev: Results)

  /**
   * The record the loop keeps: one step per iteration done, each with its
   * summary stored and its gain measured against the measurement before
   * it, no summary beyond, and the latest measurement at hand.
   */
  ghost predicate Recorded(env: Env, p: Progress) {
    && |p.steps| == p.count
    && p.prev == Measured(env, p.count)
    && WellFormed(p.state.store)
    && (forall i :: 0 <= i < p.count ==> ReadSummaryRedis(p.state.store, i) == SummaryOf(env, p.steps[i]))
    && (forall i :: 0 <= i < p.count ==> GainMeasured(env, p.steps[i], i))
    && (forall i :: i >= p.count ==> HGetAll(p.state.store, SummaryKey(i)) == map[])
  }

  /** A committed round extends the record by its step. */
  lemma CommitAdvances(env: Env, p: Progress, round: Round)
    requires Recorded(env, p) && round.Committed?
    requires WellFormed(round.state.store)
    requires forall i :: i != p.count ==> HGetAll(round.state.store, SummaryKey(i)) == HGetAll(p.state.store, SummaryKey(i))
    requires forall i :: i != p.count ==> ReadSummaryRedis(round.state.store, i) == ReadSummaryRedis(p.state.store, i)
    requires ReadSummaryRedis(round.state.store, p.count) == SummaryOf(env, round.step)
    requires round.measured == env.probe(Improved(p.count))
    requires GainMeasured(env, round.step, p.count)
    ensures Recorded(env, Progress(p.count + 1, round.state, p.steps + [round.step], round.measured))
  {
    var steps := p.steps + [round.step];
    forall i | 0 <= i < p.count + 1
      ensures ReadSummaryRedis(round.state.store, i) == SummaryOf(env, steps[i])
      ensures GainMeasured(env, steps[i], i)
    {
      if i < p.count {
        assert steps[i] == p.steps[i];
      }
    }
  }

  /** A halted round leaves the record of the iterations done as it was. */
  lemma HaltKeeps(env: Env, p: Progress, round: Round)
    requires Recorded(env, p) && round.Halted?
    requires WellFormed(round.state.store)
    requires forall i :: HGetAll(round.state.store, SummaryKey(i)) == HGetAll(p.state.store, SummaryKey(i))
    requires forall i :: ReadSummaryRedis(round.state.store, i) == ReadSummaryRedis(p.state.store, i)
    ensures Recorded(env, p.(state := round.state))
  {
  }

  /** What the record implies about the store's summaries and the gains. */
  lemma RecordedSummaries(env: Env, p: Progress)
    requires Recorded(env, p)
    ensures forall i :: 0 <= i < p.count ==> ReadSummaryRedis(p.state.store, i) == SummaryOf(env, p.steps[i])
    ensures forall i :: 0 <= i < p.count ==> GainMeasured(env, p.steps[i], i)
    ensures forall i :: i >= p.count ==> ReadSummaryRedis(p.state.store, i) == Summary(None, None, None)
  {
  }

  /**
   * What holds of a state the loop has not failed in: the MRs of the
   * configuration are allocated, `reported` is the allocation as last
   * re-read, capacities are as seeded, and the placement is intact.
   */
  predicate Settled(config: seq<(MR, real)>, capacity: Table, s: State, reported: map<MRKey, real>) {
    && s.alloc.Keys == ConfigKeys(config)
    && reported == s.alloc
    && s.ledger.capacity == capacity
    && Placed(s.store, config)
  }

  /** Where a round leaves the loop: a commit moves on to the next iteration, a halt stays. */
  function Advance(p: Progress, round: Round): (next: Progress)
    ensures round.Committed? ==> next.count == p.count + 1 && next.steps == p.steps + [round.step]
    ensures round.Halted? ==> next == p.(state := round.state)
    ensures next.state == round.state
  {
    match round
    case Committed(st, step, measured) => Progress(p.count + 1, st, p.steps + [step], measured)
    case Halted(_, st) => p.(state := st)
  }

  /** Every round keeps the loop's record. */
  lemma RoundKeepsRecord(env: Env, p: Progress)
    requires Recorded(env, p)
    ensures Recorded(env, Advance(p, PlayRound(env, p.state, p.count, p.prev)))
  {
    var round := PlayRound(env, p.state, p.count, p.prev);
    RoundSummaryFrame(env, p.state, p.count, p.prev);
    if round.Halted? {
      HaltKeeps(env, p, round);
    } else {
      RoundSummaryWritten(env, p.state, p.count, p.prev);
      CommitAdvances(env, p, round);
    }
  }

  /** A state that keeps the allocation, the capacities and the lists stays settled. */
  lemma SettledAfterHalt(config: seq<(MR, real)>, capacity: Table, s: State, reported: map<MRKey, real>, next: State)
    requires Settled(config, capacity, s, reported)
    requires next.alloc == s.alloc && next.ledger.capacity == s.ledger.capacity && next.store.lists == s.store.lists
    ensures Settled(config, capacity, next, reported)
  {
    PlacedFollowsLists(s.store, next.store, config);
  }

  /**
   * A state that keeps the MRs allocated, the capacities and the lists is
   * settled again once the allocation is re-read.
   */
  lemma SettledAfterCommit(config: seq<(MR, real)>, capacity: Table, s: State, reported: map<MRKey, real>, next: State)
    requires Settled(config, capacity, s, reported)
    requires next.alloc.Keys == s.alloc.Keys && next.ledger.capacity == s.ledger.capacity
    requires next.store.lists == s.store.lists
    ensures UpdateMrConfig(next.alloc, reported).Success?
    ensures Settled(config, capacity, next, UpdateMrConfig(next.alloc, reported).value)
  {
    PlacedFollowsLists(s.store, next.store, config);
    assert UpdateMrConfig(next.alloc, reported).value == next.alloc;
  }

  /**
   * One pass of the loop body: a round, then on a commit the re-read of the
   * allocation and the move to the next iteration. A halt keeps the
   * iteration count.
   */
  method Iterate(env: Env, config: seq<(MR, real)>, capacity: Table, p: Progress, reported: map<MRKey, real>)
    returns (halted: Option<Status>, next: Progress, nextReported: map<MRKey, real>)
    requires Recorded(env, p) && Settled(config, capacity, p.state, reported)
    ensures Recorded(env, next)
    ensures halted.Some? ==> halted.value != Exhausted && next.count == p.count
    ensures halted.None? ==> next.count == p.count + 1
    ensures halted.None? || !halted.value.Failed? ==> Settled(config, capacity, next.state, nextReported)
    ensures halted == Some(NoViable) <==> NoneViable(env, p.state, p.count)
    ensures halted == Some(NoViable) ==> next.state.alloc == p.state.alloc && next.state.ledger == p.state.ledger
    ensures IndexSpread(p.state.store) ==> IndexSpread(next.state.store)
    ensures IndexSpread(p.state.store) && Bounded(p.state.ledger) ==> Bounded(next.state.ledger)
  {
    var round := PlayRound(env, p.state, p.count, p.prev);
    RoundKeepsRecord(env, p);
    RoundHaltsNoViable(env, p.state, p.count, p.prev);
    if IndexSpread(p.state.store) {
      IndexFollowsLists(p.state.store, round.state.store);
      if Bounded(p.state.ledger) {
        RoundKeepsBounded(env, p.state, p.count, p.prev);
      }
    }
    next := Advance(p, round);
    if round.Halted? {
      if !round.status.Failed? {
        SettledAfterHalt(config, capacity, p.state, reported, round.state);
      }
      return Some(round.status), next, reported;
    }
    SettledAfterCommit(config, capacity, p.state, reported, round.state);
    halted := None;
    nextReported := UpdateMrConfig(round.state.alloc, reported).value;
  }

  /**
   * `run`: start-up on a flushed store, a baseline measurement, then up to
   * ten iterations (`PlayRound`). A committed iteration records a summary
   * whose gain is measured against the previous iteration's measurement. The
   * loop stops early when no candidate is viable (writing no summary) or when
   * a step raises. `reported` is the allocation `update_mr_config` last
   * re-read, printed at the end; `start` is the ledger as start-up left it,
   * and `last` the state the final round started from.
   *
   * Start-up charges every configured allocation without a viability check,
   * so the ledger invariant is a hypothesis about `start`; from there every
   * round keeps it when each configured MR has its instances on distinct hosts.
   */
  method Run(env: Env, spec: map<string, real>, vms: seq<string>, overhead: int, config: seq<(MR, real)>)
    returns (status: Status, count: nat, final: State, steps: seq<Step>, reported: map<MRKey, real>,
             start: Ledger, last: State)
    ensures count <= MAX_ITERATIONS
    ensures status == Exhausted <==> count == MAX_ITERATIONS
    ensures |steps| == count
    ensures forall i :: 0 <= i < count ==> ReadSummaryRedis(final.store, i) == SummaryOf(env, steps[i])
    ensures forall i :: 0 <= i < count ==> GainMeasured(env, steps[i], i)
    ensures forall i :: i >= count ==> ReadSummaryRedis(final.store, i) == Summary(None, None, None)
    ensures !status.Failed? ==> final.alloc.Keys == ConfigKeys(config) && reported == final.alloc
    ensures !status.Failed? ==> final.ledger.capacity == InitClusterCapacities(spec, vms, overhead).capacity
    ensures !status.Failed? ==> Placed(final.store, config)
    ensures start.capacity == InitClusterCapacities(spec, vms, overhead).capacity
    ensures SpreadOut(config) && Bounded(start) ==> Bounded(final.ledger)
    ensures status == NoViable ==>
              NoneViable(env, last, count) && last.alloc == final.alloc && last.ledger == final.ledger
  {
    var capacity := InitClusterCapacities(spec, vms, overhead).capacity;
    var init := StartUp(env, spec, vms, overhead, config);
    if init.Failure? {
      var empty := State(Empty, InitClusterCapacities(spec, vms, overhead), map[]);
      return Failed(init.error), 0, empty, [], map[], empty.ledger, empty;
    }
    start := init.value.ledger;
    var p := Progress(0, init.value, [], env.probe(Baseline));
    last := p.state;
    reported := init.value.alloc;
    var halted: Option<Status> := None;
    while halted.None? && p.count < MAX_ITERATIONS
      invariant p.count <= MAX_ITERATIONS
      invariant Recorded(env, p)
      invariant halted.Some? ==> halted.value != Exhausted && p.count < MAX_ITERATIONS
      invariant halted.None? || !halted.value.Failed? ==> Settled(config, capacity, p.state, reported)
      invariant SpreadOut(config) ==> IndexSpread(p.state.store)
      invariant SpreadOut(config) && Bounded(start) ==> Bounded(p.state.ledger)
      invariant halted == Some(NoViable) ==>
                  NoneViable(env, last, p.count) && last.alloc == p.state.alloc && last.ledger == p.state.ledger
      decreases MAX_ITERATIONS - p.count, if halted.None? then 1 else 0
    {
      last := p.state;
      halted, p, reported := Iterate(env, config, capacity, p, reported);
    }
    RecordedSummaries(env, p);
    status := if halted.Some? then halted.value else Exhausted;
    count, final, steps := p.count, p.state, p.steps;
  }

  /** The MRs of a configuration, in order. */
  function Mrs(config: seq<(MR, real)>): (mrs: seq<MR>)
    ensures |mrs| == |config|
    ensures forall i :: 0 <= i < |config| ==> mrs[i] == config[i].0
  {
    seq(|config|, i requires 0 <= i < |config| => config[i].0)
  }
}

=== FILE: datastore.dfy ===
/**
 * The controller's view of the datastore: key naming, per-MR experiment
 * results, the sorted-set ranking and its top-N query, iteration summaries,
 * and the service-placement index.
 */
module Datastore {
  import opened Wrappers
  import opened Seqs
  import opened Text
  import opened RedisStore
  import opened Types

  predicate CommaFree(s: string) {
    ',' !in s
  }

  // ------------------------------------------------------------------- keys

  /** The hash name of one MR's results: `"iteration,service,resource,metric"`. */
  function GenerateHashKey(iteration: int, mr: MR, metric: string): string {
    Join([IntToString(iteration), mr.service, mr.resource, metric], ',')
  }

  /** The sorted-set name of one ranking: `"iteration,metric,stress_weight"`. */
  function GenerateOrderedPerformanceKey(iteration: int, metric: string, stressWeight: int): string {
    Join([IntToString(iteration), metric, IntToString(stressWeight)], ',')
  }

  /** The hash name of an iteration summary: `"<iteration>summary"`. */
  function SummaryKey(iteration: int): string {
    IntToString(iteration) + "summary"
  }

  /** When no component holds a comma, splitting a hash key gives its four components. */
  lemma HashKeySplit(iteration: int, mr: MR, metric: string)
    requires CommaFree(mr.service) && CommaFree(mr.resource) && CommaFree(metric)
    ensures Split(GenerateHashKey(iteration, mr, metric), ',') ==
            [IntToString(iteration), mr.service, mr.resource, metric]
  {
    IntToStringAvoids(iteration, ',');
    SplitJoin([IntToString(iteration), mr.service, mr.resource, metric], ',');
  }

  /** Distinct (iteration, service, resource, metric) give distinct hash keys. */
  lemma HashKeyInjective(i: int, a: MR, m: string, j: int, b: MR, n: string)
    requires CommaFree(a.service) && CommaFree(a.resource) && CommaFree(m)
    requires CommaFree(b.service) && CommaFree(b.resource) && CommaFree(n)
    ensures GenerateHashKey(i, a, m) == GenerateHashKey(j, b, n) ==>
              i == j && a.Key() == b.Key() && m == n
  {
    HashKeySplit(i, a, m);
    HashKeySplit(j, b, n);
    IntToStringInjective(i, j);
  }

  /** Rankings for different iterations, metrics or stress weights live in different sorted sets. */
  lemma OrderedPerformanceKeyInjective(i: int, m: string, w: int, j: int, n: string, v: int)
    requires CommaFree(m) && CommaFree(n)
    ensures GenerateOrderedPerformanceKey(i, m, w) == GenerateOrderedPerformanceKey(j, n, v) ==>
              i == j && m == n && w == v
  {
    IntToStringAvoids(i, ',');
    IntToStringAvoids(w, ',');
    IntToStringAvoids(j, ',');
    IntToStringAvoids(v, ',');
    SplitJoin([IntToString(i), m, IntToString(w)], ',');
    SplitJoin([IntToString(j), n, IntToString(v)], ',');
    IntToStringInjective(i, j);
    IntToStringInjective(w, v);
  }

  /** Summary hashes never share a name with result hashes, which always hold commas. */
  lemma SummaryKeyNotHashKey(i: int, j: int, mr: MR, metric: string)
    ensures SummaryKey(i) != GenerateHashKey(j, mr, metric)
    ensures CommaFree(SummaryKey(i))
  {
    IntToStringAvoids(i, ',');
    var parts := [IntToString(j), mr.service, mr.resource, metric];
    var k := GenerateHashKey(j, mr, metric);
    assert k == parts[0] + [','] + Join(parts[1..], ',');
    assert k[|parts[0]|] == ',';
  }

  /** Result hashes always hold a comma; summary hashes never do. */
  lemma KeyShapes(i: int, iteration: int, mr: MR, metric: string)
    ensures !CommaFree(GenerateHashKey(iteration, mr, metric))
    ensures CommaFree(SummaryKey(i))
  {
    SummaryKeyNotHashKey(i, iteration, mr, metric);
    var parts := [IntToString(iteration), mr.service, mr.resource, metric];
    var k := GenerateHashKey(iteration, mr, metric);
    assert k == parts[0] + [','] + Join(parts[1..], ',');
    assert k[|parts[0]|] == ',';
  }

  lemma SummaryKeyInjective(i: int, j: int)
    ensures SummaryKey(i) == SummaryKey(j) ==> i == j
  {
    if SummaryKey(i) == SummaryKey(j) {
      var a, b := IntToString(i), IntToString(j);
      assert |a| == |b|;
      assert a == SummaryKey(i)[..|a|] && b == SummaryKey(j)[..|b|];
      IntToStringInjective(i, j);
    }
  }

  // ------------------------------------------------------ placement index

  function IpKey(service: string): string {
    service + "_ip"
  }

  function IdKey(service: string): string {
    service + "_id"
  }

  function Containers(instances: seq<Instance>): (cs: seq<string>)
    ensures |cs| == |instances|
    ensures forall i :: 0 <= i < |instances| ==> cs[i] == instances[i].container
  {
    seq(|instances|, i requires 0 <= i < |instances| => instances[i].container)
  }

  /** Python's `zip`: pairs up to the shorter list. */
  function Zip(ips: seq<string>, ids: seq<string>): (r: seq<Instance>)
    ensures |r| == Min(|ips|, |ids|)
    ensures forall i :: 0 <= i < |r| ==> r[i] == Instance(ips[i], ids[i])
  {
    seq(Min(|ips|, |ids|), i requires 0 <= i < Min(|ips|, |ids|) => Instance(ips[i], ids[i]))
  }

  /** The ip list and the id list of two services (or of one service) are different lists. */
  lemma PlacementKeysDistinct(s: string, t: string)
    ensures IpKey(s) != IdKey(t)
    ensures IpKey(s) == IpKey(t) ==> s == t
    ensures IdKey(s) == IdKey(t) ==> s == t
  {
    assert IpKey(s)[|IpKey(s)| - 1] == 'p';
    assert IdKey(t)[|IdKey(t)| - 1] == 'd';
    if IpKey(s) == IpKey(t) {
      assert s == IpKey(s)[..|s|];
    }
    if IdKey(s) == IdKey(t) {
      assert s == IdKey(s)[..|s|];
    }
  }

  /** One LPUSH per location onto `<service>_ip` and one onto `<service>_id`, location by location. */
  function WriteServiceLocations(st: Store, service: string, locations: seq<Instance>): (r: Store)
    ensures LRange(r, IpKey(service)) == Reverse(Hosts(locations)) + LRange(st, IpKey(service))
    ensures LRange(r, IdKey(service)) == Reverse(Containers(locations)) + LRange(st, IdKey(service))
    ensures forall k :: k != IpKey(service) && k != IdKey(service) ==> LRange(r, k) == LRange(st, k)
    ensures r.hashes == st.hashes && r.zsets == st.zsets
    decreases |locations|
  {
    if |locations| == 0 then st
    else
      var l := locations[0];
      var st1 := PushLocation(st, service, l);
      var r := WriteServiceLocations(st1, service, locations[1..]);
      LocationsStep(locations);
      PrependShift(Reverse(Hosts(locations[1..])), l.host, LRange(st, IpKey(service)));
      PrependShift(Reverse(Containers(locations[1..])), l.container, LRange(st, IdKey(service)));
      r
  }

  lemma PrependShift<T>(a: seq<T>, x: T, b: seq<T>)
    ensures a + ([x] + b) == (a + [x]) + b
  {
  }

  /** The two LPUSHes for one location: its host onto the ip list, its container onto the id list. */
  function PushLocation(st: Store, service: string, l: Instance): (r: Store)
    ensures LRange(r, IpKey(service)) == [l.host] + LRange(st, IpKey(service))
    ensures LRange(r, IdKey(service)) == [l.container] + LRange(st, IdKey(service))
    ensures forall k :: k != IpKey(service) && k != IdKey(service) ==> LRange(r, k) == LRange(st, k)
    ensures r.hashes == st.hashes && r.zsets == st.zsets
  {
    PlacementKeysDistinct(service, service);
    LPush(LPush(st, IpKey(service), l.host), IdKey(service), l.container)
  }

  /** Peeling the first location off the reversed host and container lists. */
  lemma LocationsStep(locations: seq<Instance>)
    requires |locations| > 0
    ensures Reverse(Hosts(locations)) == Reverse(Hosts(locations[1..])) + [locations[0].host]
    ensures Reverse(Containers(locations)) == Reverse(Containers(locations[1..])) + [locations[0].container]
  {
    var l := locations[0];
    assert Hosts(locations) == [l.host] + Hosts(locations[1..]);
    assert Containers(locations) == [l.container] + Containers(locations[1..]);
    ReverseAppend([l.host], Hosts(locations[1..]));
    ReverseAppend([l.container], Containers(locations[1..]));
  }

  /** The placement of a service, read back from the index. */
  function ReadServiceLocations(st: Store, service: string): seq<Instance> {
    Zip(LRange(st, IpKey(service)), LRange(st, IdKey(service)))
  }

  /**
   * Reading after a write gives the written locations in reverse order (the
   * lists are prepended to), each host still paired with its own container,
   * followed by whatever the index held before.
   */
  lemma PlacementRoundTrip(st: Store, service: string, locations: seq<Instance>)
    requires |LRange(st, IpKey(service))| == |LRange(st, IdKey(service))|
    ensures ReadServiceLocations(WriteServiceLocations(st, service, locations), service) ==
            Reverse(locations) + ReadServiceLocations(st, service)
  {
    var after := WriteServiceLocations(st, service, locations);
    var hs, cs := Reverse(Hosts(locations)), Reverse(Containers(locations));
    var ips, ids := LRange(st, IpKey(service)), LRange(st, IdKey(service));
    assert LRange(after, IpKey(service)) == hs + ips;
    assert LRange(after, IdKey(service)) == cs + ids;
    ZipAppend(hs, cs, ips, ids);
    assert Zip(hs, cs) == Reverse(locations);
  }

  /** Zipping two concatenations of equal-length parts zips the parts separately. */
  lemma ZipAppend(a: seq<string>, b: seq<string>, c: seq<string>, d: seq<string>)
    requires |a| == |b| && |c| == |d|
    ensures Zip(a + c, b + d) == Zip(a, b) + Zip(c, d)
  {
  }

  /** On an empty index a single write reads back as exactly the reversed locations. */
  lemma PlacementFreshWrite(service: string, locations: seq<Instance>)
    ensures ReadServiceLocations(WriteServiceLocations(Empty, service, locations), service) ==
            Reverse(locations)
  {
    PlacementRoundTrip(Empty, service, locations);
  }

  /** Writing one service's placement leaves every other service's placement alone. */
  lemma PlacementIsolated(st: Store, service: string, other: string, locations: seq<Instance>)
    requires other != service
    ensures ReadServiceLocations(WriteServiceLocations(st, service, locations), other) ==
            ReadServiceLocations(st, other)
  {
    PlacementKeysDistinct(other, service);
    PlacementKeysDistinct(service, other);
  }

  // --------------------------------------------------------- MR from keys

  /** Rebuilds an MR from a hash key; its instances come from the placement index. */
  function GenerateMrFromHashKey(st: Store, hashKey: string): (r: Result<MR, Error>)
    ensures r.Success? <==> |Split(hashKey, ',')| == 4
    ensures r.Success? ==> r.value.instances == ReadServiceLocations(st, r.value.service)
  {
    var parts := Split(hashKey, ',');
    if |parts| != 4 then Failure(UnpackError(hashKey))
    else Success(MR(parts[1], parts[2], ReadServiceLocations(st, parts[1])))
  }

  /**
   * Key round trip: decoding a generated hash key recovers the MR's identity,
   * with the instances currently recorded in the placement index.
   */
  lemma HashKeyRoundTrip(st: Store, iteration: int, mr: MR, metric: string)
    requires CommaFree(mr.service) && CommaFree(mr.resource) && CommaFree(metric)
    ensures GenerateMrFromHashKey(st, GenerateHashKey(iteration, mr, metric)) ==
            Success(MR(mr.service, mr.resource, ReadServiceLocations(st, mr.service)))
  {
    HashKeySplit(iteration, mr, metric);
  }

  // --------------------------------------------------------- experiment results

  /** The hash fields of one write: field `str(weight)` holds the samples for the metric. */
  function ResultFields(incrementToResult: map<int, map<string, seq<real>>>, metric: string): (fields: map<string, Val>)
    requires forall w :: w in incrementToResult ==> metric in incrementToResult[w]
    ensures forall w :: w in incrementToResult ==>
              IntToString(w) in fields && fields[IntToString(w)] == Samples(incrementToResult[w][metric])
    ensures forall f :: f in fields ==> exists w :: w in incrementToResult && f == IntToString(w)
  {
    IntToStringInjectiveAll();
    map w | w in incrementToResult :: IntToString(w) := Samples(incrementToResult[w][metric])
  }

  /** The store after a write, and the weights whose field already existed (each one is warned about). */
  datatype ResultWrite = ResultWrite(store: Store, overwritten: set<int>)

  /**
   * Writes one MR's results for an iteration: one hash field per stress weight.
   * A weight whose results lack the metric raises KeyError. Overwriting a field
   * only produces a warning: the new value replaces the old one.
   */
  function WriteRedisResults(st: Store, mr: MR, incrementToResult: map<int, map<string, seq<real>>>,
                             iteration: int, metric: string): (r: Result<ResultWrite, Error>)
    ensures r.Failure? <==> exists w :: w in incrementToResult && metric !in incrementToResult[w]
    ensures r.Success? ==> forall w :: w in incrementToResult ==>
              HGet(r.value.store, GenerateHashKey(iteration, mr, metric), IntToString(w)) ==
              Some(Samples(incrementToResult[w][metric]))
    ensures r.Success? ==> forall w :: w in incrementToResult ==>
              (w in r.value.overwritten <==> HGet(st, GenerateHashKey(iteration, mr, metric), IntToString(w)).Some?)
    ensures r.Success? ==> r.value.overwritten <= incrementToResult.Keys
    ensures r.Success? ==> forall k :: k != GenerateHashKey(iteration, mr, metric) ==>
              HGetAll(r.value.store, k) == HGetAll(st, k)
    ensures r.Success? ==> r.value.store.zsets == st.zsets && r.value.store.lists == st.lists
  {
    if exists w :: w in incrementToResult && metric !in incrementToResult[w] then
      Failure(KeyError(metric))
    else
      var key := GenerateHashKey(iteration, mr, metric);
      var before := HGetAll(st, key);
      Success(ResultWrite(HSetAll(st, key, ResultFields(incrementToResult, metric)),
                          set w | w in incrementToResult && IntToString(w) in before))
  }

  /** HGETALL of one MR's result hash. */
  function ReadRedisResult(st: Store, iteration: int, mr: MR, metric: string): map<string, Val> {
    HGetAll(st, GenerateHashKey(iteration, mr, metric))
  }

  /**
   * Round trip: on a fresh key, reading back gives exactly one field per
   * stress weight, holding that weight's samples of the metric; nothing is
   * reported as overwritten.
   */
  lemma ResultsRoundTrip(st: Store, mr: MR, inc: map<int, map<string, seq<real>>>, iteration: int, metric: string)
    requires ReadRedisResult(st, iteration, mr, metric) == map[]
    requires WriteRedisResults(st, mr, inc, iteration, metric).Success?
    ensures var w := WriteRedisResults(st, mr, inc, iteration, metric).value;
            var h := ReadRedisResult(w.store, iteration, mr, metric);
            && w.overwritten == {}
            && (forall f :: f in h <==> exists x :: x in inc && f == IntToString(x))
            && (forall x :: x in inc ==> h[IntToString(x)] == Samples(inc[x][metric]))
  {
  }

  /** A result write for one (iteration, MR, metric) never disturbs the results of another. */
  lemma ResultsIsolated(st: Store, mr: MR, inc: map<int, map<string, seq<real>>>, iteration: int, metric: string,
                        j: int, other: MR, n: string)
    requires CommaFree(mr.service) && CommaFree(mr.resource) && CommaFree(metric)
    requires CommaFree(other.service) && CommaFree(other.resource) && CommaFree(n)
    requires iteration != j || mr.Key() != other.Key() || metric != n
    requires WriteRedisResults(st, mr, inc, iteration, metric).Success?
    ensures ReadRedisResult(WriteRedisResults(st, mr, inc, iteration, metric).value.store, j, other, n) ==
            ReadRedisResult(st, j, other, n)
  {
    HashKeyInjective(iteration, mr, metric, j, other, n);
  }

  // ----------------------------------------------------------------- ranking

  /** ZADD of the MR's hash key, scored by its mean result, into the (iteration, metric, weight) set. */
  function WriteRedisRanking(st: Store, iteration: int, metric: string, meanResult: real, mr: MR, stressWeight: int): (r: Store)
    requires WellFormed(st)
    ensures WellFormed(r)
  {
    ZAddAt(st, GenerateOrderedPerformanceKey(iteration, metric, stressWeight),
           GenerateHashKey(iteration, mr, metric), meanResult)
  }

  /**
   * A ranking write leaves one entry for the MR, carrying the new score, adds
   * nothing else, and touches no other sorted set, hash or list.
   */
  lemma RankingReplacesScore(st: Store, iteration: int, metric: string, meanResult: real, mr: MR, stressWeight: int)
    requires WellFormed(st)
    ensures var setName := GenerateOrderedPerformanceKey(iteration, metric, stressWeight);
            var member := GenerateHashKey(iteration, mr, metric);
            var r := WriteRedisRanking(st, iteration, metric, meanResult, mr, stressWeight);
            && ZEntry(member, meanResult) in ZSetOf(r, setName)
            && (forall e :: e in ZSetOf(r, setName) && e.member == member ==> e.score == meanResult)
            && (forall e :: e in ZSetOf(r, setName) && e.member != member <==> e in ZSetOf(st, setName) && e.member != member)
            && Members(ZSetOf(r, setName)) == Members(ZSetOf(st, setName)) + {member}
            && (forall k :: k != setName ==> ZSetOf(r, k) == ZSetOf(st, k))
            && r.hashes == st.hashes && r.lists == st.lists
  {
  }

  /** The entries `get_top_n_mimr` asks Redis for. */
  function TopEntries(z: seq<ZEntry>, optimizeForLowest: bool, n: int): seq<ZEntry> {
    if !optimizeForLowest then ZRange(z, 0, n, false) else ZRange(z, -n, -1, true)
  }

  /** Turns (hash key, score) replies into (MR, score) pairs, in order. */
  function DecodeRanking(st: Store, entries: seq<ZEntry>): (r: Result<seq<(MR, real)>, Error>)
    ensures r.Success? <==> forall k :: 0 <= k < |entries| ==> GenerateMrFromHashKey(st, entries[k].member).Success?
    ensures r.Failure? ==> r.error.UnpackError?
    ensures r.Success? ==> |r.value| == |entries|
    ensures r.Success? ==> forall k :: 0 <= k < |entries| ==>
              r.value[k] == (GenerateMrFromHashKey(st, entries[k].member).value, entries[k].score)
  {
    if |entries| == 0 then Success([])
    else
      var head := GenerateMrFromHashKey(st, entries[0].member);
      var rest := DecodeRanking(st, entries[1..]);
      if head.Failure? then Failure(head.error)
      else if rest.Failure? then
        Failure(rest.error)
      else
        Success([(head.value, entries[0].score)] + rest.value)
  }

  /**
   * The ranked MRs for (iteration, metric, weight). An empty reply fails the
   * assertion in the source.
   */
  function GetTopNMimr(st: Store, iteration: int, metric: string, stressWeight: int,
                       optimizeForLowest: bool, n: int): (r: Result<seq<(MR, real)>, Error>)
    ensures (r == Failure(EmptyRanking)) <==>
            |TopEntries(ZSetOf(st, GenerateOrderedPerformanceKey(iteration, metric, stressWeight)), optimizeForLowest, n)| == 0
    ensures r.Success? ==> r.value != []
    ensures r.Success? ==>
              var es := TopEntries(ZSetOf(st, GenerateOrderedPerformanceKey(iteration, metric, stressWeight)), optimizeForLowest, n);
              |r.value| == |es| &&
              (forall k :: 0 <= k < |es| ==> GenerateMrFromHashKey(st, es[k].member).Success?) &&
              forall k :: 0 <= k < |es| ==> r.value[k] == (GenerateMrFromHashKey(st, es[k].member).value, es[k].score)
  {
    var z := ZSetOf(st, GenerateOrderedPerformanceKey(iteration, metric, stressWeight));
    var entries := TopEntries(z, optimizeForLowest, n);
    if |entries| == 0 then Failure(EmptyRanking) else DecodeRanking(st, entries)
  }

  lemma OrderedScores(z: seq<ZEntry>, i: int, j: int)
    requires Ordered(z) && 0 <= i <= j < |z|
    ensures z[i].score <= z[j].score
  {
    if i < j {
      assert Before(z[i], z[j]);
    }
  }

  /**
   * With `optimize_for_lowest` false the reply is the n+1 lowest-scored
   * entries (all of them when fewer), in ascending score order; it is empty
   * only when the ranking is.
   */
  lemma TopNAscending(st: Store, iteration: int, metric: string, w: int, n: nat)
    requires WellFormed(st)
    requires GetTopNMimr(st, iteration, metric, w, false, n).Success?
    ensures var z := ZSetOf(st, GenerateOrderedPerformanceKey(iteration, metric, w));
            var r := GetTopNMimr(st, iteration, metric, w, false, n).value;
            && |r| == Min(n + 1, |z|)
            && (forall k :: 0 <= k < |r| ==> r[k].1 == z[k].score)
            && (forall i, j :: 0 <= i <= j < |r| ==> r[i].1 <= r[j].1)
  {
    var z := ZSetOf(st, GenerateOrderedPerformanceKey(iteration, metric, w));
    ZRangeFromLowest(z, n);
    var r := GetTopNMimr(st, iteration, metric, w, false, n).value;
    assert ValidZSet(z);
    forall i, j | 0 <= i <= j < |r|
      ensures r[i].1 <= r[j].1
    {
      OrderedScores(z, i, j);
    }
  }

  /**
   * With `optimize_for_lowest` true and n >= 1 the reply is the n
   * lowest-scored entries (all of them when fewer), in descending score order.
   */
  lemma TopNLowestDescending(st: Store, iteration: int, metric: string, w: int, n: int)
    requires WellFormed(st) && n >= 1
    requires GetTopNMimr(st, iteration, metric, w, true, n).Success?
    ensures var z := ZSetOf(st, GenerateOrderedPerformanceKey(iteration, metric, w));
            var r := GetTopNMimr(st, iteration, metric, w, true, n).value;
            && |r| == Min(n, |z|)
            && (forall k :: 0 <= k < |r| ==> r[k].1 == z[|r| - 1 - k].score)
            && (forall i, j :: 0 <= i <= j < |r| ==> r[i].1 >= r[j].1)
  {
    var z := ZSetOf(st, GenerateOrderedPerformanceKey(iteration, metric, w));
    assert ValidZSet(z);
    LowestEntriesDescending(z, n);
  }

  /** The entries the descending query picks: the n lowest, highest score first. */
  lemma LowestEntriesDescending(z: seq<ZEntry>, n: int)
    requires ValidZSet(z) && n >= 1
    ensures var es := TopEntries(z, true, n);
            && |es| == Min(n, |z|)
            && (forall k :: 0 <= k < |es| ==> es[k].score == z[|es| - 1 - k].score)
            && (forall i, j :: 0 <= i <= j < |es| ==> es[i].score >= es[j].score)
  {
    ZRevRangeLowest(z, n);
    var es := TopEntries(z, true, n);
    forall i, j | 0 <= i <= j < |es|
      ensures es[i].score >= es[j].score
    {
      OrderedScores(z, |es| - 1 - j, |es| - 1 - i);
    }
  }

  /** In either mode (n >= 1) the query fails its assertion exactly when the ranking is empty. */
  lemma TopNEmptyIffNoRanking(st: Store, iteration: int, metric: string, w: int, lowest: bool, n: int)
    requires n >= 1
    ensures var z := ZSetOf(st, GenerateOrderedPerformanceKey(iteration, metric, w));
            GetTopNMimr(st, iteration, metric, w, lowest, n) == Failure(EmptyRanking) <==> |z| == 0
  {
    var z := ZSetOf(st, GenerateOrderedPerformanceKey(iteration, metric, w));
    ZRangeFromLowest(z, n);
    ZRevRangeLowest(z, n);
  }

  // ----------------------------------------------------------------- summaries

  /** What `read_summary_redis` returns, in its order: (mimr, action_taken, perf_improvement). */
  datatype Summary = Summary(mimr: Option<Val>, actionTaken: Option<Val>, perfImprovement: Option<Val>)

  /** Three HSETs on `<iteration>summary`: the MIMR's string form, the gain and the action. */
  function WriteSummaryRedis(st: Store, iteration: int, mimrText: string, perfGain: real, actionTaken: real): (r: Store)
    ensures forall k :: k != SummaryKey(iteration) ==> HGetAll(r, k) == HGetAll(st, k)
    ensures r.hashes.Keys == st.hashes.Keys + {SummaryKey(iteration)}
    ensures r.zsets == st.zsets && r.lists == st.lists
  {
    var key := SummaryKey(iteration);
    var s1 := HSet(st, key, "mimr", Str(mimrText)).0;
    var s2 := HSet(s1, key, "perf_improvement", Num(perfGain)).0;
    HSet(s2, key, "action_taken", Num(actionTaken)).0
  }

  function ReadSummaryRedis(st: Store, iteration: int): Summary {
    var key := SummaryKey(iteration);
    Summary(HGet(st, key, "mimr"), HGet(st, key, "action_taken"), HGet(st, key, "perf_improvement"))
  }

  /** Summary round trip: the read returns (mimr, action_taken, perf_gain) in that order. */
  lemma SummaryRoundTrip(st: Store, iteration: int, mimrText: string, perfGain: real, actionTaken: real)
    ensures ReadSummaryRedis(WriteSummaryRedis(st, iteration, mimrText, perfGain, actionTaken), iteration) ==
            Summary(Some(Str(mimrText)), Some(Num(actionTaken)), Some(Num(perfGain)))
  {
  }

  /** Writing one iteration's summary leaves every other iteration's summary as it was. */
  lemma SummaryIsolated(st: Store, iteration: int, other: int, mimrText: string, perfGain: real, actionTaken: real)
    requires other != iteration
    ensures ReadSummaryRedis(WriteSummaryRedis(st, iteration, mimrText, perfGain, actionTaken), other) ==
            ReadSummaryRedis(st, other)
  {
    SummaryKeyInjective(iteration, other);
  }
}

=== FILE: ledger.dfy ===
/**
 * The per-host capacity and consumption ledger: seeding at start-up, the
 * viability gate, and consumption updates after an allocation changes.
 */
module Ledger {
  import opened Wrappers
  import opened Seqs
  import opened Types

  /** host -> resource -> amount */
  type Table = map<string, map<string, real>>

  datatype Ledger = Ledger(capacity: Table, consumption: Table)

  /** Both the consumption and the capacity of `resource` on `host` are recorded. */
  predicate Defined(led: Ledger, host: string, resource: string) {
    && host in led.consumption && resource in led.consumption[host]
    && host in led.capacity && resource in led.capacity[host]
  }

  /** Growing `resource` on `host` by `amount` stays within the host's capacity. */
  predicate FitsOn(led: Ledger, host: string, resource: string, amount: real) {
    Defined(led, host, resource) && led.consumption[host][resource] + amount <= led.capacity[host][resource]
  }

  /** The ledger invariant: wherever both are recorded, consumption is within capacity. */
  predicate Bounded(led: Ledger) {
    forall h, r :: h in led.consumption && r in led.consumption[h] && Defined(led, h, r) ==>
      led.consumption[h][r] <= led.capacity[h][r]
  }

  /**
   * Seeds the ledger for every VM: capacity is the full instance spec, and
   * consumption starts at `overhead` percent of it, set aside for the
   * platform's own containers.
   */
  function InitClusterCapacities(spec: map<string, real>, vms: seq<string>, overhead: int): (led: Ledger)
    ensures led.capacity.Keys == led.consumption.Keys == set vm | vm in vms
    ensures forall vm :: vm in vms ==> led.capacity[vm] == spec
    ensures forall vm :: vm in vms ==> led.consumption[vm].Keys == spec.Keys
    ensures forall vm, r :: vm in vms && r in spec ==>
              led.consumption[vm][r] == (overhead as real) / 100.0 * spec[r]
  {
    var usage := map r | r in spec :: (overhead as real) / 100.0 * spec[r];
    Ledger(map vm | vm in vms :: spec, map vm | vm in vms :: usage)
  }

  /**
   * With an overhead between 0 and 100 percent and non-negative specs the
   * seeded ledger satisfies the invariant, and the headroom left for the
   * MRs on each host is exactly the remaining (100 - overhead) percent.
   */
  lemma InitWithinCapacity(spec: map<string, real>, vms: seq<string>, overhead: int)
    requires 0 <= overhead <= 100
    requires forall r :: r in spec ==> spec[r] >= 0.0
    ensures Bounded(InitClusterCapacities(spec, vms, overhead))
    ensures var led := InitClusterCapacities(spec, vms, overhead);
            forall vm, r :: vm in vms && r in spec ==>
              led.capacity[vm][r] - led.consumption[vm][r] == (100 - overhead) as real / 100.0 * spec[r]
  {
    InitBounded(spec, vms, overhead);
    InitHeadroom(spec, vms, overhead);
  }

  lemma InitBounded(spec: map<string, real>, vms: seq<string>, overhead: int)
    requires 0 <= overhead <= 100
    requires forall r :: r in spec ==> spec[r] >= 0.0
    ensures Bounded(InitClusterCapacities(spec, vms, overhead))
  {
    var led := InitClusterCapacities(spec, vms, overhead);
    forall h, r | Defined(led, h, r)
      ensures led.consumption[h][r] <= led.capacity[h][r]
    {
      assert h in vms;
      OverheadShare(overhead, spec[r]);
    }
  }

  lemma InitHeadroom(spec: map<string, real>, vms: seq<string>, overhead: int)
    requires 0 <= overhead <= 100
    requires forall r :: r in spec ==> spec[r] >= 0.0
    ensures var led := InitClusterCapacities(spec, vms, overhead);
            forall vm, r :: vm in vms && r in spec ==>
              led.capacity[vm][r] - led.consumption[vm][r] == (100 - overhead) as real / 100.0 * spec[r]
  {
    var led := InitClusterCapacities(spec, vms, overhead);
    forall vm, r | vm in vms && r in spec
      ensures led.capacity[vm][r] - led.consumption[vm][r] == (100 - overhead) as real / 100.0 * spec[r]
    {
      OverheadShare(overhead, spec[r]);
    }
  }

  /** An overhead share of a non-negative amount is within it, and leaves the complementary share. */
  lemma OverheadShare(overhead: int, x: real)
    requires 0 <= overhead <= 100 && x >= 0.0
    ensures (overhead as real) / 100.0 * x <= x
    ensures x - (overhead as real) / 100.0 * x == (100 - overhead) as real / 100.0 * x
  {
    var f := (overhead as real) / 100.0;
    assert (1.0 - f) * x >= 0.0;
  }

  /**
   * Instance k is where the walk stops: its host cannot take `amount` more of
   * `resource` (or is not recorded), and every earlier host can.
   */
  predicate BlockedAt(led: Ledger, instances: seq<Instance>, resource: string, amount: real, k: int) {
    && 0 <= k < |instances|
    && !FitsOn(led, instances[k].host, resource, amount)
    && forall j :: 0 <= j < k ==> FitsOn(led, instances[j].host, resource, amount)
  }

  /**
   * The viability check: walks the instances in order and answers false at
   * the first host that cannot take `amount` more of `resource`. When that
   * host has no consumption or capacity recorded for the resource, the
   * subscript by the resource name raises KeyError of the resource instead
   * (an unrecorded host reads as an empty table).
   */
  function CheckImproveMrViability(led: Ledger, instances: seq<Instance>, resource: string, amount: real): (r: Result<bool, Error>)
    ensures r == Success(true) <==> forall i :: 0 <= i < |instances| ==> FitsOn(led, instances[i].host, resource, amount)
    ensures r == Success(false) <==>
              exists k :: BlockedAt(led, instances, resource, amount, k) && Defined(led, instances[k].host, resource)
    ensures r.Failure? <==>
              exists k :: BlockedAt(led, instances, resource, amount, k) && !Defined(led, instances[k].host, resource)
    ensures r.Failure? ==> r.error == KeyError(resource)
    decreases |instances|
  {
    if |instances| == 0 then Success(true)
    else
      var host := instances[0].host;
      if !Defined(led, host, resource) then
        BlockedFirst(led, instances, resource, amount, 0);
        Failure(KeyError(resource))
      else if led.consumption[host][resource] + amount > led.capacity[host][resource] then
        BlockedFirst(led, instances, resource, amount, 0);
        Success(false)
      else
        BlockedTail(led, instances, resource, amount);
        CheckImproveMrViability(led, instances[1..], resource, amount)
  }

  /** The walk stops at one place only. */
  lemma BlockedFirst(led: Ledger, instances: seq<Instance>, resource: string, amount: real, k0: int)
    requires BlockedAt(led, instances, resource, amount, k0)
    ensures forall k :: BlockedAt(led, instances, resource, amount, k) ==> k == k0
  {
  }

  /** Past a host that fits, the walk stops where it stops on the remaining instances, one place later. */
  lemma BlockedTail(led: Ledger, instances: seq<Instance>, resource: string, amount: real)
    requires |instances| > 0 && FitsOn(led, instances[0].host, resource, amount)
    ensures forall k :: BlockedAt(led, instances, resource, amount, k) ==>
              k >= 1 && BlockedAt(led, instances[1..], resource, amount, k - 1)
    ensures forall k :: BlockedAt(led, instances[1..], resource, amount, k) ==>
              BlockedAt(led, instances, resource, amount, k + 1)
    ensures forall i :: 0 < i < |instances| ==> instances[i] == instances[1..][i - 1]
  {
    forall k | BlockedAt(led, instances[1..], resource, amount, k)
      ensures BlockedAt(led, instances, resource, amount, k + 1)
    {
      assert forall j :: 0 < j <= k ==> instances[j] == instances[1..][j - 1];
    }
  }

  /** With no instances the check is vacuously true. */
  lemma NoInstancesAlwaysViable(led: Ledger, resource: string, amount: real)
    ensures CheckImproveMrViability(led, [], resource, amount) == Success(true)
  {
  }

  /** A host already at capacity rejects any growth. */
  lemma FullHostRejectsGrowth(led: Ledger, instances: seq<Instance>, resource: string, amount: real, k: nat)
    requires k < |instances| && amount > 0.0
    requires Defined(led, instances[k].host, resource)
    requires led.consumption[instances[k].host][resource] == led.capacity[instances[k].host][resource]
    ensures CheckImproveMrViability(led, instances, resource, amount) != Success(true)
  {
  }

  /** Under the ledger invariant, a shrink (or no change) always passes once every host is recorded. */
  lemma ShrinkAlwaysViable(led: Ledger, instances: seq<Instance>, resource: string, amount: real)
    requires Bounded(led) && amount <= 0.0
    requires forall i :: 0 <= i < |instances| ==> Defined(led, instances[i].host, resource)
    ensures CheckImproveMrViability(led, instances, resource, amount) == Success(true)
  {
  }

  /** Every host of the instance list has a consumption entry for `resource`. */
  predicate ConsumptionRecorded(led: Ledger, instances: seq<Instance>, resource: string) {
    forall i :: 0 <= i < |instances| ==>
      instances[i].host in led.consumption && resource in led.consumption[instances[i].host]
  }

  /** Consumption tables with the same hosts and, per host, the same resources. */
  predicate SameShape(a: Table, b: Table) {
    a.Keys == b.Keys && forall h :: h in a ==> a[h].Keys == b[h].Keys
  }

  /**
   * After an MR's allocation moves from `oldAlloc` to `newAlloc`, each
   * instance in turn re-reads its host's consumption and writes back
   * `prior + newAlloc - oldAlloc` for that one resource only. A host with
   * no recorded consumption for the resource raises KeyError of the resource.
   */
  function UpdateMachineConsumption(led: Ledger, instances: seq<Instance>, resource: string,
                                    newAlloc: real, oldAlloc: real): (r: Result<Ledger, Error>)
    ensures r.Success? <==> ConsumptionRecorded(led, instances, resource)
    ensures r.Failure? ==> r.error == KeyError(resource)
    ensures r.Success? ==> r.value.capacity == led.capacity
    ensures r.Success? ==> SameShape(r.value.consumption, led.consumption)
  {
    ApplyDelta(led, instances, resource, newAlloc - oldAlloc)
  }

  /** The instance-by-instance walk of the update, each host absorbing `delta`. */
  function ApplyDelta(led: Ledger, instances: seq<Instance>, resource: string, delta: real): (r: Result<Ledger, Error>)
    ensures r.Success? <==> ConsumptionRecorded(led, instances, resource)
    ensures r.Failure? ==> r.error == KeyError(resource)
    ensures r.Success? ==> r.value.capacity == led.capacity
    ensures r.Success? ==> SameShape(r.value.consumption, led.consumption)
    decreases |instances|
  {
    if |instances| == 0 then Success(led)
    else
      var host := instances[0].host;
      if host !in led.consumption || resource !in led.consumption[host] then Failure(KeyError(resource))
      else
        var next := WriteOne(led, host, resource, delta);
        assert forall i :: 0 <= i < |instances[1..]| ==> instances[1..][i] == instances[i + 1];
        ApplyDelta(next, instances[1..], resource, delta)
  }

  /** One `write_machine_consumption` of a single resource key: prior value plus `delta`. */
  function WriteOne(led: Ledger, host: string, resource: string, delta: real): (r: Ledger)
    requires host in led.consumption && resource in led.consumption[host]
    ensures r.capacity == led.capacity
    ensures SameShape(r.consumption, led.consumption)
  {
    var prior := led.consumption[host];
    led.(consumption := led.consumption[host := prior[resource := prior[resource] + delta]])
  }

  /** How far one consumption entry moves when the instances' hosts each absorb `delta`. */
  function Shift(instances: seq<Instance>, resource: string, delta: real, h: string, q: string): real {
    if q == resource then Count(Hosts(instances), h) as real * delta else 0.0
  }

  lemma ShiftStep(instances: seq<Instance>, resource: string, delta: real, h: string, q: string)
    requires |instances| > 0
    ensures Shift(instances, resource, delta, h, q) ==
            (if h == instances[0].host && q == resource then delta else 0.0) + Shift(instances[1..], resource, delta, h, q)
  {
    assert Hosts(instances)[1..] == Hosts(instances[1..]);
    var c := Count(Hosts(instances[1..]), h) as real;
    assert (c + 1.0) * delta == delta + c * delta;
  }

  /**
   * The effect of the update on every entry: only `resource` moves, and a
   * host listed k times among the instances moves by k times the
   * difference. Nothing else changes.
   */
  lemma UpdateMachineConsumptionEffect(led: Ledger, instances: seq<Instance>, resource: string,
                                       newAlloc: real, oldAlloc: real)
    requires UpdateMachineConsumption(led, instances, resource, newAlloc, oldAlloc).Success?
    ensures var led' := UpdateMachineConsumption(led, instances, resource, newAlloc, oldAlloc).value;
            forall h, q :: h in led.consumption && q in led.consumption[h] ==>
              led'.consumption[h][q] == led.consumption[h][q] + Shift(instances, resource, newAlloc - oldAlloc, h, q)
  {
    forall h, q | h in led.consumption && q in led.consumption[h]
      ensures UpdateMachineConsumption(led, instances, resource, newAlloc, oldAlloc).value.consumption[h][q] ==
              led.consumption[h][q] + Shift(instances, resource, newAlloc - oldAlloc, h, q)
    {
      EntryShift(led, instances, resource, newAlloc - oldAlloc, h, q);
    }
  }

  /** The effect on one recorded entry, by induction over the instances. */
  lemma {:induction false} EntryShift(led: Ledger, instances: seq<Instance>, resource: string,
                                      delta: real, h: string, q: string)
    requires ApplyDelta(led, instances, resource, delta).Success?
    requires h in led.consumption && q in led.consumption[h]
    ensures ApplyDelta(led, instances, resource, delta).value.consumption[h][q] ==
            led.consumption[h][q] + Shift(instances, resource, delta, h, q)
    decreases |instances|
  {
    if |instances| > 0 {
      var next := WriteOne(led, instances[0].host, resource, delta);
      var here := if h == instances[0].host && q == resource then delta else 0.0;
      assert next.consumption[h][q] == led.consumption[h][q] + here;
      EntryShift(next, instances[1..], resource, delta, h, q);
      ShiftStep(instances, resource, delta, h, q);
    }
  }

  /** Hosts of the instances are pairwise distinct (the source's one-container-per-host assumption). */
  predicate DistinctHosts(instances: seq<Instance>) {
    Distinct(Hosts(instances))
  }

  /**
   * The ledger invariant is preserved by a committed improvement: when the
   * viability check passed for `newAlloc - oldAlloc` and no two instances
   * share a host, every instance host ends within capacity, and a bounded
   * ledger stays bounded.
   */
  lemma CommitStaysWithinCapacity(led: Ledger, instances: seq<Instance>, resource: string, newAlloc: real, oldAlloc: real)
    requires CheckImproveMrViability(led, instances, resource, newAlloc - oldAlloc) == Success(true)
    requires DistinctHosts(instances)
    ensures UpdateMachineConsumption(led, instances, resource, newAlloc, oldAlloc).Success?
    ensures var led' := UpdateMachineConsumption(led, instances, resource, newAlloc, oldAlloc).value;
            forall i :: 0 <= i < |instances| ==>
              led'.consumption[instances[i].host][resource] <= led'.capacity[instances[i].host][resource]
    ensures Bounded(led) ==> Bounded(UpdateMachineConsumption(led, instances, resource, newAlloc, oldAlloc).value)
  {
    assert ConsumptionRecorded(led, instances, resource);
    var led' := UpdateMachineConsumption(led, instances, resource, newAlloc, oldAlloc).value;
    forall i | 0 <= i < |instances|
      ensures led'.consumption[instances[i].host][resource] <= led'.capacity[instances[i].host][resource]
    {
      EntryAfterCommit(led, instances, resource, newAlloc, oldAlloc, instances[i].host, resource);
    }
    if Bounded(led) {
      forall h, q | h in led'.consumption && q in led'.consumption[h] && Defined(led', h, q)
        ensures led'.consumption[h][q] <= led'.capacity[h][q]
      {
        EntryAfterCommit(led, instances, resource, newAlloc, oldAlloc, h, q);
      }
    }
  }

  /** One entry after a committed, viable update over distinct hosts. */
  lemma EntryAfterCommit(led: Ledger, instances: seq<Instance>, resource: string, newAlloc: real, oldAlloc: real,
                         h: string, q: string)
    requires CheckImproveMrViability(led, instances, resource, newAlloc - oldAlloc) == Success(true)
    requires DistinctHosts(instances)
    requires UpdateMachineConsumption(led, instances, resource, newAlloc, oldAlloc).Success?
    requires Defined(UpdateMachineConsumption(led, instances, resource, newAlloc, oldAlloc).value, h, q)
    ensures var led' := UpdateMachineConsumption(led, instances, resource, newAlloc, oldAlloc).value;
            && ((q == resource && h in Hosts(instances)) ==> led'.consumption[h][q] <= led'.capacity[h][q])
            && (!(q == resource && h in Hosts(instances)) ==> led'.consumption[h][q] == led.consumption[h][q])
            && led'.capacity == led.capacity
  {
    var hs := Hosts(instances);
    var d := newAlloc - oldAlloc;
    var led' := UpdateMachineConsumption(led, instances, resource, newAlloc, oldAlloc).value;
    assert Defined(led, h, q);
    EntryMoves(led, instances, resource, newAlloc, oldAlloc, h, q);
    assert led'.capacity == led.capacity;
    if q == resource && h in hs {
      var i :| 0 <= i < |hs| && hs[i] == h;
      ViableFits(led, instances, resource, d, i);
      assert led'.consumption[h][q] == led.consumption[h][q] + d;
      assert led.consumption[h][q] + d <= led.capacity[h][q];
    } else {
      assert led'.consumption[h][q] == led.consumption[h][q] + 0.0;
    }
  }

  /** A passed check vouches for each instance's host. */
  lemma ViableFits(led: Ledger, instances: seq<Instance>, resource: string, amount: real, i: int)
    requires CheckImproveMrViability(led, instances, resource, amount) == Success(true)
    requires 0 <= i < |instances|
    ensures FitsOn(led, instances[i].host, resource, amount)
  {
  }

  /** Over distinct hosts, one recorded entry moves by the whole difference or not at all. */
  lemma EntryMoves(led: Ledger, instances: seq<Instance>, resource: string, newAlloc: real, oldAlloc: real,
                   h: string, q: string)
    requires UpdateMachineConsumption(led, instances, resource, newAlloc, oldAlloc).Success?
    requires DistinctHosts(instances)
    requires h in led.consumption && q in led.consumption[h]
    ensures UpdateMachineConsumption(led, instances, resource, newAlloc, oldAlloc).value.consumption[h][q] ==
            led.consumption[h][q] + (if q == resource && h in Hosts(instances) then newAlloc - oldAlloc else 0.0)
  {
    var d := newAlloc - oldAlloc;
    var led' := UpdateMachineConsumption(led, instances, resource, newAlloc, oldAlloc).value;
    EntryShift(led, instances, resource, d, h, q);
    var shift := Shift(instances, resource, d, h, q);
    assert led'.consumption[h][q] == led.consumption[h][q] + shift;
    ShiftOnDistinct(instances, resource, d, h, q);
  }

  /** Over distinct hosts an entry moves by the whole difference or not at all. */
  lemma ShiftOnDistinct(instances: seq<Instance>, resource: string, d: real, h: string, q: string)
    requires DistinctHosts(instances)
    ensures Shift(instances, resource, d, h, q) == if q == resource && h in Hosts(instances) then d else 0.0
  {
    var hs := Hosts(instances);
    CountDistinct(hs, h);
    CountPositive(hs, h);
  }

  /**
   * Without the one-container-per-host assumption the gate is not enough:
   * two instances on one host each pass the check, and the update then
   * commits the growth twice, past the host's capacity.
   */
  lemma SharedHostOvercommits()
    ensures var led := Ledger(map["vm" := map["NET" := 100.0]], map["vm" := map["NET" := 60.0]]);
            var two := [Instance("vm", "c1"), Instance("vm", "c2")];
            && CheckImproveMrViability(led, two, "NET", 30.0) == Success(true)
            && UpdateMachineConsumption(led, two, "NET", 30.0, 0.0).Success?
            && UpdateMachineConsumption(led, two, "NET", 30.0, 0.0).value.consumption["vm"]["NET"] == 120.0
  {
    var led := Ledger(map["vm" := map["NET" := 100.0]], map["vm" := map["NET" := 60.0]]);
    var two := [Instance("vm", "c1"), Instance("vm", "c2")];
    assert Hosts(two) == ["vm", "vm"];
    assert Count(["vm"], "vm") == 1 by {
      assert ["vm"][1..] == [];
    }
    assert Count(Hosts(two), "vm") == 2 by {
      assert Hosts(two)[1..] == ["vm"];
    }
    UpdateMachineConsumptionEffect(led, two, "NET", 30.0, 0.0);
  }
}

=== FILE: redis_store.dfy ===
/**
 * An abstract Redis: hashes (field to value), sorted sets (member to score,
 * kept in Redis's order) and lists (prepend, full range). Every command is a
 * pure state transformer.
 */
module RedisStore {
  import opened Wrappers
  import opened Seqs
  import opened Text

  /** A stored value. Redis keeps the string form; the model keeps the value itself. */
  datatype Val = Str(s: string) | Num(x: real) | Samples(xs: seq<real>)

  datatype ZEntry = ZEntry(member: string, score: real)

  datatype Store = Store(
    hashes: map<string, map<string, Val>>,
    zsets: map<string, seq<ZEntry>>,
    lists: map<string, seq<string>>)

  /** The store right after FLUSHALL. */
  const Empty: Store := Store(map[], map[], map[])

  // ---------------------------------------------------------------- hashes

  /** HGETALL: the whole hash, empty when the key does not exist. */
  function HGetAll(st: Store, key: string): map<string, Val> {
    if key in st.hashes then st.hashes[key] else map[]
  }

  /** HGET: one field, or nil. */
  function HGet(st: Store, key: string, field: string): Option<Val> {
    var h := HGetAll(st, key);
    if field in h then Some(h[field]) else None
  }

  /**
   * HSET of one field. The flag is Redis's reply: true (1) when the field is
   * new, false (0) when an existing value was replaced.
   */
  function HSet(st: Store, key: string, field: string, v: Val): (r: (Store, bool))
    ensures HGet(r.0, key, field) == Some(v)
    ensures r.1 <==> HGet(st, key, field) == None
    ensures forall k, f :: k != key || f != field ==> HGet(r.0, k, f) == HGet(st, k, f)
    ensures forall k :: k != key ==> HGetAll(r.0, k) == HGetAll(st, k)
    ensures r.0.hashes.Keys == st.hashes.Keys + {key}
    ensures r.0.zsets == st.zsets && r.0.lists == st.lists
  {
    var h := HGetAll(st, key);
    (st.(hashes := st.hashes[key := h[field := v]]), field !in h)
  }

  /** Several HSETs on one hash: the given fields are replaced, the others kept. */
  function HSetAll(st: Store, key: string, fields: map<string, Val>): (r: Store)
    ensures HGetAll(r, key) == HGetAll(st, key) + fields
    ensures forall k :: k != key ==> HGetAll(r, k) == HGetAll(st, k)
    ensures r.hashes.Keys == st.hashes.Keys + {key}
    ensures r.zsets == st.zsets && r.lists == st.lists
  {
    st.(hashes := st.hashes[key := HGetAll(st, key) + fields])
  }

  // ----------------------------------------------------------- sorted sets

  /** Redis's order of sorted-set entries: by score, equal scores by member bytes. */
  predicate Before(a: ZEntry, b: ZEntry) {
    a.score < b.score || (a.score == b.score && LexLess(a.member, b.member))
  }

  lemma BeforeTransitive(a: ZEntry, b: ZEntry, c: ZEntry)
    requires Before(a, b) && Before(b, c)
    ensures Before(a, c)
  {
    if a.score == b.score && b.score == c.score {
      LexLessTransitive(a.member, b.member, c.member);
    }
  }

  lemma BeforeTotal(a: ZEntry, b: ZEntry)
    requires a.member != b.member
    ensures Before(a, b) || Before(b, a)
  {
    LexLessTotal(a.member, b.member);
  }

  predicate Ordered(z: seq<ZEntry>) {
    forall i, j :: 0 <= i < j < |z| ==> Before(z[i], z[j])
  }

  predicate UniqueMembers(z: seq<ZEntry>) {
    forall i, j :: 0 <= i < j < |z| ==> z[i].member != z[j].member
  }

  /** The shape of every sorted set Redis holds: ordered, one entry per member. */
  predicate ValidZSet(z: seq<ZEntry>) {
    Ordered(z) && UniqueMembers(z)
  }

  function Members(z: seq<ZEntry>): set<string> {
    set e | e in z :: e.member
  }

  /** A store whose sorted sets all have the shape Redis guarantees. */
  predicate WellFormed(st: Store) {
    forall k :: k in st.zsets ==> ValidZSet(st.zsets[k])
  }

  lemma ValidCons(e: ZEntry, z: seq<ZEntry>)
    requires ValidZSet(z)
    requires forall x :: x in z ==> Before(e, x) && x.member != e.member
    ensures ValidZSet([e] + z)
  {
    var r := [e] + z;
    forall i, j | 0 <= i < j < |r|
      ensures Before(r[i], r[j]) && r[i].member != r[j].member
    {
      if i == 0 {
        assert r[j] in z;
      } else {
        assert r[i] == z[i - 1] && r[j] == z[j - 1];
      }
    }
  }

  /** The entries of `z` without member `m`, in the same order. */
  function RemoveMember(z: seq<ZEntry>, m: string): (r: seq<ZEntry>)
    requires ValidZSet(z)
    ensures ValidZSet(r)
    ensures forall x :: x in r <==> x in z && x.member != m
  {
    if |z| == 0 then []
    else
      var rest := RemoveMember(z[1..], m);
      assert ValidZSet(z[1..]);
      if z[0].member == m then rest
      else
        assert forall x :: x in rest ==> Before(z[0], x) && x.member != z[0].member by {
          forall x | x in rest
            ensures Before(z[0], x) && x.member != z[0].member
          {
            var j :| 0 <= j < |z[1..]| && z[1..][j] == x;
            assert z[j + 1] == x;
          }
        }
        ValidCons(z[0], rest);
        [z[0]] + rest
  }

  /** Places a new entry at its position in Redis's order. */
  function Insert(z: seq<ZEntry>, e: ZEntry): (r: seq<ZEntry>)
    requires ValidZSet(z)
    requires e.member !in Members(z)
    ensures ValidZSet(r)
    ensures forall x :: x in r <==> x in z || x == e
    ensures |r| == |z| + 1
  {
    if |z| == 0 then [e]
    else if Before(e, z[0]) then
      assert forall x :: x in z ==> Before(e, x) && x.member != e.member by {
        forall x | x in z
          ensures Before(e, x) && x.member != e.member
        {
          var j :| 0 <= j < |z| && z[j] == x;
          if j > 0 {
            BeforeTransitive(e, z[0], x);
          }
        }
      }
      ValidCons(e, z);
      [e] + z
    else
      assert ValidZSet(z[1..]);
      assert e.member != z[0].member;
      BeforeTotal(e, z[0]);
      assert Members(z[1..]) <= Members(z);
      var rest := Insert(z[1..], e);
      assert forall x :: x in rest ==> Before(z[0], x) && x.member != z[0].member by {
        forall x | x in rest
          ensures Before(z[0], x) && x.member != z[0].member
        {
          if x != e {
            var j :| 0 <= j < |z[1..]| && z[1..][j] == x;
            assert z[j + 1] == x;
          }
        }
      }
      ValidCons(z[0], rest);
      [z[0]] + rest
  }

  /**
   * ZADD of one member: afterwards the set holds exactly one entry for the
   * member, carrying the new score; every other entry is untouched.
   */
  function ZAdd(z: seq<ZEntry>, m: string, score: real): (r: seq<ZEntry>)
    requires ValidZSet(z)
    ensures ValidZSet(r)
    ensures forall x :: x in r <==> (x in z && x.member != m) || x == ZEntry(m, score)
    ensures Members(r) == Members(z) + {m}
  {
    var removed := RemoveMember(z, m);
    Insert(removed, ZEntry(m, score))
  }

  /** The sorted set stored under `key`, empty when there is none. */
  function ZSetOf(st: Store, key: string): seq<ZEntry> {
    if key in st.zsets then st.zsets[key] else []
  }

  /** ZADD against the store. */
  function ZAddAt(st: Store, key: string, m: string, score: real): (r: Store)
    requires WellFormed(st)
    ensures WellFormed(r)
    ensures ZSetOf(r, key) == ZAdd(ZSetOf(st, key), m, score)
    ensures forall k :: k != key ==> ZSetOf(r, k) == ZSetOf(st, k)
    ensures r.hashes == st.hashes && r.lists == st.lists
  {
    st.(zsets := st.zsets[key := ZAdd(ZSetOf(st, key), m, score)])
  }

  /**
   * ZRANGE (or ZREVRANGE when `desc`) with Redis's index rules: negative
   * indices count from the end, `stop` is inclusive, out-of-range ends clamp.
   */
  function ZRange(z: seq<ZEntry>, start: int, stop: int, desc: bool): (r: seq<ZEntry>)
    ensures |r| <= |z|
  {
    var src := if desc then Reverse(z) else z;
    var n := |src|;
    var s0 := if start < 0 then start + n else start;
    var e0 := if stop < 0 then stop + n else stop;
    var s := if s0 < 0 then 0 else s0;
    if s > e0 || s >= n then []
    else
      var e := if e0 >= n then n - 1 else e0;
      src[s..e + 1]
  }

  /** `ZRANGE key 0 n` is the n+1 lowest-scored entries (all when fewer), ascending. */
  lemma ZRangeFromLowest(z: seq<ZEntry>, n: nat)
    ensures ZRange(z, 0, n, false) == z[..Min(n + 1, |z|)]
  {
  }

  /** `ZREVRANGE key -n -1` is the n lowest-scored entries (all when fewer), descending. */
  lemma ZRevRangeLowest(z: seq<ZEntry>, n: int)
    requires n >= 1
    ensures ZRange(z, -n, -1, true) == Reverse(z[..Min(n, |z|)])
  {
    var k := if n <= |z| then |z| - n else 0;
    if |z| > 0 {
      ReverseSuffix(z, k);
    }
  }

  /** With n = 0 the descending query `ZREVRANGE key 0 -1` is the whole set. */
  lemma ZRevRangeZero(z: seq<ZEntry>)
    ensures ZRange(z, 0, -1, true) == Reverse(z)
  {
  }

  // ------------------------------------------------------------------ lists

  /** LRANGE key 0 -1: the whole list, empty when there is none. */
  function LRange(st: Store, key: string): seq<string> {
    if key in st.lists then st.lists[key] else []
  }

  /** LPUSH of one value: it becomes the head of the list. */
  function LPush(st: Store, key: string, v: string): (r: Store)
    ensures LRange(r, key) == [v] + LRange(st, key)
    ensures forall k :: k != key ==> LRange(r, k) == LRange(st, k)
    ensures r.hashes == st.hashes && r.zsets == st.zsets
  {
    st.(lists := st.lists[key := [v] + LRange(st, key)])
  }
}

=== FILE: seqs.dfy ===
/** Small sequence utilities used by the store and the ledger. */
module Seqs {

  /** The elements of `s` in reverse order. */
  function Reverse<T>(s: seq<T>): (r: seq<T>)
    ensures |r| == |s|
    ensures forall i :: 0 <= i < |s| ==> r[i] == s[|s| - 1 - i]
  {
    seq(|s|, i requires 0 <= i < |s| => s[|s| - 1 - i])
  }

  /** Reversing twice gives the sequence back. */
  lemma ReverseReverse<T>(s: seq<T>)
    ensures Reverse(Reverse(s)) == s
  {
  }

  /** Reversal turns a concatenation around. */
  lemma ReverseAppend<T>(a: seq<T>, b: seq<T>)
    ensures Reverse(a + b) == Reverse(b) + Reverse(a)
  {
  }

  /** A suffix of a reversed sequence is the reversal of a prefix. */
  lemma ReverseSuffix<T>(s: seq<T>, k: nat)
    requires k <= |s|
    ensures Reverse(s)[k..] == Reverse(s[..|s| - k])
  {
  }

  function Min(a: int, b: int): int {
    if a <= b then a else b
  }

  /** How many times `x` occurs in `s`. */
  function Count<T(==)>(s: seq<T>, x: T): nat
  {
    if |s| == 0 then 0 else (if s[0] == x then 1 else 0) + Count(s[1..], x)
  }

  /** An element that does not occur has count zero, and one that occurs has a positive count. */
  lemma {:induction false} CountPositive<T>(s: seq<T>, x: T)
    ensures Count(s, x) > 0 <==> x in s
  {
    if |s| > 0 {
      CountPositive(s[1..], x);
      assert x in s <==> s[0] == x || x in s[1..];
    }
  }

  /** No element occurs twice. */
  predicate Distinct<T(==)>(s: seq<T>) {
    forall i, j :: 0 <= i < j < |s| ==> s[i] != s[j]
  }

  /** In a sequence without repetitions every element occurs at most once. */
  lemma {:induction false} CountDistinct<T>(s: seq<T>, x: T)
    requires Distinct(s)
    ensures Count(s, x) <= 1
  {
    if |s| > 0 {
      CountDistinct(s[1..], x);
      if s[0] == x {
        assert x !in s[1..];
        CountPositive(s[1..], x);
      }
    }
  }

  /** The sum of a sequence of reals. */
  function Sum(xs: seq<real>): real
  {
    if |xs| == 0 then 0.0 else xs[0] + Sum(xs[1..])
  }

  /** The least element of a non-empty sequence of integers (Python's `min`). */
  function MinOf(xs: seq<int>): (m: int)
    requires |xs| > 0
    ensures m in xs
    ensures forall i :: 0 <= i < |xs| ==> m <= xs[i]
  {
    if |xs| == 1 then xs[0] else Min(xs[0], MinOf(xs[1..]))
  }
}

=== FILE: text.dfy ===
/**
 * Strings as the program builds and takes them apart: Python's `'{}'.format`
 * of an integer, `','.join` / `str.split`, and the byte-wise order Redis uses
 * to break score ties between sorted-set members.
 */
module Text {
  import opened Wrappers

  /** The decimal digit character for `d`. */
  function DigitChar(d: nat): (c: char)
    requires d < 10
    ensures '0' <= c <= '9'
  {
    (48 + d) as char
  }

  function DigitValue(c: char): (d: nat)
    requires '0' <= c <= '9'
    ensures d < 10
  {
    (c as int) - 48
  }

  /** A non-empty run of decimal digits. */
  predicate IsDigits(s: string) {
    |s| > 0 && forall i :: 0 <= i < |s| ==> '0' <= s[i] <= '9'
  }

  /** Decimal rendering of a natural number, without leading zeros. */
  function NatToString(n: nat): (s: string)
    ensures IsDigits(s)
    decreases n
  {
    if n < 10 then [DigitChar(n)] else NatToString(n / 10) + [DigitChar(n % 10)]
  }

  /** Python's `'{}'.format(i)` for an integer: a minus sign, then the digits. */
  function IntToString(i: int): (s: string)
    ensures |s| > 0
    ensures forall k :: 0 <= k < |s| ==> s[k] == '-' || '0' <= s[k] <= '9'
  {
    if i < 0 then "-" + NatToString(-i) else NatToString(i)
  }

  function ParseNat(s: string): nat
    requires IsDigits(s)
    decreases |s|
  {
    if |s| == 1 then DigitValue(s[0])
    else 10 * ParseNat(s[..|s| - 1]) + DigitValue(s[|s| - 1])
  }

  /** Python's `int(s)` restricted to the strings `IntToString` produces. */
  function ParseInt(s: string): Option<int>
  {
    if |s| > 0 && s[0] == '-' then
      (if IsDigits(s[1..]) then Some(0 - ParseNat(s[1..]) as int) else None)
    else if IsDigits(s) then Some(ParseNat(s))
    else None
  }

  lemma {:induction false} ParseNatToString(n: nat)
    ensures ParseNat(NatToString(n)) == n
    decreases n
  {
    if n >= 10 {
      var s := NatToString(n);
      assert s[..|s| - 1] == NatToString(n / 10);
      ParseNatToString(n / 10);
    }
  }

  /** Reading back a formatted integer gives the integer. */
  lemma IntToStringRoundTrip(i: int)
    ensures ParseInt(IntToString(i)) == Some(i)
  {
    if i < 0 {
      ParseNatToString(-i);
      assert IntToString(i)[1..] == NatToString(-i);
    } else {
      ParseNatToString(i);
    }
  }

  /** Distinct integers are formatted differently. */
  lemma IntToStringInjective(a: int, b: int)
    ensures IntToString(a) == IntToString(b) ==> a == b
  {
    IntToStringRoundTrip(a);
    IntToStringRoundTrip(b);
  }

  lemma IntToStringInjectiveAll()
    ensures forall a, b :: IntToString(a) == IntToString(b) ==> a == b
  {
    forall a, b
      ensures IntToString(a) == IntToString(b) ==> a == b
    {
      IntToStringInjective(a, b);
    }
  }

  /** A formatted integer never contains a separator other than '-' or a digit. */
  lemma IntToStringAvoids(i: int, c: char)
    requires c != '-' && !('0' <= c <= '9')
    ensures c !in IntToString(i)
  {
  }

  /** Python's `sep.join(parts)`. */
  function Join(parts: seq<string>, sep: char): string
  {
    if |parts| == 0 then ""
    else if |parts| == 1 then parts[0]
    else parts[0] + [sep] + Join(parts[1..], sep)
  }

  /** Python's `s.split(sep)`: always at least one part, and no part holds `sep`. */
  function Split(s: string, sep: char): (parts: seq<string>)
    ensures |parts| > 0
    ensures forall i :: 0 <= i < |parts| ==> sep !in parts[i]
    decreases |s|
  {
    if |s| == 0 then [""]
    else
      var rest := Split(s[1..], sep);
      if s[0] == sep then [""] + rest
      else [[s[0]] + rest[0]] + rest[1..]
  }

  lemma {:induction false} SplitNoSeparator(a: string, sep: char)
    requires sep !in a
    ensures Split(a, sep) == [a]
    decreases |a|
  {
    if |a| > 0 {
      SplitNoSeparator(a[1..], sep);
      assert [a[0]] + a[1..] == a;
    }
  }

  lemma {:induction false} SplitAtFirst(a: string, sep: char, b: string)
    requires sep !in a
    ensures Split(a + [sep] + b, sep) == [a] + Split(b, sep)
    decreases |a|
  {
    var s := a + [sep] + b;
    if |a| == 0 {
      assert s[1..] == b;
    } else {
      assert s[1..] == a[1..] + [sep] + b;
      SplitAtFirst(a[1..], sep, b);
      assert [a[0]] + a[1..] == a;
    }
  }

  /** Splitting a join of separator-free parts gives the parts back. */
  lemma {:induction false} SplitJoin(parts: seq<string>, sep: char)
    requires |parts| > 0
    requires forall i :: 0 <= i < |parts| ==> sep !in parts[i]
    ensures Split(Join(parts, sep), sep) == parts
    decreases |parts|
  {
    if |parts| == 1 {
      SplitNoSeparator(parts[0], sep);
    } else {
      SplitAtFirst(parts[0], sep, Join(parts[1..], sep));
      SplitJoin(parts[1..], sep);
    }
  }

  /**
   * Byte-wise order of strings (memcmp, then the shorter first), the order
   * Redis uses between members that carry equal scores.
   */
  predicate LexLess(a: string, b: string)
    decreases |a|
  {
    if |a| == 0 then |b| > 0
    else |b| > 0 && (a[0] < b[0] || (a[0] == b[0] && LexLess(a[1..], b[1..])))
  }

  lemma {:induction false} LexLessIrreflexive(a: string)
    ensures !LexLess(a, a)
    decreases |a|
  {
    if |a| > 0 {
      LexLessIrreflexive(a[1..]);
    }
  }

  lemma {:induction false} LexLessTransitive(a: string, b: string, c: string)
    requires LexLess(a, b) && LexLess(b, c)
    ensures LexLess(a, c)
    decreases |a|
  {
    if |a| > 0 && a[0] == b[0] && b[0] == c[0] {
      LexLessTransitive(a[1..], b[1..], c[1..]);
    }
  }

  lemma {:induction false} LexLessTotal(a: string, b: string)
    requires a != b
    ensures LexLess(a, b) || LexLess(b, a)
    decreases |a|
  {
    if |a| > 0 && |b| > 0 && a[0] == b[0] {
      assert a == [a[0]] + a[1..] && b == [b[0]] + b[1..];
      LexLessTotal(a[1..], b[1..]);
    }
  }
}

=== FILE: types.dfy ===
/** The entities the controller works on: metric-resources, their instances, and errors. */
module Types {
  import opened Seqs

  /** The four resource names the controller knows how to convert and actuate. */
  const CPU_CORE := "CPU-CORE"
  const CPU_QUOTA := "CPU-QUOTA"
  const DISK := "DISK"
  const NET := "NET"

  /** The resource list a configuration may name, including the wildcard. */
  const STRESSABLE: seq<string> := [CPU_CORE, CPU_QUOTA, DISK, NET, "*"]

  /** One running container of a service: the VM's address and the Docker container id. */
  datatype Instance = Instance(host: string, container: string)

  /** The identity of an MR: two MRs with the same service and resource are the same key. */
  datatype MRKey = MRKey(service: string, resource: string)

  /** A metric-resource together with the instances resolved for it at some point in time. */
  datatype MR = MR(service: string, resource: string, instances: seq<Instance>) {
    function Key(): MRKey {
      MRKey(service, resource)
    }
  }

  /** The hosts of a list of instances, in order. */
  function Hosts(instances: seq<Instance>): (hs: seq<string>)
    ensures |hs| == |instances|
    ensures forall i :: 0 <= i < |instances| ==> hs[i] == instances[i].host
  {
    seq(|instances|, i requires 0 <= i < |instances| => instances[i].host)
  }

  /** The errors the original program raises (or exits on) along the modelled paths. */
  datatype Error =
    | KeyError(what: string)          // a dict or hash lookup of a missing key
    | UnpackError(key: string)        // `a, b, c, d = key.split(',')` with the wrong arity
    | EmptyRanking                    // `assert len(mr_score_list) != 0`
    | ZeroDivision                    // a mean over no samples, or `50.0 / 0`
    | EmptyWeights                    // `min([])`
    | InvalidResource(name: string)   // `convert_percent_to_raw` prints and exits
    | NetworkSetError                 // `raise SystemError('Network Set Error')`
}

=== FILE: wrappers.dfy ===
/** Failure-compatible wrappers shared by every module of the model. */
module Wrappers {

  /** A value that may be absent (a Redis reply of nil, a missing key). */
  datatype Option<+T> = None | Some(value: T) {
    predicate IsFailure() {
      None?
    }

    function PropagateFailure<U>(): Option<U>
      requires None?
    {
      None
    }

    function Extract(): T
      requires Some?
    {
      value
    }
  }

  /** Either a value or the error that the original program would raise. */
  datatype Result<+R, +E> = Success(value: R) | Failure(error: E) {
    predicate IsFailure() {
      Failure?
    }

    function PropagateFailure<U>(): Result<U, E>
      requires Failure?
    {
      Failure(error)
    }

    function Extract(): R
      requires Success?
    {
      value
    }
  }
}
